=== FILE: README.md ===
# omero-iscc in Dafny

A model of the OMERO ISCC service (`omero_iscc`). The service watches an
OMERO image server and gives every new image an ISCC-SUM code. It hashes the
image's first original file in chunks, then stores the code as a map
annotation in the namespace `org.iscc.omero.sum`. It can also derive a
"biocode" from the pixel planes themselves and declare the code to an
ISCC-HUB.

The model follows the package's files, one module per concern:

- `ByteSeqs`, `Digits`, `Clock`, `Json`, `Wrappers`: byte strings, decimal
  rendering, clock readings, JSON values and `Result`/`Option`.
- `Arrays`: the slice of NumPy used to canonicalise planes. It covers
  element kinds, byte orders, `frombuffer`, `reshape` and `astype`.
- `ImageWalk` (`imagewalk.py`): plane traversal in Z, C, T order, for one
  image and for a fileset.
- `IsccSum`: the hashing library, seen from outside as a function from the
  chunk sequence to a result.
- `Biocode` (`biocode.py`): `plane_to_bytes` and `biocode`.
- `Declaration` (`biocode.py`): `declare` and `timestamp`, plus a registry
  model of an ISCC-HUB.
- `Omero`: the OMERO objects as data, and the chunked raw-file read loop
  that both hashing paths share.
- `Retry`: the connection retry schedule, with 30 attempts and a backoff of
  ×1.5 capped at 30 s.
- `Service` (`service.py`): the standalone service. It keeps a persisted
  offset watermark and a hash cache.
- `Processor` (`processor.py`): `IsccImageProcessor`.
- `Monitor` (`monitor.py`): `OmeroImageMonitor`.
- `Config` (`config.py`): `ServiceConfig`, covering defaults, the
  environment overlay, the dict/JSON form and `load_config`.
- `Manager` (`service_manager.py`): `IsccServiceManager`.

Python exceptions become `Failure(error)` values, named after the Python
exception class.

Everything the program gets from outside is a parameter of the model:

- the OMERO server's answers, as data on `Image` and `OriginalFile`, and as
  function-typed readers and timelines;
- the hashing library;
- `iscc_crypto`, `int()` and `requests.post`;
- clock readings;
- the environment and the file system.

A read loop that never ends, because the store returns no bytes before the
end of the file, is an explicit outcome (`Spins`, `Diverges`, `Hangs`). It is
not excluded by a precondition.

## Model

| member | source | states |
|---|---|---|
| Arrays.FromBuffer | omero_iscc/imagewalk.py:126 | `frombuffer` succeeds exactly when the buffer length is a multiple of the element width; the elements joined give back the buffer; otherwise `ValueError` |
| Arrays.Reshape | omero_iscc/imagewalk.py:127 | reshaping succeeds exactly when the element count is `rows * cols`, keeps elements and dtype, and yields shape `[rows, cols]`; otherwise `ValueError` |
| Arrays.AsType | omero_iscc/biocode.py:130-133 | converting to another byte order keeps shape, kind and every element's value |
| ImageWalk.PixelKind | omero_iscc/imagewalk.py:98-109 | each of the eight OMERO pixel type names selects its element type; any other name falls back to uint8 |
| ImageWalk.Coords | omero_iscc/imagewalk.py:119-121 | the nested loops visit `sizeZ*sizeC*sizeT` coordinates, each in range and at its loop position |
| ImageWalk.CoordsSorted | omero_iscc/imagewalk.py:119-121 | coordinates are visited in strictly increasing lexicographic (z, c, t) order |
| ImageWalk.CoordsComplete | omero_iscc/imagewalk.py:119-121 | every in-range coordinate is visited, at its loop index |
| ImageWalk.DecodeIndex | omero_iscc/imagewalk.py:119-121 | the loop step counter and the coordinate determine each other |
| ImageWalk.ReadPlane | omero_iscc/imagewalk.py:123-127 | a raw plane becomes a `sizeY x sizeX` array exactly when its length is `sizeY*sizeX*itemsize`; its elements joined are the raw bytes |
| ImageWalk.PlanesAt | omero_iscc/imagewalk.py:119-136 | the walk fails exactly when some plane's read or reshape fails; otherwise one plane per coordinate, tagged with scene and position |
| ImageWalk.Walk | omero_iscc/imagewalk.py:119-136 | a successful walk yields `sizeZ*sizeC*sizeT` valid `sizeY x sizeX` planes in Z, C, T order, with the mapped dtype |
| ImageWalk.IterPlanesImageAsWritten | omero_iscc/imagewalk.py:109-127 | as written, every plane is read in the host's native byte order |
| ImageWalk.IterPlanesImage | omero_iscc/imagewalk.py:61-136 | corrected walk: planes are read big-endian, all planes in Z, C, T order under the given scene |
| ImageWalk.WalkFailsAlikeInAnyOrder | omero_iscc/imagewalk.py:119-136 | whether a walk fails, and its error, are the same whatever byte order the planes are read in |
| ImageWalk.WalkFileset | omero_iscc/imagewalk.py:50-58 | the fileset walk (`Native` order as written, `Big` corrected) succeeds exactly when every image walks as the scene numbered by its position; its planes are the images' walks concatenated, image `k`'s planes filling the slice after those of images `0..k`; scene numbers are below the image count and never decrease |
| ImageWalk.SingleImageFileset | omero_iscc/imagewalk.py:50-58 | a one-image fileset gives exactly that image's walk as scene 0 |
| ImageWalk.AppendScene | omero_iscc/imagewalk.py:56-58 | appending the planes of the next scene keeps scenes bounded and ordered |
| Biocode.PlaneToBytes | omero_iscc/biocode.py:106-135 | a plane of rank other than 2 raises `AttributeError`; otherwise the result has `rows*cols*itemsize` bytes and element `k` sits big-endian in slot `k`, bytes `k*w .. k*w+w` |
| Biocode.PlaneToBytesRowMajor | omero_iscc/biocode.py:121-122 | element `(y, x)` occupies the canonical bytes at index `y*cols + x` |
| Biocode.PlaneToBytesIgnoresByteOrder | omero_iscc/biocode.py:126-133 | both `astype` branches give the same canonical bytes: the stored byte order never matters |
| Biocode.CanonicalStream | omero_iscc/biocode.py:28-29 | it fails exactly when some plane is not two-dimensional; otherwise chunk `k` is the canonical bytes of plane `k` |
| Biocode.CanonicalisesSnoc | omero_iscc/biocode.py:28-29 | the canonical bytes of one more plane, appended, extend the stream of the planes before it |
| Biocode.BigEndianPlaneIsCanonical | omero_iscc/biocode.py:106-135 | a plane read big-endian canonicalises to exactly the raw bytes the store returned, on any host |
| Biocode.UnswappedPlaneIsCanonical | omero_iscc/biocode.py:106-135 | a plane read in an order the host does not swap canonicalises to exactly the raw bytes the store returned |
| Biocode.WalkStreamIsRawPlanes | omero_iscc/biocode.py:27-29 | when the host does not swap the walk's byte order, the stream fed is exactly the raw planes `getPlane(z, c, t)` in Z, C, T order |
| Biocode.CanonicalStreamIsRawPlanes | omero_iscc/biocode.py:27-29 | with the corrected walk, the hasher is fed exactly the raw planes `getPlane(z, c, t)` in Z, C, T order, on any host |
| Biocode.AsWrittenCanonicalDependsOnHost | omero_iscc/imagewalk.py:126 | as written, a one-pixel uint16 plane `00 01` canonicalises to `01 00` on a little-endian host and `00 01` on a big-endian one |
| Biocode.OneByteElements | omero_iscc/biocode.py:118-135 | a plane of one-byte elements canonicalises to its elements, in row-major order, on any host |
| Biocode.TwoByTwoUint8Plane | omero_iscc/biocode.py:118-135 | a 2 x 2 uint8 plane holding 0, 1, 2, 3 canonicalises to bytes `00 01 02 03` on any host |
| Biocode.NoteOf | omero_iscc/biocode.py:31-35 | the note has exactly the keys `iscc_code`, `datahash`, `units` |
| Biocode.BiocodeNoteAsWritten | omero_iscc/biocode.py:15-36 | as written (planes read in native order): `biocode` succeeds exactly when the walk does; its note is the digest, with units, of the canonical plane stream |
| Biocode.BiocodeNote | omero_iscc/biocode.py:15-36 | corrected walk (planes read big-endian): `biocode` succeeds exactly when the walk does; its note is the digest, with units, of the canonical plane stream |
| Biocode.AsWrittenAgreesOnBigEndianHost | omero_iscc/imagewalk.py:126 | on a big-endian host the code as written and the corrected walk give the same result for every image |
| Biocode.AsWrittenBiocodeDependsOnHost | omero_iscc/imagewalk.py:126 | as written, the one-pixel uint16 image stored as `00 01` is hashed as chunk `01 00` on a little-endian host and `00 01` on a big-endian one |
| Biocode.BiocodeDependsOnlyOnPlanes | omero_iscc/biocode.py:15-36 | corrected walk: two images with the same dimensions and the same raw planes get the same note, on any hosts |
| Biocode.StreamOf | omero_iscc/biocode.py:27-29 | corrected walk: the stream has one chunk per plane and chunk `k` is the raw plane at the `k`-th coordinate |
| IsccSum.FeedAllKeepsOrder | omero_iscc/biocode.py:27-30 | feeding chunks one `update` at a time hands the library exactly that chunk sequence |
| IsccSum.DropLast | omero_iscc/biocode.py:34 | `units[:-1]` is every unit but the last, and empty for an empty list |
| Declaration.Timestamp | omero_iscc/biocode.py:96-103 | the timestamp has 24 characters: date and time (year padded to four digits), `.`, three millisecond digits, `Z` |
| Declaration.TimestampMilliseconds | omero_iscc/biocode.py:103 | the three fraction digits read back as `microsecond / 1000` |
| Declaration.Gateway | omero_iscc/biocode.py:69 | the gateway link is the public URL, `/webclient/?show=image-`, then the decimal image id |
| Declaration.GatewayRecoversId | omero_iscc/biocode.py:69 | the image id can be read back from its gateway link |
| Declaration.GatewayInjective | omero_iscc/biocode.py:69 | different images get different gateway links |
| Declaration.RemoveSlash | omero_iscc/biocode.py:71 | `removesuffix("/")` drops one trailing slash and nothing else |
| Declaration.Endpoint | omero_iscc/biocode.py:71 | the endpoint is the hub URL, minus at most one trailing slash, followed by `/declaration` |
| Declaration.EndpointTrailingSlash | omero_iscc/biocode.py:71 | a hub URL with or without its trailing slash gives the same endpoint |
| Declaration.EndpointKeepsSecondSlash | omero_iscc/biocode.py:71 | a URL ending in two slashes keeps one |
| Declaration.ExistingId | omero_iscc/biocode.py:79-84 | the 409 branch answers exactly when the body is a dict whose `error` dict has a truthy `existing_iscc_id` |
| Declaration.Resolve | omero_iscc/biocode.py:72-93 | a transport error gives no id; a 409 with an existing id gives it; otherwise the id at `credentialSubject.declaration.iscc_id`; indexing a non-dict raises `TypeError`; a missing key or bad JSON gives no id |
| Declaration.Extend | omero_iscc/biocode.py:67-69 | the note gains `nonce`, `timestamp` and `gateway` and keeps its other entries |
| Declaration.Declare | omero_iscc/biocode.py:39-93 | no keypair or missing configuration returns nothing and posts nothing; an unparsable hub id raises `ValueError`; a failing nonce raises its error; otherwise exactly the note extended with nonce, timestamp and gateway link and then signed is posted to the hub's endpoint, and the call fails, with `TypeError`, exactly when the hub's answer does not resolve |
| Declaration.SignedCodeAnswered | omero_iscc/biocode.py:88-91 | a hub answering a new code issues the new id and records it |
| Declaration.KnownCodeAnswered | omero_iscc/biocode.py:78-84 | a hub answering a known code returns its existing id through the 409 branch |
| Declaration.FirstDeclarationIssues | omero_iscc/biocode.py:72-93 | with the keypair loaded, every variable set, a parsable hub id and a nonce, the first declaration of a code the hub does not know posts the signed request, resolves to the new id, and the hub records that id for the code |
| Declaration.KnownDeclarationAnswered | omero_iscc/biocode.py:72-93 | a fully configured declaration of a code the hub already knows resolves to the id the hub issued before, through the 409 branch |
| Declaration.DeclareTwiceSameId | omero_iscc/biocode.py:39-93 | with both environments fully configured and both nonces issued, the first declaration posts and is issued a new id, and declaring the same note again, with its own clock, nonce and signature, against the hub after the first declaration yields that same id |
| Digits.PadRoundTrip | omero_iscc/biocode.py:103 | a zero-padded field reads back as the number it renders when it fits |
| Digits.DecimalRoundTrip | omero_iscc/biocode.py:69 | `int(str(n)) == n` for the decimal rendering |
| Clock.IsoFormat | omero_iscc/processor.py:154 | `isoformat()` writes 19 characters without microseconds, else 26 with a `.` fraction, both starting with the date and time |
| Omero.ReadLoopKeeps | omero_iscc/processor.py:96-108 | whatever the outcome, the loop keeps every chunk it started from, and every chunk it adds is non-empty and requested at the offset reached, at `min(chunk, size - offset)`; it ends fed only once all `size` bytes are reached, raised only with the error of the read at the offset reached inside the file, and spinning only on an empty read there |
| Omero.ReadLoop | omero_iscc/processor.py:96-108 | a loop already at `size` feeds what it has at once; fed or spinning, it keeps every chunk it started from, and it reads more only while inside the file |
| Omero.ReadChunks | omero_iscc/processor.py:92-108 | the read loop from offset 0: all its chunks are read as the loop reads them; fed means `size` bytes reached, and an empty file feeds nothing; a raise carries the error of the read at the offset reached, and a spin sits on an empty read inside the file |
| Omero.ReadCoversFile | omero_iscc/processor.py:96-108 | with a store that never over-delivers, the fed chunks cover exactly `size` bytes |
| Omero.ReadLoopThrough | omero_iscc/processor.py:96-108 | from any prefix of chunks the loop reads, it continues exactly as from all of them |
| Omero.EmptyReadSpins | omero_iscc/processor.py:101-107 | an empty read at any offset the loop reaches inside the file, the first or a later one, makes it spin there with exactly the earlier chunks fed |
| Omero.FailingReadRaises | omero_iscc/processor.py:101-107 | a read that raises at any offset the loop reaches inside the file ends the loop with that error after exactly the earlier chunks |
| Omero.ReadLoopFeeds | omero_iscc/processor.py:96-108 | a positive chunk size and a store that always makes progress feed the whole file |
| Retry.NextDelay | omero_iscc/service_manager.py:250-252 | the next delay is `1.5 * d` unless that exceeds 30, then 30 |
| Retry.Delay | omero_iscc/service_manager.py:236-252 | the first sleep is 2 seconds and no sleep exceeds 30 |
| Retry.DelayBounds | omero_iscc/service_manager.py:236-252 | every delay lies between 2 and 30 seconds |
| Retry.DelayMonotone | omero_iscc/service_manager.py:236-252 | delays never shrink |
| Retry.DelayValues | omero_iscc/service_manager.py:236-252 | the schedule is 2, 3, 4.5, 6.75, 10.125, 15.1875, 22.78125, then 30 |
| Retry.DelayCapped | omero_iscc/service_manager.py:250-252 | from the eighth delay on, every delay is 30 |
| Retry.ConnectFrom | omero_iscc/service_manager.py:237-255 | from attempt `k`, each attempt records `connects(k+i)`; sleeps follow the schedule; the loop stops at the first success or after attempt 29 |
| Retry.Connect | omero_iscc/service_manager.py:235-255 | at most 30 attempts, attempt `i` sleeps `Delay(i)` unless it is the last; the last sleeps nothing; a failed last attempt is the 30th |
| Retry.ConnectStopsAtFirstSuccess | omero_iscc/service_manager.py:237-241 | the loop connects exactly when one of the 30 attempts succeeds, and every attempt before the last failed |
| Retry.SleepsBounded | omero_iscc/service_manager.py:249-252 | sleeps are non-decreasing and at most 30 s |
| Retry.SleptIsDelaySum | omero_iscc/service_manager.py:249 | the time slept is the sum of the scheduled delays |
| Retry.GivingUpTakes | omero_iscc/service_manager.py:253-255 | a server that never answers costs 30 attempts and 724.34375 s of sleep before giving up |
| Service.LoadState | omero_iscc/service.py:33-53 | a missing, unreadable or unusable state file resets to offset 0 and an empty cache; a loadable one restores the offset and keeps the cache in memory |
| Service.StateJson | omero_iscc/service.py:61-71 | the saved document has keys `offset` and `seen`; `seen` has one entry per cached hash |
| Service.SaveState | omero_iscc/service.py:56-80 | a full write stores the state's document; an unopened file is left as it was; a broken-off write leaves an unreadable file |
| Service.SaveLoadRoundTrip | omero_iscc/service.py:33-80 | saving then loading restores the offset; the cache is not read back |
| Service.BrokenSaveResetsOffset | omero_iscc/service.py:47-50 | a save that breaks off part-way makes the next load reset the offset to 0 |
| Service.AnnotationPairs | omero_iscc/service.py:186-192 | the stored pairs are `iscc:sum`, then `iscc:data` and `iscc:inst` for the first two units when present |
| Service.HashFile | omero_iscc/service.py:140-179 | a cached hash is reused; otherwise the digest of the chunks fed, with `Success(None)` exactly when the loop spins; a failure is the error raised opening the store or by the read that ends the loop |
| Service.ProcessImage | omero_iscc/service.py:113-205 | an image already in the namespace is skipped; no files is reported; otherwise it hangs exactly when hashing the first file spins, and else the cache maps the first file's hash to the hashing result, which is the cached one when present, and the image is annotated with that result's pairs (or the save error is reported); the cache only ever gains the first file's hash |
| Service.FreshImageHashesFile | omero_iscc/service.py:140-192 | an uncached first file that reads to its end is hashed, cached under its hash, and the image annotated with the new result |
| Service.Step | omero_iscc/service.py:200-205 | unless the loop hangs, the offset becomes the image id and is saved, whatever the outcome |
| Service.CachedImageReusesResult | omero_iscc/service.py:144-146 | an image whose first file's hash is cached is annotated with the cached result and the cache is unchanged |
| Service.BatchStopsOnlyAtHang | omero_iscc/service.py:240-248 | the batch gives at most one outcome per image; only the last outcome can be a hang, without one every remaining image is handled, and handling none leaves the service as it was |
| Service.BatchKeepsCache | omero_iscc/service.py:240-248 | every hash cached before the batch keeps its result |
| Service.BatchWatermark | omero_iscc/service.py:240-248 | a batch that handles images and does not end in a hang leaves the offset at the last image's id |
| Service.ProcessBatch | omero_iscc/service.py:240-248 | a batch gives at most one outcome per remaining image, and none exactly when no image is left |
| Service.BatchOutcomeAt | omero_iscc/service.py:240-248 | the `i`-th outcome of a batch is `Step` of image `k + i` with save `k + i`, on the service left by the steps of the images before it |
| Service.BatchEndsThrough | omero_iscc/service.py:240-248 | a batch leaves the service that its steps threaded, up to its last step, or up to the step before a hang |
| Service.CycleOutcomeAt | omero_iscc/service.py:234-248 | the `i`-th outcome of a cycle is `Step` of the `i`-th image of the server's answer, with the `i`-th save, on the service the cycle's earlier images left |
| Service.ResultJson | omero_iscc/service.py:59-65 | a cached result is saved as exactly `iscc` and `units`, the code and the units in order, without the data hash |
| Service.PollCycle | omero_iscc/service.py:234-256 | at most 100 images per cycle; a failing query changes nothing; no cached hash loses its result; a cycle without a hang handles `min(100, n)` images (each outcome is stated by `Service.CycleOutcomeAt`) |
| Service.CycleAdvancesWatermark | omero_iscc/service.py:240-248 | after a cycle without a hang, the watermark is the id of the last image handled |
| Service.Start | omero_iscc/service.py:208-229 | the state is loaded with an empty cache, and the loop polls exactly when one of 30 attempts connects |
| Processor.GenerateIscc | omero_iscc/processor.py:73-122 | diverges exactly when the read loop spins; yields a code exactly when the loop feeds the whole file; the code is the digest without units of the chunks fed; none exactly when opening the store or a read raises |
| Processor.StoredPairs | omero_iscc/processor.py:150-156 | five pairs in order: `iscc:sum`, `iscc:version` 1.0, `iscc:source_file`, `iscc:timestamp`, `iscc:processor`; every key starts with `iscc:` |
| Processor.StoreAnnotation | omero_iscc/processor.py:131-168 | the annotation is stored in the processor's namespace exactly when saving succeeds; otherwise the error is re-raised |
| Processor.ProcessImage | omero_iscc/processor.py:32-71 | no files or a failing file list give no code; a code comes with the stored annotation of the first file; the call hangs exactly when hashing the first file does |
| Processor.OnlyFirstFileCounts | omero_iscc/processor.py:53-54 | the outcome depends on the first original file only |
| Processor.ReadableImageGetsCode | omero_iscc/processor.py:59-66 | an image whose first file reads to its end and accepts annotations gets a non-empty code, stored |
| Processor.IsccEntries | omero_iscc/processor.py:185-188 | the dict holds only `iscc:` keys |
| Processor.IsccEntriesKeys | omero_iscc/processor.py:186-188 | a key is in the dict exactly when it starts with `iscc:` and some pair has it |
| Processor.IsccEntriesLastWins | omero_iscc/processor.py:186-188 | the value kept for a key is that of its last pair |
| Processor.CarriesIsccWhenKeyed | omero_iscc/processor.py:181-190 | an annotation yields a dict exactly when it is a map annotation in the namespace with an `iscc:` key |
| Processor.FirstIsccEntries | omero_iscc/processor.py:179-193 | a dict is found exactly when an annotation carrying a code comes before any namespaced non-map annotation, whose unpacking raises; it is non-empty with `iscc:` keys |
| Processor.FirstIsccEntriesIsFirst | omero_iscc/processor.py:180-190 | the dict found is the one of the first carrying annotation when no namespaced non-map annotation precedes it |
| Processor.UnreadableHidesLaterCodes | omero_iscc/processor.py:179-193 | a namespaced non-map annotation before any carrying one makes the lookup raise and answer None, whatever follows |
| Processor.GetIsccForImage | omero_iscc/processor.py:170-193 | a failing annotation list gives None; otherwise a dict exactly when an annotation carrying a code comes before any namespaced non-map annotation |
| Processor.StoredPairsSum | omero_iscc/processor.py:150-156 | the stored pairs carry a code, and their `iscc:sum` entry is the code |
| Processor.StoredCodeIsFound | omero_iscc/processor.py:60-66 | after `process_image` stores a code on an image with no earlier code and no namespaced non-map annotation, `get_iscc_for_image` finds it under `iscc:sum` |
| Monitor.AnyIsccKey | omero_iscc/monitor.py:86-88 | true exactly when some key starts with `iscc:` |
| Monitor.AnyMarked | omero_iscc/monitor.py:80-91 | true exactly when a map annotation in the namespace with an `iscc:` key comes before any namespaced non-map annotation, whose unpacking raises and answers false |
| Monitor.HasIsccAnnotation | omero_iscc/monitor.py:71-91 | a failing annotation list counts as not annotated; otherwise true exactly when a marked annotation comes before any namespaced non-map annotation |
| Monitor.HasIsccAgreesWithStoredCode | omero_iscc/monitor.py:71-91 | the monitor skips exactly the images for which the processor finds a code |
| Monitor.Unannotated | omero_iscc/monitor.py:63-66 | exactly the listed images without a code, in timeline order |
| Monitor.Scan | omero_iscc/monitor.py:58-66 | the generator loop yields at most `batch_size - count` images |
| Monitor.ScanTakesUnannotated | omero_iscc/monitor.py:58-66 | the loop yields the first `batch_size - count` images without a code |
| Monitor.GetNewImages | omero_iscc/monitor.py:38-69 | a failing timeline yields nothing; otherwise the first `batch_size` images without a code, from the window since the last check or the most recent list |
| Monitor.DistinctIdsCount | omero_iscc/monitor.py:104-113 | a list without repeated ids has as many ids as entries |
| Monitor.Dispatch | omero_iscc/monitor.py:104-120 | every yielded id joins `processed_ids`; images handed on are distinct, new and from the list; their ids are exactly the added ones |
| Monitor.DispatchInOrder | omero_iscc/monitor.py:104-120 | the images handed on are, in the listed order, exactly those at the positions whose id is not yet processed and not seen earlier in the list |
| Monitor.DispatchKeeps | omero_iscc/monitor.py:104-113 | handing on a new image ahead of the rest keeps the handed-on images distinct, new and accounted for |
| Monitor.DispatchCounts | omero_iscc/monitor.py:104-113 | `new_count` equals the number of ids the poll added |
| Monitor.Poll | omero_iscc/monitor.py:93-128 | the window runs from the last check; `last_check_time` is recorded; the images handed on are exactly those of `get_new_images` whose ids were not yet processed, each once (their order is `Monitor.PollInOrder`); `new_count` counts the added ids, at most `batch_size`; the other fields do not change |
| Monitor.PollInOrder | omero_iscc/monitor.py:104-120 | a poll hands on the images of `get_new_images` in their listed order, keeping exactly the first occurrence of each id not yet processed |
| Monitor.PollOnceAsWritten | omero_iscc/monitor.py:123 | as written, the recorded check time is the one taken after the batch is handled |
| Monitor.PollOnce | omero_iscc/monitor.py:49-56 | corrected: the recorded check time is the query's upper end `tto` |
| Monitor.AsWrittenPollLeavesGap | omero_iscc/monitor.py:52-53 | as written, an image imported after `tto` and before the check time is recorded lies in neither window |
| Monitor.PollsTile | omero_iscc/monitor.py:49-56 | corrected, the second poll's window starts where the first one's ended |
| Monitor.RunLoop | omero_iscc/monitor.py:141-156 | a running loop polls once per tick before the first stop request and is still running exactly when no stop request comes; a stopped one never polls and changes nothing |
| Monitor.Run | omero_iscc/monitor.py:130-156 | `run` raises the running flag, then polls once per tick before the first stop request; it is still running exactly when no stop request comes |
| Monitor.Stop | omero_iscc/monitor.py:158-160 | only the running flag changes, to false |
| Monitor.StopBeforeRunIsLost | omero_iscc/monitor.py:136-141 | a `stop` before `run` has raised the flag has no effect: the monitor still polls |
| Monitor.RunTiles | omero_iscc/monitor.py:141-149 | corrected, over a whole run the first window starts at the last check and each later window starts where the previous one ended |
| Monitor.NewMonitor | omero_iscc/monitor.py:15-36 | a new monitor has never checked, has processed nothing and is not running, and keeps the interval, batch size and namespace it was given |
| Monitor.Window | omero_iscc/monitor.py:49-56 | a range is asked for exactly when there was a previous check; its ends are the last check and now in whole milliseconds, cut off toward zero, and a later `now` never gives an empty range |
| Clock.EpochMillis | omero_iscc/monitor.py:51-52 | `int(timestamp() * 1000)` is the whole number of milliseconds at or below the reading |
| Config.FieldsDistinct | omero_iscc/config.py:10-36 | the field list has no duplicates |
| Config.FieldsComplete | omero_iscc/config.py:10-36 | every field is in the field list |
| Config.NameIdentifiesField | omero_iscc/config.py:10-36 | each field's name leads back to the field |
| Config.NameOfFieldNamed | omero_iscc/config.py:10-36 | only field names lead to a field |
| Config.Get | omero_iscc/config.py:10-36 | every field holds a value of its declared type |
| Config.Set | omero_iscc/config.py:90 | `setattr` changes exactly the named field |
| Config.SameFieldsSameConfig | omero_iscc/config.py:10-36 | configs with the same value in every field are equal |
| Config.AsciiLower | omero_iscc/config.py:87 | lowering keeps the length and maps `A`-`Z` to `a`-`z`, leaving other characters alone |
| Config.Coerce | omero_iscc/config.py:85-90 | a boolean field becomes true exactly for `true`, `1`, `yes` in any case; an int field parses or raises `ValueError`; string fields keep the raw value |
| Config.Overlay | omero_iscc/config.py:81-90 | the `env_map` loop over the listed fields: only `ValueError` escapes, and with none of their variables set the configuration is unchanged (per field: OverlayFields) |
| Config.OverlayFields | omero_iscc/config.py:81-90 | the overlay fails exactly when a listed field's variable does not parse; on success, listed fields take their overlaid values and the others are unchanged |
| Config.OverlayFailsWhenUnparsable | omero_iscc/config.py:81-90 | over all fields, the overlay fails exactly when some integer variable does not parse |
| Config.OverlaySetsField | omero_iscc/config.py:81-90 | a set variable gives its field the coerced value; an unset one leaves the field alone |
| Config.FromEnvFails | omero_iscc/config.py:52-92 | `from_env` raises `ValueError` exactly when some integer variable does not parse |
| Config.FromEnvField | omero_iscc/config.py:52-92 | a set variable gives its field the coerced value; every other field keeps its default |
| Config.FromEnv | omero_iscc/config.py:52-92 | only `ValueError` escapes `from_env`, and with none of its variables set it gives the defaults |
| Config.SecureFromEnv | omero_iscc/config.py:86-87 | `OMERO_ISCC_SECURE` enables `secure` exactly for `true`, `1` or `yes`, in any case |
| Config.JsonValue | omero_iscc/config.py:48-50 | a JSON entry gives a field only a value of the field's own type; anything else is a `TypeError` |
| Config.JsonValueInverts | omero_iscc/config.py:48-50 | a value written to JSON reads back as itself |
| Config.DictOfEntries | omero_iscc/config.py:94-100 | the dict of a field list has exactly those fields' names, each with the field's JSON value |
| Config.ToDict | omero_iscc/config.py:94-100 | `asdict` gives a dict |
| Config.DictOfComplete | omero_iscc/config.py:94-100 | over a list of all fields, the dict's keys are exactly the field names, each holding its field's value |
| Config.ToDictEntries | omero_iscc/config.py:94-100 | the dict's keys are exactly the field names, each holding that field's value |
| Config.FromDict | omero_iscc/config.py:48-50 | a non-dict, or a dict with a key that names no field, raises `TypeError` |
| Config.FromDictFields | omero_iscc/config.py:48-50 | a dict whose keys all name fields, partial or complete, fails exactly when an entry's type does not fit its field; otherwise each field with an entry takes it and every other field keeps its default |
| Config.AssignAll | omero_iscc/config.py:48-50 | assigning distinct listed fields from a dict that holds `target`'s values succeeds, gives each listed field `target`'s value and leaves the others alone |
| Config.AssignRebuilds | omero_iscc/config.py:48-50 | assigning every field from a dict holding `target`'s values rebuilds `target` |
| Config.SavedValues | omero_iscc/config.py:94-100 | the dict `save` writes holds every field's value under the field's name |
| Config.SavedKeysKnown | omero_iscc/config.py:94-109 | every key of a saved dict names a field |
| Config.DictRoundTrip | omero_iscc/config.py:38-109 | `from_file` reads back exactly the config `save` wrote |
| Config.LoadConfig | omero_iscc/config.py:112-127 | an existing config file wins; otherwise the environment overlay on the defaults |
| Config.SavedConfigLoads | omero_iscc/config.py:102-127 | a config saved to a file loads back unchanged, whatever the environment |
| Manager.NewManager | omero_iscc/service_manager.py:21-31 | a new manager keeps its config, is not running and has no gateway, monitor or processor |
| Manager.Disconnect | omero_iscc/service_manager.py:132-141 | the gateway is dropped even when closing raises; nothing else changes |
| Manager.InitializeComponents | omero_iscc/service_manager.py:143-163 | `RuntimeError` exactly without a gateway; otherwise a processor and a monitor built from the config, and nothing else changes |
| Manager.ComponentsShareNamespace | omero_iscc/service_manager.py:149-161 | processor and monitor use the config's namespace, so the monitor skips exactly the images the processor finds a code for |
| Manager.Callback | omero_iscc/service_manager.py:165-199 | without a processor nothing happens; an image with a code is skipped; otherwise the callback hangs exactly when processing does, reports no code exactly when processing returns none, and a new code is stored and triggers a webhook exactly when a non-empty URL is configured, carrying image id, name and code |
| Manager.WebhookOnlyForNewCodes | omero_iscc/service_manager.py:177-182 | an image that already has a code gets no processing and no webhook |
| Manager.Stop | omero_iscc/service_manager.py:275-284 | running becomes false, the monitor (if any) is stopped, and the gateway is dropped |
| Manager.SuppressFlags | omero_iscc/service_manager.py:238-239 | attempt `i` runs with errors suppressed exactly when it is neither the first nor the 30th |
| Manager.Callbacks | omero_iscc/monitor.py:104-120 | the callbacks of one poll are made in order on the images handed on; only the last can hang, and when it does no later image is handed on |
| Manager.Ready | omero_iscc/service_manager.py:229-266 | the manager the connected run hands to the monitor: `running` set, a connected gateway, and `initialize_components()` succeeding on it with a processor and a monitor |
| Manager.SessionOf | omero_iscc/service_manager.py:257-273 | for a given check-time recording, the monitor's run keeps the polls up to the first one whose callbacks block, each with its callbacks; a blocked poll made no more callbacks than it handed on images; the run ends stopped exactly when no callback blocks and a stop request comes, and otherwise runs on or stays blocked |
| Manager.RunConnected | omero_iscc/service_manager.py:257-273 | after connecting, only a stop request the loop reaches ends the run, and then `stop()` clears the running flag, stops the monitor and drops the gateway; events running out leave it running and connected with the monitor running; a blocking callback leaves it running and connected, with the monitor of `Manager.BlockedMonitor` |
| Manager.BlockedMonitor | omero_iscc/monitor.py:104-117 | a blocked run's `processed_ids` are those of the last completed poll (the start, before any) plus exactly the ids of the images its blocked poll handed on up to and including the blocking one |
| Manager.Run | omero_iscc/service_manager.py:229-273 | at most 30 attempts, only those strictly between the first and the last run quietly; giving up leaves the service marked running with an unconnected gateway; after a connection the monitor runs, polling once per tick unless a callback blocks, and the service stops exactly when a stop request is reached |
| Manager.GivingUpLeavesNoMonitor | omero_iscc/service_manager.py:253-255 | when every attempt fails, no components are created, the monitor never runs and the service stays marked running |
| Manager.RunStopsOnlyOnRequest | omero_iscc/service_manager.py:257-273 | without a stop request the service is still running and connected after `run`, whether polling or blocked |
| Manager.HangingCallbackBlocks | omero_iscc/service_manager.py:164-198 | a first callback that never returns blocks the run before any poll completes, leaving the service running and connected |
| Manager.ConnectedRunPolls | omero_iscc/service_manager.py:237-266 | the attempt that connects ends the retries and, unless a callback blocks, the monitor polls until the first stop request |
| Manager.MonitorStatus | omero_iscc/service_manager.py:301-309 | `active` says whether there is a monitor; `last_check` is a string exactly when a check time is recorded; `processed_count` counts the session's ids, 0 without a monitor |
| Manager.Status | omero_iscc/service_manager.py:286-310 | the report has exactly `running`, `connected`, `config`, `monitor`; `connected` holds exactly for a connected gateway; `monitor` is the monitor's report |
| Manager.ConfigStatus | omero_iscc/service_manager.py:295-300 | the `config` entry holds exactly host, port, poll interval and namespace, with the config's values, and never the username or password |
| Manager.StatusAfterGivingUp | omero_iscc/service_manager.py:253-255 | after giving up, the status says running, not connected, and the monitor inactive |
| Manager.StatusAfterStop | omero_iscc/service_manager.py:275-284 | after `stop()` the status says neither running nor connected |

## Left out

- Network and server I/O (`BlitzGateway`, the raw file and pixel stores, `requests`) are inputs: images, files, readers and timelines given as data or functions. Closing stores and the `finally` clauses that only close them are not modelled.
- The ISCC-SUM library and `iscc_crypto` are abstract functions. Nothing is said about the code's bytes beyond its dependence on the chunk sequence.
- Logging, log-level suppression in `connect(suppress_errors)` beyond the per-attempt flag, signal handlers, `_setup_logging` and `main()` are left out, as are the scripts directory and `__main__` blocks: they do not affect state.
- `time.sleep` is recorded as the delay value only; the monitor's `poll_interval` sleeps and `POLL_SECONDS` are not modelled.
- `connect()` is one boolean per attempt. Its internals (gateway construction, `getUser()` raising after a successful connect) are folded into that boolean.
- `KeyboardInterrupt` and the catch-all `except Exception` around `run` loops are not modelled. The monitor loop ends only at an explicit stop request; a run whose events run out is reported as still running, and one whose callback never returns as blocked.
- Omero.Annotation: a non-map annotation is one whose `getValue()` cannot be unpacked into key/value pairs, so the loops in `_has_iscc_annotation` and `get_iscc_for_image` raise on it. A comment or tag whose text is empty iterates nothing and does not raise in Python; the model does not distinguish it from other non-map annotations.
- Monitor.Poll: the generator interleaving is not modelled. The callback runs between two yields, so in the source a timeline that lists the same image twice sees it annotated the second time and does not yield or count it again. The model checks every image before dispatching any, so such a repeat counts toward `batch_size`. It is still dispatched at most once.
- Monitor.GetNewImages: a timeline whose answer changes while the poll is running is not modelled; the timeline is read once.
- Manager.Run: the monitor records its check time after each batch, as written. The callbacks' clock readings are a parameter, `clock(i)(j)` for the `j`-th callback of poll `i`. A blocked run's monitor is stated through its `processed_ids` (`Manager.BlockedMonitor`); its `last_check_time` is that of the last completed poll, which no contract states.
- Manager.NewManager: takes the config itself; `config or ServiceConfig()` with `None` is `NewManager(Config.Default)`.
- Manager.RunConnected: exceptions a callback raises are caught by `process_image` and become `NoCode`; only a callback that never returns (a read loop that spins) blocks the run.
- Manager.Callback: the webhook's `timestamp` (a float from `time.time()`), the HTTP status and the failure of the POST are left out; only the request made is modelled.
- Config.FromDict: rejects an entry whose JSON type differs from the field's type, whereas `cls(**data)` stores any value unchecked; the model keeps configs well-typed.
- Config.AsciiLower: lowers ASCII letters only; this is exact for the comparison with `true`, `1` and `yes`, since no other character lowers to one of their letters.
- Config.Coerce: Python's `int()` is an abstract partial parser; its accepted syntax (signs, underscores, whitespace) is not modelled.
- Floating-point pixel values are carried as raw bytes; no arithmetic is done on them.
- `dtype.char` and the NumPy `copy=False` distinction in `plane_to_bytes` have no observable effect on the bytes and are not modelled.
- Service: the offset watermark is kept as JSON because `load_state` restores whatever the file holds; `conn.getObjects(..., opts)` is an abstract query on that value.
- Service.LoadState: the hash cache is never rebuilt from the file, as in the source; only the offset is restored.

## Findings

| source | as written | input that shows it | evidently intended | confidence | as-written member | corrected member |
|---|---|---|---|---|---|---|
| omero_iscc/imagewalk.py:126 | raw plane bytes are read with a native-order dtype, so `plane_to_bytes` byte-swaps them on little-endian hosts | a one-pixel uint16 plane whose store returns `00 01` canonicalises to `01 00` on a little-endian host and to `00 01` on a big-endian one | the canonical bytes are host-independent: OMERO's pixel store returns big-endian data, so the planes should be read big-endian and the canonical bytes equal the raw ones | not executed | Biocode.AsWrittenBiocodeDependsOnHost | Biocode.CanonicalStreamIsRawPlanes |
| omero_iscc/monitor.py:123 | `last_check_time` is set after the batch is handled, while the queried window ended at `tto`, taken before it | an image imported at time `t` with `tto < t < last_check_time` falls outside the first poll's window and before the second poll's `tfrom` | each poll's window starts where the previous one ended, so that no import time is skipped | not executed | Monitor.AsWrittenPollLeavesGap | Monitor.PollsTile |

=== FILE: arrays.dfy ===
/** The slice of NumPy the canonicalisation relies on: element types with a
    fixed width, byte orders, `frombuffer`, `reshape` and `astype`.

    An element is kept as the raw bytes it occupies in memory, in the array's
    byte order; its numeric value is never computed, so floating-point types
    are as exact as integer ones. */
module Arrays {
  import opened Wrappers
  import opened ByteSeqs

  datatype ElemKind = U8 | U16 | U32 | I8 | I16 | I32 | F32 | F64 {
    /** `dtype.itemsize` */
    function Width(): (w: nat)
      ensures w in {1, 2, 4, 8}
    {
      match this
      case U8 => 1
      case I8 => 1
      case U16 => 2
      case I16 => 2
      case U32 => 4
      case I32 => 4
      case F32 => 4
      case F64 => 8
    }
  }

  /** `dtype.byteorder`: `>`, `<`, `=` (the host's order) and `|` (one byte,
      order does not apply). */
  datatype ByteOrder = Big | Little | Native | NotApplicable

  datatype DType = DType(kind: ElemKind, order: ByteOrder)

  /** Whether an element of this order lies in memory least significant byte
      first on a host whose `np.little_endian` is `hostLittle`. */
  predicate StoredLittle(o: ByteOrder, hostLittle: bool) {
    o == Little || (o == Native && hostLittle)
  }

  /** A C-contiguous array: `data` lists the elements in row-major order. */
  datatype NdArray = NdArray(dtype: DType, shape: seq<nat>, data: seq<Bytes>)

  function Product(shape: seq<nat>): nat {
    if |shape| == 0 then 1 else Product(shape[..|shape| - 1]) * shape[|shape| - 1]
  }

  /** One element per cell of the shape, each exactly `itemsize` bytes. */
  predicate Valid(a: NdArray) {
    |a.data| == Product(a.shape) && FixedWidth(a.data, a.dtype.kind.Width())
  }

  /** The element `a[y, x]` of a two-dimensional array. */
  function At2(a: NdArray, y: nat, x: nat): Bytes
    requires |a.shape| == 2 && |a.data| == a.shape[0] * a.shape[1]
    requires y < a.shape[0] && x < a.shape[1]
  {
    RowMajorBound(y, x, a.shape[0], a.shape[1]);
    a.data[y * a.shape[1] + x]
  }

  lemma RowMajorBound(y: nat, x: nat, rows: nat, cols: nat)
    requires y < rows && x < cols
    ensures y * cols + x < rows * cols
  {
    assert y * cols + x < y * cols + cols == (y + 1) * cols;
    assert (y + 1) * cols <= rows * cols by { MulLe(y + 1, rows, cols); }
  }

  /** The element's value written most significant byte first. */
  function BigEndianBytes(e: Bytes, o: ByteOrder, hostLittle: bool): Bytes {
    if StoredLittle(o, hostLittle) then Reverse(e) else e
  }

  /** The element values of `a`, each as big-endian bytes: what the array
      means, independently of how it is laid out in memory. */
  function Values(a: NdArray, hostLittle: bool): (r: seq<Bytes>)
    ensures |r| == |a.data|
  {
    seq(|a.data|, i requires 0 <= i < |a.data| => BigEndianBytes(a.data[i], a.dtype.order, hostLittle))
  }

  /** `buf` cut into `n` consecutive pieces of `w` bytes. */
  function Split(buf: Bytes, w: nat, n: nat): (r: seq<Bytes>)
    requires |buf| == n * w
    ensures |r| == n
    ensures FixedWidth(r, w)
    ensures Join(r) == buf
    decreases n
  {
    if n == 0 then []
    else
      var rest := Split(buf[w..], w, n - 1);
      JoinConcat([buf[..w]], rest);
      assert Join([buf[..w]]) == buf[..w] by { assert [buf[..w]][..0] == []; }
      [buf[..w]] + rest
  }

  /** `np.frombuffer(buf, dtype)`: a one-dimensional array over `buf`; a
      length that is not a multiple of the item size raises `ValueError`. */
  function FromBuffer(buf: Bytes, dt: DType): (r: Result<NdArray>)
    ensures r.Success? <==> |buf| % dt.kind.Width() == 0
    ensures r.Failure? ==> r.error == ValueError
    ensures r.Success? ==> Valid(r.value) && |r.value.shape| == 1
    ensures r.Success? ==> r.value.dtype == dt && Join(r.value.data) == buf
  {
    var w := dt.kind.Width();
    if |buf| % w != 0 then Failure(ValueError)
    else
      var n := |buf| / w;
      var a := NdArray(dt, [n], Split(buf, w, n));
      assert Product(a.shape) == n by { assert a.shape[..0] == []; }
      Success(a)
  }

  /** `a.reshape(rows, cols)` of a C-contiguous array: the same elements in
      the same order under a new shape; a size mismatch raises `ValueError`. */
  function Reshape(a: NdArray, rows: nat, cols: nat): (r: Result<NdArray>)
    requires Valid(a)
    ensures r.Success? <==> |a.data| == rows * cols
    ensures r.Failure? ==> r.error == ValueError
    ensures r.Success? ==> Valid(r.value) && r.value.shape == [rows, cols]
    ensures r.Success? ==> r.value.data == a.data && r.value.dtype == a.dtype
  {
    if |a.data| != rows * cols then Failure(ValueError)
    else
      var b := NdArray(a.dtype, [rows, cols], a.data);
      assert Product(b.shape) == rows * cols by {
        assert b.shape[..1] == [rows];
        assert [rows][..0] == [];
        assert Product([rows]) == rows;
      }
      Success(b)
  }

  /** `a.astype(dtype with byte order o)`: every element keeps its value and
      is rewritten in the new order. */
  function AsType(a: NdArray, o: ByteOrder, hostLittle: bool): (r: NdArray)
    requires Valid(a)
    ensures Valid(r) && r.shape == a.shape && r.dtype == DType(a.dtype.kind, o)
    ensures Values(r, hostLittle) == Values(a, hostLittle)
  {
    var vals := Values(a, hostLittle);
    var r := NdArray(DType(a.dtype.kind, o), a.shape,
      seq(|vals|, i requires 0 <= i < |vals| =>
        if StoredLittle(o, hostLittle) then Reverse(vals[i]) else vals[i]));
    forall i | 0 <= i < |vals|
      ensures Values(r, hostLittle)[i] == vals[i]
    {
      if StoredLittle(o, hostLittle) {
        ReverseReverse(vals[i]);
      }
    }
    r
  }
}

=== FILE: biocode.dfy ===
/** Canonical plane bytes, the biocode of an image, and the signed
    declaration of that code to an ISCC-HUB registry. */
module Biocode {
  import opened Wrappers
  import opened Json
  import opened Digits
  import opened ByteSeqs
  import opened Arrays
  import opened ImageWalk
  import opened IsccSum
  import Clock

  // ---------------------------------------------------------------------
  // Canonical plane bytes

  lemma Product2(shape: seq<nat>)
    requires |shape| == 2
    ensures Product(shape) == shape[0] * shape[1]
  {
    assert shape[..1][..0] == [];
    assert Product(shape[..1]) == shape[0];
  }

  /** `plane_to_bytes` on the plane's `xy_array`. A rank other than 2 fails:
      the error message reads `plane.ndim`, which a plane does not have, so
      the failure is an `AttributeError` rather than the documented
      `ValueError`. Otherwise the elements, flattened in C order, are each
      written big-endian: both arms of the source's byte-order test convert
      to `>` order. */
  function PlaneToBytes(xy: NdArray, hostLittle: bool): (r: Result<Bytes>)
    requires Valid(xy)
    ensures r.Failure? <==> |xy.shape| != 2
    ensures r.Failure? ==> r.error == AttributeError
    ensures r.Success? ==> |r.value| == xy.shape[0] * xy.shape[1] * xy.dtype.kind.Width()
    ensures r.Success? ==> forall k :: 0 <= k < |xy.data| ==>
      SlotIs(r.value, k, xy.dtype.kind.Width(), BigEndianBytes(xy.data[k], xy.dtype.order, hostLittle))
  {
    if |xy.shape| != 2 then Failure(AttributeError)
    else
      var w := xy.dtype.kind.Width();
      var vals := Values(xy, hostLittle);
      assert FixedWidth(vals, w);
      Product2(xy.shape);
      JoinSlots(vals, w);
      forall k | 0 <= k < |xy.data|
        ensures SlotIs(Join(vals), k, w, BigEndianBytes(xy.data[k], xy.dtype.order, hostLittle))
      {
        assert vals[k] == BigEndianBytes(xy.data[k], xy.dtype.order, hostLittle);
      }
      Success(Join(vals))
  }

  /** Row-major layout: element `(y, x)` of a plane occupies canonical bytes
      `[(y * cols + x) * w, (y * cols + x + 1) * w)`, Y outer and X inner. */
  lemma PlaneToBytesRowMajor(xy: NdArray, hostLittle: bool, y: nat, x: nat)
    requires Valid(xy) && |xy.shape| == 2
    requires y < xy.shape[0] && x < xy.shape[1]
    ensures Product(xy.shape) == xy.shape[0] * xy.shape[1]
    ensures PlaneToBytes(xy, hostLittle).Success?
    ensures SlotIs(PlaneToBytes(xy, hostLittle).value, y * xy.shape[1] + x, xy.dtype.kind.Width(),
                   BigEndianBytes(At2(xy, y, x), xy.dtype.order, hostLittle))
  {
    Product2(xy.shape);
    RowMajorBound(y, x, xy.shape[0], xy.shape[1]);
    var k := y * xy.shape[1] + x;
    var e := xy.data[k];
    assert At2(xy, y, x) == e;
    var r := PlaneToBytes(xy, hostLittle);
    assert r.Success?;
    assert SlotIs(r.value, k, xy.dtype.kind.Width(), BigEndianBytes(e, xy.dtype.order, hostLittle));
  }

  /** Rewriting an array in another byte order (`astype`) does not change its
      canonical bytes. */
  lemma PlaneToBytesIgnoresByteOrder(a: NdArray, o: ByteOrder, hostLittle: bool)
    requires Valid(a)
    ensures PlaneToBytes(AsType(a, o, hostLittle), hostLittle) == PlaneToBytes(a, hostLittle)
  {
  }

  /** Every plane's array is well formed. */
  predicate AllValid(planes: seq<Plane>) {
    forall k :: 0 <= k < |planes| ==> Valid(planes[k].xy)
  }

  /** Every plane is two-dimensional, as `plane_to_bytes` demands. */
  predicate AllPlanar(planes: seq<Plane>) {
    forall k :: 0 <= k < |planes| ==> |planes[k].xy.shape| == 2
  }

  /** `stream` holds, in order, the canonical bytes of each plane. */
  predicate Canonicalises(planes: seq<Plane>, hostLittle: bool, stream: seq<Bytes>)
    requires AllValid(planes)
  {
    |stream| == |planes|
    && forall k :: 0 <= k < |planes| ==> PlaneToBytes(planes[k].xy, hostLittle) == Success(stream[k])
  }

  lemma AllValidPrefix(planes: seq<Plane>, n: nat)
    requires AllValid(planes) && n <= |planes|
    ensures AllValid(planes[..n])
  {
    assert forall k :: 0 <= k < n ==> planes[..n][k] == planes[k];
  }

  lemma AllPlanarSnoc(planes: seq<Plane>)
    requires |planes| > 0
    ensures AllPlanar(planes)
       <==> AllPlanar(planes[..|planes| - 1]) && |planes[|planes| - 1].xy.shape| == 2
  {
    var n := |planes| - 1;
    assert forall k :: 0 <= k < n ==> planes[..n][k] == planes[k];
  }

  lemma CanonicalisesSnoc(planes: seq<Plane>, hostLittle: bool, prev: seq<Bytes>, b: Bytes)
    requires AllValid(planes) && |planes| > 0
    requires AllValid(planes[..|planes| - 1])
    requires Canonicalises(planes[..|planes| - 1], hostLittle, prev)
    requires PlaneToBytes(planes[|planes| - 1].xy, hostLittle) == Success(b)
    ensures Canonicalises(planes, hostLittle, prev + [b])
  {
    var n := |planes| - 1;
    var r := prev + [b];
    forall k | 0 <= k < |planes| ensures PlaneToBytes(planes[k].xy, hostLittle) == Success(r[k]) {
      if k < n {
        assert planes[..n][k] == planes[k] && r[k] == prev[k];
      }
    }
  }

  /** The canonical bytes of each plane, in order; the first plane that
      fails ends the stream with its error. */
  function CanonicalStream(planes: seq<Plane>, hostLittle: bool): (r: Result<seq<Bytes>>)
    requires AllValid(planes)
    ensures r.Success? <==> AllPlanar(planes)
    ensures r.Success? ==> Canonicalises(planes, hostLittle, r.value)
    decreases |planes|
  {
    if |planes| == 0 then Success([])
    else
      var n := |planes| - 1;
      AllValidPrefix(planes, n);
      AllPlanarSnoc(planes);
      match CanonicalStream(planes[..n], hostLittle)
      case Failure(e) => Failure(e)
      case Success(prev) =>
        match PlaneToBytes(planes[n].xy, hostLittle)
        case Failure(e) => Failure(e)
        case Success(b) =>
          CanonicalisesSnoc(planes, hostLittle, prev, b);
          Success(prev + [b])
  }

  /** A plane read big-endian canonicalises to exactly the bytes the pixel
      store returned for it, on either kind of host. */
  lemma BigEndianPlaneIsCanonical(raw: Bytes, kind: ElemKind, sizeY: nat, sizeX: nat, hostLittle: bool)
    requires ReadPlane(raw, DType(kind, Big), sizeY, sizeX).Success?
    ensures PlaneToBytes(ReadPlane(raw, DType(kind, Big), sizeY, sizeX).value, hostLittle) == Success(raw)
  {
    var xy := ReadPlane(raw, DType(kind, Big), sizeY, sizeX).value;
    assert Values(xy, hostLittle) == xy.data;
  }

  /** A plane read in an order the host does not store least significant
      byte first canonicalises to exactly the bytes the store returned. */
  lemma UnswappedPlaneIsCanonical(raw: Bytes, dt: DType, sizeY: nat, sizeX: nat, hostLittle: bool)
    requires !StoredLittle(dt.order, hostLittle)
    requires ReadPlane(raw, dt, sizeY, sizeX).Success?
    ensures PlaneToBytes(ReadPlane(raw, dt, sizeY, sizeX).value, hostLittle) == Success(raw)
  {
    var xy := ReadPlane(raw, dt, sizeY, sizeX).value;
    assert Values(xy, hostLittle) == xy.data;
  }

  /** Every plane of a successful walk is a well-formed two-dimensional
      array. */
  lemma WalkWellFormed(img: PixelsImage, scene: nat, order: ByteOrder)
    requires Walk(img, scene, order).Success?
    ensures AllValid(Walk(img, scene, order).value) && AllPlanar(Walk(img, scene, order).value)
  {
  }

  /** When the host does not swap the order the planes are read in, the
      canonical stream of an image is the sequence of its raw planes in
      Z, C, T order. */
  lemma WalkStreamIsRawPlanes(img: PixelsImage, scene: nat, order: ByteOrder, hostLittle: bool)
    requires !StoredLittle(order, hostLittle)
    requires Walk(img, scene, order).Success?
    ensures var planes := Walk(img, scene, order).value;
      && AllValid(planes)
      && CanonicalStream(planes, hostLittle).Success?
      && forall k :: 0 <= k < |planes| ==>
           var co := Coords(img.sizeZ, img.sizeC, img.sizeT)[k];
           img.getPlane(co.z, co.c, co.t) == Success(CanonicalStream(planes, hostLittle).value[k])
  {
    var planes := Walk(img, scene, order).value;
    var dt := DType(PixelKind(img.pixelsType), order);
    var coords := Coords(img.sizeZ, img.sizeC, img.sizeT);
    assert Walk(img, scene, order) == PlanesAt(img, scene, dt, coords);
    WalkWellFormed(img, scene, order);
    var stream := CanonicalStream(planes, hostLittle).value;
    forall k | 0 <= k < |planes|
      ensures img.getPlane(coords[k].z, coords[k].c, coords[k].t) == Success(stream[k])
    {
      var raw := img.getPlane(coords[k].z, coords[k].c, coords[k].t).value;
      UnswappedPlaneIsCanonical(raw, dt, img.sizeY, img.sizeX, hostLittle);
    }
  }

  /** With planes read big-endian, the canonical stream of an image is the
      sequence of raw planes in Z, C, T order, whatever the host. */
  lemma CanonicalStreamIsRawPlanes(img: PixelsImage, scene: nat, hostLittle: bool)
    requires IterPlanesImage(img, scene).Success?
    ensures var planes := IterPlanesImage(img, scene).value;
      && AllValid(planes)
      && CanonicalStream(planes, hostLittle).Success?
      && forall k :: 0 <= k < |planes| ==>
           var co := Coords(img.sizeZ, img.sizeC, img.sizeT)[k];
           img.getPlane(co.z, co.c, co.t) == Success(CanonicalStream(planes, hostLittle).value[k])
  {
    WalkStreamIsRawPlanes(img, scene, Big, hostLittle);
  }

  /** A single-scene image with one uint16 pixel whose store returns `raw`. */
  function OneUint16Pixel(raw: Bytes): PixelsImage {
    PixelsImage(1, 1, 1, 1, 1, "uint16", (z: nat, c: nat, t: nat) => Success(raw))
  }

  lemma OnePlaneWalk(img: PixelsImage, order: ByteOrder)
    requires img.sizeZ == 1 && img.sizeC == 1 && img.sizeT == 1
    requires Walk(img, 0, order).Success?
    ensures var dt := DType(PixelKind(img.pixelsType), order);
      && img.getPlane(0, 0, 0).Success?
      && ReadPlane(img.getPlane(0, 0, 0).value, dt, img.sizeY, img.sizeX).Success?
      && Walk(img, 0, order).value
         == [Plane(ReadPlane(img.getPlane(0, 0, 0).value, dt, img.sizeY, img.sizeX).value, 0, 0, 0, 0)]
  {
    var cs := Coords(1, 1, 1);
    assert cs[0] == Coord(0, 0, 0);
  }

  /** The only element of a one-pixel plane is the whole raw buffer. */
  lemma OnePixelData(raw: Bytes, dt: DType)
    requires ReadPlane(raw, dt, 1, 1).Success?
    ensures ReadPlane(raw, dt, 1, 1).value.data == [raw]
  {
    var xy := ReadPlane(raw, dt, 1, 1).value;
    Product2(xy.shape);
    assert |xy.data| == 1;
    assert xy.data[..0] == [];
    assert Join(xy.data) == xy.data[0];
  }

  /** The plane the walk as written reads from `OneUint16Pixel([0x00, 0x01])`. */
  const NativeOnePixel: NdArray := NdArray(DType(U16, Native), [1, 1], [[0x00, 0x01]])

  lemma Uint16Kind()
    ensures PixelKind("uint16") == U16
  {
    assert PixelTypeName(U16) == "uint16";
  }

  lemma OnePixelWalkSucceeds(raw: Bytes)
    requires |raw| == 2
    ensures Walk(OneUint16Pixel(raw), 0, Native).Success?
  {
    var img := OneUint16Pixel(raw);
    var dt := DType(U16, Native);
    Uint16Kind();
    assert ReadPlane(raw, dt, 1, 1).Success? by {
      assert |raw| == 1 * 1 * dt.kind.Width();
    }
    forall co: Coord
      ensures !PlaneFails(img, dt, co)
    {
      assert img.getPlane(co.z, co.c, co.t) == Success(raw);
    }
    assert Walk(img, 0, Native) == PlanesAt(img, 0, dt, Coords(1, 1, 1));
  }

  lemma AsWrittenOnePixelWalk()
    ensures IterPlanesImageAsWritten(OneUint16Pixel([0x00, 0x01]), 0)
         == Success([Plane(NativeOnePixel, 0, 0, 0, 0)])
  {
    var raw: Bytes := [0x00, 0x01];
    var img := OneUint16Pixel(raw);
    OnePixelWalkSucceeds(raw);
    OnePlaneWalk(img, Native);
    assert PixelKind(img.pixelsType) == U16;
    OnePixelData(raw, DType(U16, Native));
  }

  lemma NativeOnePixelBytes(hostLittle: bool)
    ensures Valid(NativeOnePixel)
    ensures PlaneToBytes(NativeOnePixel, hostLittle)
         == Success(if hostLittle then [0x01, 0x00] else [0x00, 0x01])
  {
    Product2(NativeOnePixel.shape);
    var raw: Bytes := [0x00, 0x01];
    var rev := Reverse(raw);
    assert rev[0] == 0x01 && rev[1] == 0x00;
    assert rev == [0x01, 0x00];
    OneElementBytes(NativeOnePixel, hostLittle);
  }

  /** The walk as written reads planes in native order; on the same raw plane
      a little-endian host and a big-endian host produce different canonical
      bytes, so the code depends on the machine that computes it. */
  lemma AsWrittenCanonicalDependsOnHost()
    ensures IterPlanesImageAsWritten(OneUint16Pixel([0x00, 0x01]), 0)
         == Success([Plane(NativeOnePixel, 0, 0, 0, 0)])
    ensures Valid(NativeOnePixel)
    ensures PlaneToBytes(NativeOnePixel, true) == Success([0x01, 0x00])
    ensures PlaneToBytes(NativeOnePixel, false) == Success([0x00, 0x01])
  {
    AsWrittenOnePixelWalk();
    NativeOnePixelBytes(true);
    NativeOnePixelBytes(false);
  }

  lemma OneElementBytes(xy: NdArray, hostLittle: bool)
    requires Valid(xy) && |xy.shape| == 2 && |xy.data| == 1
    ensures PlaneToBytes(xy, hostLittle)
         == Success(BigEndianBytes(xy.data[0], xy.dtype.order, hostLittle))
  {
    var r := PlaneToBytes(xy, hostLittle).value;
    var w := xy.dtype.kind.Width();
    Product2(xy.shape);
    assert |r| == w;
    assert SlotIs(r, 0, w, BigEndianBytes(xy.data[0], xy.dtype.order, hostLittle));
    assert r[0 * w .. 0 * w + w] == r;
  }

  /** A plane of one-byte elements canonicalises to its elements' bytes, in
      order: a single byte has no byte order to undo. */
  lemma OneByteElements(xy: NdArray, hostLittle: bool)
    requires Valid(xy) && |xy.shape| == 2 && xy.dtype.kind.Width() == 1
    ensures PlaneToBytes(xy, hostLittle).Success?
    ensures var r := PlaneToBytes(xy, hostLittle).value;
      |r| == |xy.data| && forall k :: 0 <= k < |r| ==> [r[k]] == xy.data[k]
  {
    Product2(xy.shape);
    var r := PlaneToBytes(xy, hostLittle).value;
    forall k | 0 <= k < |r| ensures [r[k]] == xy.data[k] {
      var e := xy.data[k];
      assert |e| == 1;
      assert BigEndianBytes(e, xy.dtype.order, hostLittle) == e by {
        if StoredLittle(xy.dtype.order, hostLittle) {
          assert Reverse(e)[0] == e[0];
        }
      }
      assert SlotIs(r, k, 1, e);
      assert r[k .. k + 1] == [r[k]];
    }
  }

  /** Scenario A: a 2 x 2 uint8 plane holding 0, 1, 2, 3 canonicalises to the
      bytes 00 01 02 03. */
  lemma TwoByTwoUint8Plane(hostLittle: bool)
    ensures var xy := NdArray(DType(U8, NotApplicable), [2, 2], [[0x00], [0x01], [0x02], [0x03]]);
      Valid(xy) && PlaneToBytes(xy, hostLittle) == Success([0x00, 0x01, 0x02, 0x03])
  {
    var xy := NdArray(DType(U8, NotApplicable), [2, 2], [[0x00], [0x01], [0x02], [0x03]]);
    Product2(xy.shape);
    assert Valid(xy);
    OneByteElements(xy, hostLittle);
    var r := PlaneToBytes(xy, hostLittle).value;
    var want: Bytes := [0x00, 0x01, 0x02, 0x03];
    assert [r[0]] == [want[0]] && [r[1]] == [want[1]] && [r[2]] == [want[2]] && [r[3]] == [want[3]];
    assert r == want;
  }

  // ---------------------------------------------------------------------
  // The biocode of an image

  /** The ISCC note: `{"iscc_code", "datahash", "units"}` with the last unit
      dropped. */
  function NoteOf(res: SumResult): (note: map<string, Json>)
    ensures note.Keys == {"iscc_code", "datahash", "units"}
  {
    map["iscc_code" := JStr(res.iscc),
        "datahash" := JStr(res.datahash),
        "units" := JList(seq(|DropLast(res.units)|, i requires 0 <= i < |DropLast(res.units)| =>
                      JStr(DropLast(res.units)[i])))]
  }

  /** The note for the planes of a walk: their canonical bytes, in order,
      fed to a fresh processor, reported with every unit except the last. */
  function NoteOfPlanes(planes: seq<Plane>, hostLittle: bool, digest: Digest): (note: map<string, Json>)
    requires AllValid(planes) && AllPlanar(planes)
    ensures CanonicalStream(planes, hostLittle).Success?
    ensures note == NoteOf(digest(CanonicalStream(planes, hostLittle).value, true))
  {
    var chunks := CanonicalStream(planes, hostLittle).value;
    FeedAllKeepsOrder(chunks);
    NoteOf(Finish(FeedAll(chunks), digest, true))
  }

  /** `biocode` as written: the planes of the image (scene 0) are read in
      the host's native order, so on a little-endian host every multi-byte
      element is swapped before it is hashed. */
  function BiocodeNoteAsWritten(img: PixelsImage, hostLittle: bool, digest: Digest): (r: Result<map<string, Json>>)
    ensures r.Success? <==> IterPlanesImageAsWritten(img, 0).Success?
    ensures r.Success? ==>
      var planes := IterPlanesImageAsWritten(img, 0).value;
      && AllValid(planes)
      && CanonicalStream(planes, hostLittle).Success?
      && r.value == NoteOf(digest(CanonicalStream(planes, hostLittle).value, true))
  {
    match IterPlanesImageAsWritten(img, 0)
    case Failure(e) => Failure(e)
    case Success(planes) =>
      WalkWellFormed(img, 0, Native);
      Success(NoteOfPlanes(planes, hostLittle, digest))
  }

  /** `biocode` with the corrected walk: each plane of the image (scene 0),
      read big-endian, in Z, C, T order, fed to a fresh processor as its
      canonical bytes. */
  function BiocodeNote(img: PixelsImage, hostLittle: bool, digest: Digest): (r: Result<map<string, Json>>)
    ensures r.Success? <==> IterPlanesImage(img, 0).Success?
    ensures r.Success? ==>
      var planes := IterPlanesImage(img, 0).value;
      && AllValid(planes)
      && CanonicalStream(planes, hostLittle).Success?
      && r.value == NoteOf(digest(CanonicalStream(planes, hostLittle).value, true))
  {
    match IterPlanesImage(img, 0)
    case Failure(e) => Failure(e)
    case Success(planes) =>
      WalkWellFormed(img, 0, Big);
      Success(NoteOfPlanes(planes, hostLittle, digest))
  }

  /** On a big-endian host native order is big-endian, so the code as
      written computes the same note as the corrected walk. */
  lemma AsWrittenAgreesOnBigEndianHost(img: PixelsImage, digest: Digest)
    ensures BiocodeNoteAsWritten(img, false, digest) == BiocodeNote(img, false, digest)
  {
    WalkFailsAlikeInAnyOrder(img, 0, Native, Big);
    assert IterPlanesImageAsWritten(img, 0) == Walk(img, 0, Native);
    assert IterPlanesImage(img, 0) == Walk(img, 0, Big);
    if Walk(img, 0, Big).Success? {
      SameStreamOnBigEndianHost(img);
    }
  }

  lemma SameStreamOnBigEndianHost(img: PixelsImage)
    requires Walk(img, 0, Native).Success? && Walk(img, 0, Big).Success?
    ensures AllValid(Walk(img, 0, Native).value) && AllValid(Walk(img, 0, Big).value)
    ensures CanonicalStream(Walk(img, 0, Native).value, false).Success?
    ensures CanonicalStream(Walk(img, 0, Native).value, false)
         == CanonicalStream(Walk(img, 0, Big).value, false)
  {
    var native := Walk(img, 0, Native).value;
    var big := Walk(img, 0, Big).value;
    WalkStreamIsRawPlanes(img, 0, Native, false);
    WalkStreamIsRawPlanes(img, 0, Big, false);
    var sn := CanonicalStream(native, false).value;
    var sb := CanonicalStream(big, false).value;
    assert |sn| == |native| == |big| == |sb|;
    forall k | 0 <= k < |sn| ensures sn[k] == sb[k] {
      var co := Coords(img.sizeZ, img.sizeC, img.sizeT)[k];
      assert img.getPlane(co.z, co.c, co.t) == Success(sn[k]);
      assert img.getPlane(co.z, co.c, co.t) == Success(sb[k]);
    }
    assert sn == sb;
  }

  /** The code as written depends on the host: for the one-pixel uint16
      image whose store returns `00 01`, a little-endian host hashes the
      chunk `01 00` and a big-endian host the chunk `00 01`. */
  lemma AsWrittenBiocodeDependsOnHost(digest: Digest)
    ensures BiocodeNoteAsWritten(OneUint16Pixel([0x00, 0x01]), true, digest)
         == Success(NoteOf(digest([[0x01, 0x00]], true)))
    ensures BiocodeNoteAsWritten(OneUint16Pixel([0x00, 0x01]), false, digest)
         == Success(NoteOf(digest([[0x00, 0x01]], true)))
  {
    AsWrittenCanonicalDependsOnHost();
    OnePixelNote(true, [0x01, 0x00], digest);
    OnePixelNote(false, [0x00, 0x01], digest);
  }

  lemma OnePixelNote(hostLittle: bool, b: Bytes, digest: Digest)
    requires IterPlanesImageAsWritten(OneUint16Pixel([0x00, 0x01]), 0)
          == Success([Plane(NativeOnePixel, 0, 0, 0, 0)])
    requires Valid(NativeOnePixel) && PlaneToBytes(NativeOnePixel, hostLittle) == Success(b)
    ensures BiocodeNoteAsWritten(OneUint16Pixel([0x00, 0x01]), hostLittle, digest)
         == Success(NoteOf(digest([b], true)))
  {
    var planes := [Plane(NativeOnePixel, 0, 0, 0, 0)];
    OneCanonicalPlane(planes, hostLittle, b);
    NoteAsWrittenOfStream(OneUint16Pixel([0x00, 0x01]), planes, [b], hostLittle, digest);
  }

  lemma NoteAsWrittenOfStream(img: PixelsImage, planes: seq<Plane>, chunks: seq<Bytes>, hostLittle: bool, digest: Digest)
    requires IterPlanesImageAsWritten(img, 0) == Success(planes)
    requires CanonicalStream(planes, hostLittle) == Success(chunks)
    ensures BiocodeNoteAsWritten(img, hostLittle, digest) == Success(NoteOf(digest(chunks, true)))
  {
    var r := BiocodeNoteAsWritten(img, hostLittle, digest);
    assert r.Success?;
  }

  lemma OneCanonicalPlane(planes: seq<Plane>, hostLittle: bool, b: Bytes)
    requires |planes| == 1 && Valid(planes[0].xy)
    requires PlaneToBytes(planes[0].xy, hostLittle) == Success(b)
    ensures AllValid(planes) && CanonicalStream(planes, hostLittle) == Success([b])
  {
    assert planes[..0] == [];
    assert CanonicalStream(planes[..0], hostLittle) == Success([]);
    assert planes[|planes| - 1] == planes[0];
    assert [] + [b] == [b];
  }

  /** With the corrected walk the hasher sees the raw planes in Z, C, T
      order: two images whose stores return the same planes at the same
      coordinates get the same note, whatever host computes it. */
  lemma BiocodeDependsOnlyOnPlanes(a: PixelsImage, b: PixelsImage, hostA: bool, hostB: bool, digest: Digest)
    requires a.sizeZ == b.sizeZ && a.sizeC == b.sizeC && a.sizeT == b.sizeT
    requires forall z: nat, c: nat, t: nat :: a.getPlane(z, c, t) == b.getPlane(z, c, t)
    requires IterPlanesImage(a, 0).Success? && IterPlanesImage(b, 0).Success?
    ensures BiocodeNote(a, hostA, digest) == BiocodeNote(b, hostB, digest)
  {
    var sa := StreamOf(a, hostA);
    var sb := StreamOf(b, hostB);
    assert sa == sb;
  }

  /** The chunks `biocode` with the corrected walk feeds for an image that
      can be walked: its raw planes in Z, C, T order. */
  function StreamOf(img: PixelsImage, hostLittle: bool): (s: seq<Bytes>)
    requires IterPlanesImage(img, 0).Success?
    ensures |s| == img.sizeZ * img.sizeC * img.sizeT
    ensures forall k :: 0 <= k < |s| ==>
      var co := Coords(img.sizeZ, img.sizeC, img.sizeT)[k];
      img.getPlane(co.z, co.c, co.t) == Success(s[k])
  {
    CanonicalStreamIsRawPlanes(img, 0, hostLittle);
    CanonicalStream(IterPlanesImage(img, 0).value, hostLittle).value
  }
}

=== FILE: byteseqs.dfy ===
/** Byte strings and the two operations on them the model needs:
    concatenating a sequence of chunks and reversing byte order. */
module ByteSeqs {

  type Byte = bv8
  type Bytes = seq<Byte>

  /** `b"".join(chunks)`. */
  function Join(chunks: seq<Bytes>): (r: Bytes)
    ensures |chunks| == 0 ==> r == []
  {
    if |chunks| == 0 then [] else Join(chunks[..|chunks| - 1]) + chunks[|chunks| - 1]
  }

  /** Total length of a sequence of chunks. */
  function TotalLength(chunks: seq<Bytes>): nat {
    if |chunks| == 0 then 0 else TotalLength(chunks[..|chunks| - 1]) + |chunks[|chunks| - 1]|
  }

  lemma {:induction false} JoinLength(chunks: seq<Bytes>)
    ensures |Join(chunks)| == TotalLength(chunks)
  {
    if |chunks| > 0 {
      JoinLength(chunks[..|chunks| - 1]);
    }
  }

  lemma {:induction false} JoinAppend(chunks: seq<Bytes>, c: Bytes)
    ensures Join(chunks + [c]) == Join(chunks) + c
  {
    assert (chunks + [c])[..|chunks|] == chunks;
  }

  lemma {:induction false} JoinConcat(a: seq<Bytes>, b: seq<Bytes>)
    ensures Join(a + b) == Join(a) + Join(b)
    decreases |b|
  {
    if |b| == 0 {
      assert a + b == a;
    } else {
      var b0 := b[..|b| - 1];
      assert a + b == (a + b0) + [b[|b| - 1]];
      JoinAppend(a + b0, b[|b| - 1]);
      JoinConcat(a, b0);
      JoinAppend(b0, b[|b| - 1]);
      assert b == b0 + [b[|b| - 1]];
    }
  }

  predicate FixedWidth(chunks: seq<Bytes>, w: nat) {
    forall i :: 0 <= i < |chunks| ==> |chunks[i]| == w
  }

  lemma {:induction false} JoinFixedWidthLength(chunks: seq<Bytes>, w: nat)
    requires FixedWidth(chunks, w)
    ensures |Join(chunks)| == |chunks| * w
  {
    if |chunks| > 0 {
      JoinFixedWidthLength(chunks[..|chunks| - 1], w);
    }
  }

  /** Slot `k` of a buffer of `w`-byte cells, bytes `[k * w, (k + 1) * w)`,
      holds `e`. */
  predicate SlotIs(r: Bytes, k: nat, w: nat, e: Bytes) {
    k * w + w <= |r| && r[k * w .. k * w + w] == e
  }

  /** Joining chunks of one width `w` puts chunk `i` at bytes
      `[i * w, (i + 1) * w)`. */
  lemma {:induction false} JoinFixedWidthAt(chunks: seq<Bytes>, w: nat, i: nat)
    requires FixedWidth(chunks, w)
    requires i < |chunks|
    ensures SlotIs(Join(chunks), i, w, chunks[i])
  {
    var n := |chunks| - 1;
    var init := chunks[..n];
    JoinFixedWidthLength(init, w);
    assert Join(chunks) == Join(init) + chunks[n];
    if i < n {
      JoinFixedWidthAt(init, w, i);
      assert i * w + w <= n * w by { MulLe(i + 1, n, w); }
      assert init[i] == chunks[i];
    }
  }

  /** Every chunk of a fixed-width join sits in its own slot. */
  lemma JoinSlots(chunks: seq<Bytes>, w: nat)
    requires FixedWidth(chunks, w)
    ensures |Join(chunks)| == |chunks| * w
    ensures forall k :: 0 <= k < |chunks| ==> SlotIs(Join(chunks), k, w, chunks[k])
  {
    JoinFixedWidthLength(chunks, w);
    forall k | 0 <= k < |chunks| ensures SlotIs(Join(chunks), k, w, chunks[k]) {
      JoinFixedWidthAt(chunks, w, k);
    }
  }

  lemma MulLe(a: nat, b: nat, w: nat)
    requires a <= b
    ensures a * w <= b * w
  {
  }

  function Reverse(s: Bytes): (r: Bytes)
    ensures |r| == |s|
    ensures forall i :: 0 <= i < |s| ==> r[i] == s[|s| - 1 - i]
  {
    if |s| == 0 then [] else Reverse(s[1..]) + [s[0]]
  }

  lemma ReverseReverse(s: Bytes)
    ensures Reverse(Reverse(s)) == s
  {
    var r := Reverse(Reverse(s));
    assert |r| == |s|;
    forall i | 0 <= i < |s| ensures r[i] == s[i] { }
  }
}

=== FILE: clock.dfy ===
/** Wall-clock readings, taken as inputs (the source reads `datetime.now()`),
    and Python's `datetime.isoformat()` rendering. */
module Clock {
  import opened Digits

  /** A `datetime` value as its fields; the model never reads a clock. */
  datatype DateTime = DateTime(
    year: nat, month: nat, day: nat,
    hour: nat, minute: nat, second: nat, microsecond: nat)

  /** One reading of the clock: microseconds since the Unix epoch, and the
      same instant as a calendar value (`datetime.now()`). */
  datatype Reading = Reading(epochMicros: nat, local: DateTime)

  /** `int(reading.timestamp() * 1000)`: milliseconds since the epoch,
      the sub-millisecond part cut off. */
  function EpochMillis(r: Reading): (ms: nat)
    ensures ms * 1000 <= r.epochMicros < ms * 1000 + 1000
  {
    r.epochMicros / 1000
  }

  /** The ranges Python's `datetime` enforces on its fields. */
  predicate Valid(d: DateTime) {
    && 1 <= d.year <= 9999
    && 1 <= d.month <= 12
    && 1 <= d.day <= 31
    && d.hour < 24
    && d.minute < 60
    && d.second < 60
    && d.microsecond < 1000000
  }

  /** `YYYY-MM-DDTHH:MM:SS`, the part every rendering shares. The year is
      written with four digits, zero-padded below 1000, as
      `datetime.isoformat()` does; `strftime("%Y")` on glibc writes such a
      year without the padding, a case the model does not distinguish. */
  function DateAndTime(d: DateTime): (s: string)
    ensures |s| == 19
  {
    Pad(d.year, 4) + "-" + Pad(d.month, 2) + "-" + Pad(d.day, 2) + "T"
    + Pad(d.hour, 2) + ":" + Pad(d.minute, 2) + ":" + Pad(d.second, 2)
  }

  /** `datetime.isoformat()` of a naive datetime: the fraction is written
      only when the microseconds are not zero. */
  function IsoFormat(d: DateTime): (s: string)
    ensures d.microsecond == 0 ==> |s| == 19
    ensures d.microsecond != 0 ==> |s| == 26 && s[19] == '.'
    ensures s[..19] == DateAndTime(d)
  {
    if d.microsecond == 0 then DateAndTime(d)
    else DateAndTime(d) + "." + Pad(d.microsecond, 6)
  }
}

=== FILE: config.dfy ===
/** `ServiceConfig`: the service's settings with their defaults, the
    environment overlay with its type coercion, the dict form written by
    `save` and read back by `from_file`, and `load_config`'s choice between
    a file and the environment. */
module Config {
  import opened Wrappers
  import opened Json

  datatype ServiceConfig = ServiceConfig(
    host: string,
    port: int,
    username: string,
    password: string,
    secure: bool,
    pollInterval: int,
    batchSize: int,
    chunkSize: int,
    namespace: string,
    logLevel: string,
    logFile: Option<string>,
    webhookUrl: Option<string>,
    maxRetries: int,
    retryDelay: int)

  /** `ServiceConfig()` */
  const Default := ServiceConfig(
    "localhost", 4064, "root", "omero", true,
    60, 100, 1024 * 1024, "org.iscc.omero.sum",
    "info", None, None,
    3, 5)

  /** The dataclass fields, in declaration order (also the order of the
      environment table). */
  datatype Field =
    | Host | Port | Username | Password | Secure
    | PollInterval | BatchSize | ChunkSize | Namespace
    | LogLevel | LogFile | WebhookUrl
    | MaxRetries | RetryDelay

  const Fields: seq<Field> := [
    Host, Port, Username, Password, Secure,
    PollInterval, BatchSize, ChunkSize, Namespace,
    LogLevel, LogFile, WebhookUrl,
    MaxRetries, RetryDelay]

  lemma FieldsDistinct()
    ensures forall i, j :: 0 <= i < j < |Fields| ==> Fields[i] != Fields[j]
  {
  }

  lemma FieldsComplete()
    ensures forall g :: g in Fields
  {
    forall g | true
      ensures g in Fields
    {
      var i := FieldListed(g);
    }
  }

  lemma FieldListed(f: Field) returns (i: nat)
    ensures i < |Fields| && Fields[i] == f
  {
    i := match f
      case Host => 0 case Port => 1 case Username => 2 case Password => 3
      case Secure => 4 case PollInterval => 5 case BatchSize => 6
      case ChunkSize => 7 case Namespace => 8 case LogLevel => 9
      case LogFile => 10 case WebhookUrl => 11 case MaxRetries => 12
      case RetryDelay => 13;
  }

  /** The attribute name, which is also the key in the dict form. */
  function Name(f: Field): string {
    match f
    case Host => "host"
    case Port => "port"
    case Username => "username"
    case Password => "password"
    case Secure => "secure"
    case PollInterval => "poll_interval"
    case BatchSize => "batch_size"
    case ChunkSize => "chunk_size"
    case Namespace => "namespace"
    case LogLevel => "log_level"
    case LogFile => "log_file"
    case WebhookUrl => "webhook_url"
    case MaxRetries => "max_retries"
    case RetryDelay => "retry_delay"
  }

  /** The environment variable that overrides the field. */
  function EnvVar(f: Field): string {
    match f
    case Host => "OMERO_ISCC_HOST"
    case Port => "OMERO_ISCC_PORT"
    case Username => "OMERO_ISCC_USERNAME"
    case Password => "OMERO_ISCC_PASSWORD"
    case Secure => "OMERO_ISCC_SECURE"
    case PollInterval => "OMERO_ISCC_POLL_INTERVAL"
    case BatchSize => "OMERO_ISCC_BATCH_SIZE"
    case ChunkSize => "OMERO_ISCC_CHUNK_SIZE"
    case Namespace => "OMERO_ISCC_NAMESPACE"
    case LogLevel => "OMERO_ISCC_LOG_LEVEL"
    case LogFile => "OMERO_ISCC_LOG_FILE"
    case WebhookUrl => "OMERO_ISCC_WEBHOOK_URL"
    case MaxRetries => "OMERO_ISCC_MAX_RETRIES"
    case RetryDelay => "OMERO_ISCC_RETRY_DELAY"
  }

  /** The field a keyword argument names, if any. */
  function FieldNamed(k: string): (r: Option<Field>)
  {
    if k == "host" then Some(Host)
    else if k == "port" then Some(Port)
    else if k == "username" then Some(Username)
    else if k == "password" then Some(Password)
    else if k == "secure" then Some(Secure)
    else if k == "poll_interval" then Some(PollInterval)
    else if k == "batch_size" then Some(BatchSize)
    else if k == "chunk_size" then Some(ChunkSize)
    else if k == "namespace" then Some(Namespace)
    else if k == "log_level" then Some(LogLevel)
    else if k == "log_file" then Some(LogFile)
    else if k == "webhook_url" then Some(WebhookUrl)
    else if k == "max_retries" then Some(MaxRetries)
    else if k == "retry_delay" then Some(RetryDelay)
    else None
  }

  /** A name leads back to its field, so different fields have different
      names. */
  lemma NameIdentifiesField(f: Field)
    ensures FieldNamed(Name(f)) == Some(f)
  {
    match f
    case Host =>
    case Port =>
    case Username =>
    case Password =>
    case Secure =>
    case PollInterval =>
    case BatchSize =>
    case ChunkSize =>
    case Namespace =>
    case LogLevel =>
    case LogFile =>
    case WebhookUrl =>
    case MaxRetries =>
    case RetryDelay =>
  }

  /** The Python type of the field's default value, which decides how an
      environment value is coerced: `None` defaults keep the raw string. */
  datatype Kind = StrKind | IntKind | BoolKind | OptKind

  function KindOf(f: Field): Kind {
    match f
    case Port | PollInterval | BatchSize | ChunkSize | MaxRetries | RetryDelay => IntKind
    case Secure => BoolKind
    case LogFile | WebhookUrl => OptKind
    case _ => StrKind
  }

  /** A field's value. */
  datatype Value = VStr(s: string) | VInt(i: int) | VBool(b: bool) | VNone

  predicate Fits(f: Field, v: Value) {
    match KindOf(f)
    case StrKind => v.VStr?
    case IntKind => v.VInt?
    case BoolKind => v.VBool?
    case OptKind => v.VStr? || v.VNone?
  }

  /** `getattr(config, name)` */
  function Get(c: ServiceConfig, f: Field): (v: Value)
    ensures Fits(f, v)
  {
    match f
    case Host => VStr(c.host)
    case Port => VInt(c.port)
    case Username => VStr(c.username)
    case Password => VStr(c.password)
    case Secure => VBool(c.secure)
    case PollInterval => VInt(c.pollInterval)
    case BatchSize => VInt(c.batchSize)
    case ChunkSize => VInt(c.chunkSize)
    case Namespace => VStr(c.namespace)
    case LogLevel => VStr(c.logLevel)
    case LogFile => if c.logFile.Some? then VStr(c.logFile.value) else VNone
    case WebhookUrl => if c.webhookUrl.Some? then VStr(c.webhookUrl.value) else VNone
    case MaxRetries => VInt(c.maxRetries)
    case RetryDelay => VInt(c.retryDelay)
  }

  function OptOf(v: Value): Option<string> {
    if v.VStr? then Some(v.s) else None
  }

  /** `setattr(config, name, v)` for a value of the field's type. */
  function Set(c: ServiceConfig, f: Field, v: Value): (r: ServiceConfig)
    requires Fits(f, v)
    ensures Get(r, f) == v
    ensures forall g :: g != f ==> Get(r, g) == Get(c, g)
  {
    match f
    case Host => c.(host := v.s)
    case Port => c.(port := v.i)
    case Username => c.(username := v.s)
    case Password => c.(password := v.s)
    case Secure => c.(secure := v.b)
    case PollInterval => c.(pollInterval := v.i)
    case BatchSize => c.(batchSize := v.i)
    case ChunkSize => c.(chunkSize := v.i)
    case Namespace => c.(namespace := v.s)
    case LogLevel => c.(logLevel := v.s)
    case LogFile => c.(logFile := OptOf(v))
    case WebhookUrl => c.(webhookUrl := OptOf(v))
    case MaxRetries => c.(maxRetries := v.i)
    case RetryDelay => c.(retryDelay := v.i)
  }

  /** Two configs with the same value in every field are the same config. */
  lemma SameFieldsSameConfig(a: ServiceConfig, b: ServiceConfig)
    requires forall f :: Get(a, f) == Get(b, f)
    ensures a == b
  {
    assert a.host == b.host by { assert Get(a, Host) == Get(b, Host); }
    assert a.port == b.port by { assert Get(a, Port) == Get(b, Port); }
    assert a.username == b.username by { assert Get(a, Username) == Get(b, Username); }
    assert a.password == b.password by { assert Get(a, Password) == Get(b, Password); }
    assert a.secure == b.secure by { assert Get(a, Secure) == Get(b, Secure); }
    assert a.pollInterval == b.pollInterval by { assert Get(a, PollInterval) == Get(b, PollInterval); }
    assert a.batchSize == b.batchSize by { assert Get(a, BatchSize) == Get(b, BatchSize); }
    assert a.chunkSize == b.chunkSize by { assert Get(a, ChunkSize) == Get(b, ChunkSize); }
    assert a.namespace == b.namespace by { assert Get(a, Namespace) == Get(b, Namespace); }
    assert a.logLevel == b.logLevel by { assert Get(a, LogLevel) == Get(b, LogLevel); }
    assert a.logFile == b.logFile by { assert Get(a, LogFile) == Get(b, LogFile); }
    assert a.webhookUrl == b.webhookUrl by { assert Get(a, WebhookUrl) == Get(b, WebhookUrl); }
    assert a.maxRetries == b.maxRetries by { assert Get(a, MaxRetries) == Get(b, MaxRetries); }
    assert a.retryDelay == b.retryDelay by { assert Get(a, RetryDelay) == Get(b, RetryDelay); }
  }

  // ---------------------------------------------------------------------
  // from_env

  /** `str.lower()` on ASCII letters. No other character lowers to a
      letter of `true` or `yes`, so the membership test below is exact. */
  function AsciiLower(s: string): (r: string)
    ensures |r| == |s|
    ensures forall i :: 0 <= i < |s| ==>
      r[i] == if 'A' <= s[i] <= 'Z' then (s[i] as int + 32) as char else s[i]
  {
    seq(|s|, i requires 0 <= i < |s| => if 'A' <= s[i] <= 'Z' then (s[i] as int + 32) as char else s[i])
  }

  const TrueWords: set<string> := {"true", "1", "yes"}

  /** `int(value)`, an abstract partial parser: none where Python raises
      `ValueError`. */
  type IntParser = string -> Option<int>

  /** The coercion of an environment value for field `f`. */
  function Coerce(f: Field, raw: string, parseInt: IntParser): (r: Result<Value>)
    ensures r.Success? ==> Fits(f, r.value)
    ensures r.Failure? <==> KindOf(f) == IntKind && parseInt(raw).None?
    ensures r.Failure? ==> r.error == ValueError
    ensures KindOf(f) == BoolKind ==> r == Success(VBool(AsciiLower(raw) in TrueWords))
    ensures KindOf(f) == IntKind && parseInt(raw).Some? ==> r == Success(VInt(parseInt(raw).value))
    ensures KindOf(f) == StrKind || KindOf(f) == OptKind ==> r == Success(VStr(raw))
  {
    match KindOf(f)
    case BoolKind => Success(VBool(AsciiLower(raw) in TrueWords))
    case IntKind =>
      (match parseInt(raw)
       case None => Failure(ValueError)
       case Some(i) => Success(VInt(i)))
    case _ => Success(VStr(raw))
  }

  /** The `for env_var, field in env_map.items()` loop over `fields`: only
      `ValueError` escapes it, and with none of their variables set it
      leaves the configuration as it was. The per-field result is
      `OverlayFields`. */
  function Overlay(c: ServiceConfig, fields: seq<Field>, env: map<string, string>, parseInt: IntParser): (r: Result<ServiceConfig>)
    ensures r.Failure? ==> r.error == ValueError
    ensures (forall i :: 0 <= i < |fields| ==> EnvVar(fields[i]) !in env) ==> r == Success(c)
    decreases |fields|
  {
    if |fields| == 0 then Success(c)
    else
      var f := fields[0];
      if EnvVar(f) !in env then Overlay(c, fields[1..], env, parseInt)
      else
        match Coerce(f, env[EnvVar(f)], parseInt)
        case Failure(e) => Failure(e)
        case Success(v) => Overlay(Set(c, f, v), fields[1..], env, parseInt)
  }

  /** The environment variable of `f` is set and its value does not parse. */
  predicate Unparsable(f: Field, env: map<string, string>, parseInt: IntParser) {
    EnvVar(f) in env && Coerce(f, env[EnvVar(f)], parseInt).Failure?
  }

  /** The value `f` ends with: the coerced variable when it is set, what it
      had before otherwise. */
  function Overlaid(c: ServiceConfig, f: Field, env: map<string, string>, parseInt: IntParser): Value {
    if EnvVar(f) in env && Coerce(f, env[EnvVar(f)], parseInt).Success?
    then Coerce(f, env[EnvVar(f)], parseInt).value
    else Get(c, f)
  }

  /** The overlay fails exactly when one of its fields has an unparsable
      value; otherwise each listed field takes its coerced variable, when
      set, and every other field is untouched. */
  lemma {:induction false} OverlayFields(c: ServiceConfig, fields: seq<Field>, env: map<string, string>, parseInt: IntParser)
    requires forall i, j :: 0 <= i < j < |fields| ==> fields[i] != fields[j]
    ensures var r := Overlay(c, fields, env, parseInt);
      && (r.Failure? <==> exists i :: 0 <= i < |fields| && Unparsable(fields[i], env, parseInt))
      && (r.Failure? ==> r.error == ValueError)
      && (r.Success? ==> forall g :: Get(r.value, g) == if g in fields then Overlaid(c, g, env, parseInt) else Get(c, g))
    decreases |fields|
  {
    if |fields| > 0 {
      var f := fields[0];
      var rest := fields[1..];
      assert forall i :: 0 < i < |fields| ==> fields[i] == rest[i - 1];
      assert forall g :: g in fields <==> g == f || g in rest;
      if EnvVar(f) !in env {
        OverlayFields(c, rest, env, parseInt);
      } else {
        var co := Coerce(f, env[EnvVar(f)], parseInt);
        if co.Success? {
          var c1 := Set(c, f, co.value);
          OverlayFields(c1, rest, env, parseInt);
          assert f !in rest;
        }
      }
    }
  }

  /** `ServiceConfig.from_env()`, reading the environment `env`: the
      defaults, each overridden by its variable when set. Only `ValueError`
      escapes, and with none of the variables set the result is the
      defaults. */
  function FromEnv(env: map<string, string>, parseInt: IntParser): (r: Result<ServiceConfig>)
    ensures r.Failure? ==> r.error == ValueError
    ensures (forall f :: EnvVar(f) !in env) ==> r == Success(Default)
  {
    FieldsDistinct();
    OverlayFields(Default, Fields, env, parseInt);
    var r := Overlay(Default, Fields, env, parseInt);
    if r.Success? && forall g :: Get(r.value, g) == Get(Default, g) then
      SameFieldsSameConfig(r.value, Default);
      r
    else r
  }

  /** Over a list holding every field, the overlay fails exactly when some
      variable is unparsable. */
  lemma OverlayFailsWhenUnparsable(c: ServiceConfig, fields: seq<Field>, env: map<string, string>, parseInt: IntParser)
    requires forall i, j :: 0 <= i < j < |fields| ==> fields[i] != fields[j]
    requires forall g :: g in fields
    ensures var r := Overlay(c, fields, env, parseInt);
      && (r.Failure? <==> exists g :: Unparsable(g, env, parseInt))
      && (r.Failure? ==> r.error == ValueError)
  {
    OverlayFields(c, fields, env, parseInt);
    if exists g :: Unparsable(g, env, parseInt) {
      var g :| Unparsable(g, env, parseInt);
      assert g in fields;
      var i :| 0 <= i < |fields| && fields[i] == g;
    }
  }

  /** Over a list holding every field, a successful overlay gives each
      field its coerced variable when it is set. */
  lemma OverlaySetsField(c: ServiceConfig, fields: seq<Field>, env: map<string, string>, parseInt: IntParser, f: Field)
    requires forall i, j :: 0 <= i < j < |fields| ==> fields[i] != fields[j]
    requires f in fields
    requires Overlay(c, fields, env, parseInt).Success?
    ensures EnvVar(f) !in env ==> Get(Overlay(c, fields, env, parseInt).value, f) == Get(c, f)
    ensures EnvVar(f) in env ==>
      && Coerce(f, env[EnvVar(f)], parseInt).Success?
      && Get(Overlay(c, fields, env, parseInt).value, f) == Coerce(f, env[EnvVar(f)], parseInt).value
  {
    OverlayFields(c, fields, env, parseInt);
    var i :| 0 <= i < |fields| && fields[i] == f;
    assert !Unparsable(fields[i], env, parseInt);
  }

  /** `from_env` fails, with `ValueError`, exactly when an integer field's
      variable does not parse. */
  lemma FromEnvFails(env: map<string, string>, parseInt: IntParser)
    ensures var r := FromEnv(env, parseInt);
      && (r.Failure? <==> exists g :: Unparsable(g, env, parseInt))
      && (r.Failure? ==> r.error == ValueError)
  {
    FieldsDistinct();
    FieldsComplete();
    OverlayFailsWhenUnparsable(Default, Fields, env, parseInt);
  }

  /** Otherwise a set variable gives its field the coerced value and an
      unset one leaves the default. */
  lemma FromEnvField(env: map<string, string>, parseInt: IntParser, f: Field)
    requires FromEnv(env, parseInt).Success?
    ensures EnvVar(f) !in env ==> Get(FromEnv(env, parseInt).value, f) == Get(Default, f)
    ensures EnvVar(f) in env ==>
      && Coerce(f, env[EnvVar(f)], parseInt).Success?
      && Get(FromEnv(env, parseInt).value, f) == Coerce(f, env[EnvVar(f)], parseInt).value
  {
    FieldsDistinct();
    var i := FieldListed(f);
    assert f in Fields;
    OverlaySetsField(Default, Fields, env, parseInt, f);
  }

  /** `OMERO_ISCC_SECURE` turns `secure` on exactly for `true`, `1` or
      `yes` in any letter case, and off for every other value. */
  lemma SecureFromEnv(env: map<string, string>, parseInt: IntParser)
    requires "OMERO_ISCC_SECURE" in env
    requires FromEnv(env, parseInt).Success?
    ensures FromEnv(env, parseInt).value.secure <==> AsciiLower(env["OMERO_ISCC_SECURE"]) in TrueWords
  {
    FromEnvField(env, parseInt, Secure);
  }

  // ---------------------------------------------------------------------
  // to_dict / from_file

  function ValueJson(v: Value): Json {
    match v
    case VStr(s) => JStr(s)
    case VInt(i) => JInt(i)
    case VBool(b) => JBool(b)
    case VNone => JNull
  }

  /** The value a JSON entry gives field `f`; only the field's own JSON
      type is accepted. */
  function JsonValue(f: Field, j: Json): (r: Result<Value>)
    ensures r.Success? ==> Fits(f, r.value)
    ensures r.Failure? ==> r.error == TypeError
  {
    match KindOf(f)
    case StrKind => if j.JStr? then Success(VStr(j.s)) else Failure(TypeError)
    case IntKind => if j.JInt? then Success(VInt(j.i)) else Failure(TypeError)
    case BoolKind => if j.JBool? then Success(VBool(j.b)) else Failure(TypeError)
    case OptKind =>
      if j.JStr? then Success(VStr(j.s)) else if j.JNull? then Success(VNone) else Failure(TypeError)
  }

  lemma JsonValueInverts(f: Field, v: Value)
    requires Fits(f, v)
    ensures JsonValue(f, ValueJson(v)) == Success(v)
  {
  }

  /** The entries of `fields`, keyed by name. */
  function DictOf(c: ServiceConfig, fields: seq<Field>): map<string, Json>
    decreases |fields|
  {
    if |fields| == 0 then map[]
    else DictOf(c, fields[1..])[Name(fields[0]) := ValueJson(Get(c, fields[0]))]
  }

  lemma {:induction false} DictOfEntries(c: ServiceConfig, fields: seq<Field>, k: string)
    ensures k in DictOf(c, fields) <==> FieldNamed(k).Some? && FieldNamed(k).value in fields
    ensures k in DictOf(c, fields) ==> DictOf(c, fields)[k] == ValueJson(Get(c, FieldNamed(k).value))
    decreases |fields|
  {
    if |fields| > 0 {
      var f := fields[0];
      NameIdentifiesField(f);
      DictOfEntries(c, fields[1..], k);
      assert forall g :: g in fields <==> g == f || g in fields[1..];
      if FieldNamed(k) == Some(f) {
        NameIdentifiesField(f);
        if k != Name(f) {
          assert FieldNamed(k).Some?;
          NameOfFieldNamed(k);
        }
      }
    }
  }

  /** The only names that lead to a field are the field names. */
  lemma NameOfFieldNamed(k: string)
    requires FieldNamed(k).Some?
    ensures Name(FieldNamed(k).value) == k
  {
    if k == "host" {
    } else if k == "port" {
    } else if k == "username" {
    } else if k == "password" {
    } else if k == "secure" {
    } else if k == "poll_interval" {
    } else if k == "batch_size" {
    } else if k == "chunk_size" {
    } else if k == "namespace" {
    } else if k == "log_level" {
    } else if k == "log_file" {
    } else if k == "webhook_url" {
    } else if k == "max_retries" {
    } else if k == "retry_delay" {
    }
  }

  /** `asdict(config)`, which `save` writes out: one entry per field, under
      its name. */
  function ToDict(c: ServiceConfig): (r: Json)
    ensures r.JObj?
  {
    JObj(DictOf(c, Fields))
  }

  /** Every field is listed. */
  lemma AllFieldsListed()
    ensures forall f :: f in Fields
  {
    forall f ensures f in Fields {
      var i := FieldListed(f);
    }
  }

  /** Over a list holding every field, the dict's keys are exactly the
      field names, each holding its field's value. */
  lemma DictOfComplete(c: ServiceConfig, fields: seq<Field>, k: string)
    requires forall f :: f in fields
    ensures k in DictOf(c, fields) <==> FieldNamed(k).Some?
    ensures k in DictOf(c, fields) ==> DictOf(c, fields)[k] == ValueJson(Get(c, FieldNamed(k).value))
  {
    DictOfEntries(c, fields, k);
  }

  /** Every key of the dict names a field, every field has its entry, and
      the entry holds the field's value. */
  lemma ToDictEntries(c: ServiceConfig, k: string)
    ensures k in ToDict(c).fields <==> FieldNamed(k).Some?
    ensures k in ToDict(c).fields ==> ToDict(c).fields[k] == ValueJson(Get(c, FieldNamed(k).value))
  {
    AllFieldsListed();
    DictOfComplete(c, Fields, k);
  }

  /** The fields named in the dict, in declaration order, set on top of the
      defaults. */
  function Assign(c: ServiceConfig, fields: seq<Field>, data: map<string, Json>): (r: Result<ServiceConfig>)
    decreases |fields|
  {
    if |fields| == 0 then Success(c)
    else
      var f := fields[0];
      if Name(f) !in data then Assign(c, fields[1..], data)
      else
        match JsonValue(f, data[Name(f)])
        case Failure(e) => Failure(e)
        case Success(v) => Assign(Set(c, f, v), fields[1..], data)
  }

  /** `cls(**data)`: a dict whose keys are all field names; anything else
      raises `TypeError`. */
  function FromDict(data: Json): (r: Result<ServiceConfig>)
    ensures !data.JObj? ==> r == Failure(TypeError)
    ensures data.JObj? && (exists k :: k in data.fields && FieldNamed(k).None?) ==> r == Failure(TypeError)
  {
    match data
    case JObj(fields) =>
      if exists k :: k in fields && FieldNamed(k).None? then Failure(TypeError)
      else Assign(Default, Fields, fields)
    case _ => Failure(TypeError)
  }

  /** The dict has an entry for `f` whose JSON type does not fit it. */
  predicate Mistyped(f: Field, data: map<string, Json>) {
    Name(f) in data && JsonValue(f, data[Name(f)]).Failure?
  }

  /** The value `f` ends with: its entry when there is one, what it had
      before otherwise. */
  function Assigned(c: ServiceConfig, f: Field, data: map<string, Json>): Value {
    if Name(f) in data && JsonValue(f, data[Name(f)]).Success?
    then JsonValue(f, data[Name(f)]).value
    else Get(c, f)
  }

  /** Assigning fails exactly when one of its fields has a mistyped entry;
      otherwise each listed field takes its entry, when there is one, and
      every other field is untouched. */
  lemma {:induction false} AssignFields(c: ServiceConfig, fields: seq<Field>, data: map<string, Json>)
    requires forall i, j :: 0 <= i < j < |fields| ==> fields[i] != fields[j]
    ensures var r := Assign(c, fields, data);
      && (r.Failure? <==> exists i :: 0 <= i < |fields| && Mistyped(fields[i], data))
      && (r.Failure? ==> r.error == TypeError)
      && (r.Success? ==> forall g :: Get(r.value, g) == if g in fields then Assigned(c, g, data) else Get(c, g))
    decreases |fields|
  {
    if |fields| > 0 {
      var f := fields[0];
      var rest := fields[1..];
      assert forall i :: 0 < i < |fields| ==> fields[i] == rest[i - 1];
      assert forall g :: g in fields <==> g == f || g in rest;
      if Name(f) !in data {
        AssignFields(c, rest, data);
      } else {
        var jv := JsonValue(f, data[Name(f)]);
        if jv.Success? {
          AssignFields(Set(c, f, jv.value), rest, data);
          assert f !in rest;
        }
      }
    }
  }

  /** A dict whose keys all name fields, partial or complete, fails with
      `TypeError` exactly when an entry's type does not fit its field;
      otherwise every field with an entry takes it and every other field
      keeps its default. */
  lemma FromDictFields(data: Json, f: Field)
    requires data.JObj? && forall k :: k in data.fields ==> FieldNamed(k).Some?
    ensures var r := FromDict(data);
      && (r.Failure? <==> exists g :: Mistyped(g, data.fields))
      && (r.Failure? ==> r.error == TypeError)
      && (r.Success? && Name(f) !in data.fields ==> Get(r.value, f) == Get(Default, f))
      && (r.Success? && Name(f) in data.fields ==> JsonValue(f, data.fields[Name(f)]) == Success(Get(r.value, f)))
  {
    FieldsDistinct();
    FieldsComplete();
    AssignFields(Default, Fields, data.fields);
    var r := FromDict(data);
    assert r == Assign(Default, Fields, data.fields);
    if exists g :: Mistyped(g, data.fields) {
      var g :| Mistyped(g, data.fields);
      var i := FieldListed(g);
    }
  }

  /** `data` holds, under each listed field's name, the JSON form of that
      field's value in `target`. */
  predicate HoldsValues(data: map<string, Json>, fields: seq<Field>, target: ServiceConfig) {
    forall i :: 0 <= i < |fields| ==>
      Name(fields[i]) in data && data[Name(fields[i])] == ValueJson(Get(target, fields[i]))
  }

  /** Setting every remaining field from a dict that holds their values
      gives each of them its value and leaves the other fields alone. */
  lemma {:induction false} AssignAll(c: ServiceConfig, fields: seq<Field>, data: map<string, Json>, target: ServiceConfig)
    requires forall i, j :: 0 <= i < j < |fields| ==> fields[i] != fields[j]
    requires HoldsValues(data, fields, target)
    ensures var r := Assign(c, fields, data);
      && r.Success?
      && forall g :: Get(r.value, g) == if g in fields then Get(target, g) else Get(c, g)
    decreases |fields|
  {
    if |fields| > 0 {
      var f := fields[0];
      var rest := fields[1..];
      assert forall i :: 0 < i < |fields| ==> fields[i] == rest[i - 1];
      assert HoldsValues(data, rest, target);
      assert Name(f) in data && data[Name(f)] == ValueJson(Get(target, f));
      JsonValueInverts(f, Get(target, f));
      var c' := Set(c, f, Get(target, f));
      assert Assign(c, fields, data) == Assign(c', rest, data);
      AssignAll(c', rest, data, target);
      assert f !in rest;
      assert forall g :: g in fields <==> g == f || g in rest;
    }
  }

  /** Over a list holding every field, a dict holding the values of `target`
      rebuilds `target`. */
  lemma AssignRebuilds(c: ServiceConfig, fields: seq<Field>, data: map<string, Json>, target: ServiceConfig)
    requires forall i, j :: 0 <= i < j < |fields| ==> fields[i] != fields[j]
    requires forall g :: g in fields
    requires HoldsValues(data, fields, target)
    ensures Assign(c, fields, data) == Success(target)
  {
    AssignAll(c, fields, data, target);
    SameFieldsSameConfig(Assign(c, fields, data).value, target);
  }

  /** The saved dict holds every field's value under its name. */
  lemma SavedValues(c: ServiceConfig)
    ensures HoldsValues(ToDict(c).fields, Fields, c)
  {
    forall i | 0 <= i < |Fields|
      ensures Name(Fields[i]) in ToDict(c).fields
      ensures ToDict(c).fields[Name(Fields[i])] == ValueJson(Get(c, Fields[i]))
    {
      NameIdentifiesField(Fields[i]);
      ToDictEntries(c, Name(Fields[i]));
    }
  }

  /** Every key of a saved dict names a field. */
  lemma SavedKeysKnown(c: ServiceConfig)
    ensures !exists k :: k in ToDict(c).fields && FieldNamed(k).None?
  {
    forall k | k in ToDict(c).fields
      ensures FieldNamed(k).Some?
    {
      ToDictEntries(c, k);
    }
  }

  /** `from_file` reads back exactly the config `save` wrote. */
  lemma DictRoundTrip(c: ServiceConfig)
    ensures FromDict(ToDict(c)) == Success(c)
  {
    SavedKeysKnown(c);
    FieldsDistinct();
    FieldsComplete();
    SavedValues(c);
    AssignRebuilds(Default, Fields, ToDict(c).fields, c);
  }

  // ---------------------------------------------------------------------
  // load_config

  /** The file system as `load_config` sees it: which paths exist, and the
      JSON each one decodes to (or the error reading it raises). */
  datatype Files = Files(present: string -> bool, load: string -> Result<Json>)

  /** `load_config(config_path)`: the file wins when a path is given and
      exists; otherwise the environment overlay. */
  function LoadConfig(path: Option<string>, files: Files, env: map<string, string>, parseInt: IntParser): (r: Result<ServiceConfig>)
    ensures path.Some? && files.present(path.value) ==>
      r == (match files.load(path.value) case Failure(e) => Failure(e) case Success(j) => FromDict(j))
    ensures !(path.Some? && files.present(path.value)) ==> r == FromEnv(env, parseInt)
  {
    if path.Some? && files.present(path.value) then
      match files.load(path.value)
      case Failure(e) => Failure(e)
      case Success(j) => FromDict(j)
    else FromEnv(env, parseInt)
  }

  /** A config saved to an existing file loads back unchanged, whatever the
      environment says. */
  lemma SavedConfigLoads(c: ServiceConfig, path: string, files: Files, env: map<string, string>, parseInt: IntParser)
    requires files.present(path) && files.load(path) == Success(ToDict(c))
    ensures LoadConfig(Some(path), files, env, parseInt) == Success(c)
  {
    DictRoundTrip(c);
  }
}

=== FILE: declare.dfy ===
/** `declare` and `timestamp`: extending an ISCC note with a nonce, a
    timestamp and a gateway URL, signing it, posting it to an ISCC-HUB and
    reading the ISCC-ID out of the hub's answer. */
module Declaration {
  import opened Wrappers
  import opened Json
  import opened Digits
  import Clock

  // ---------------------------------------------------------------------
  // Environment and network

  /** The signing key `key_from_env` loads; its contents are never inspected. */
  datatype Keypair = Keypair(secret: string)

  /** `requests.post(endpoint, json=body)`. */
  datatype Request = Request(endpoint: string, body: map<string, Json>)

  /** What `requests.post` produced: it raised, or a response whose body is
      `Some(j)` when it decodes as JSON and `None` when `response.json()`
      raises. */
  datatype Response =
    | TransportError
    | HttpResponse(status: int, body: Option<Json>)

  /** Everything `declare` reads besides its arguments: the keypair from the
      environment, the environment variables, the UTC clock, and the foreign
      functions it calls (`int()`, `create_nonce`, `sign_json`, the POST). */
  datatype HubEnv = HubEnv(
    keypair: Result<Keypair>,
    vars: map<string, string>,
    now: Clock.DateTime,
    parseInt: string -> Option<int>,
    createNonce: int -> Result<string>,
    sign: (map<string, Json>, Keypair) -> map<string, Json>,
    post: Request -> Response)

  /** `os.getenv(name)` is set and truthy (not empty). */
  predicate VarSet(vars: map<string, string>, name: string) {
    name in vars && |vars[name]| > 0
  }

  const HubIdVar := "ISCC_HUB_ID"
  const HubUrlVar := "ISCC_HUB_URL"
  const PublicUrlVar := "OMERO_HOST_PUBLIC_URL"

  predicate Configured(vars: map<string, string>) {
    VarSet(vars, HubIdVar) && VarSet(vars, HubUrlVar) && VarSet(vars, PublicUrlVar)
  }

  // ---------------------------------------------------------------------
  // Formatting

  /** `strftime("%Y-%m-%dT%H:%M:%S.%f")[:-3] + "Z"` on a UTC reading. The
      year is zero-padded to four digits; glibc's `%Y` does not pad a year
      below 1000, so there the source's timestamp is shorter. */
  function Timestamp(d: Clock.DateTime): (s: string)
    ensures |s| == 24
    ensures s[..19] == Clock.DateAndTime(d)
    ensures s[19] == '.' && s[23] == 'Z'
    ensures s[20..23] == Pad(d.microsecond / 1000, 3)
  {
    var full := Clock.DateAndTime(d) + "." + Pad(d.microsecond, 6);
    PadDropLow(d.microsecond, 6, 3);
    DropThreeDigits(d.microsecond);
    assert full[20..23] == Pad(d.microsecond, 6)[..3];
    full[..|full| - 3] + "Z"
  }

  /** The millisecond field of a timestamp reads back as the microseconds
      divided by 1000, rounded down. */
  lemma TimestampMilliseconds(d: Clock.DateTime)
    requires Clock.Valid(d)
    ensures AllDigits(Timestamp(d)[20..23])
    ensures DigitsValue(Timestamp(d)[20..23]) == d.microsecond / 1000
  {
    assert d.microsecond / 1000 < Pow10(3) by {
      assert Pow10(3) == 1000;
    }
    PadRoundTrip(d.microsecond / 1000, 3);
  }

  const GatewayInfix := "/webclient/?show=image-"

  /** The OMERO.web link to an image. */
  function Gateway(publicUrl: string, imageId: int): (g: string)
    ensures |g| == |publicUrl| + |GatewayInfix| + |IntToString(imageId)|
    ensures g[..|publicUrl|] == publicUrl
    ensures g[|publicUrl|..|publicUrl| + |GatewayInfix|] == GatewayInfix
    ensures g[|publicUrl| + |GatewayInfix|..] == IntToString(imageId)
  {
    publicUrl + GatewayInfix + IntToString(imageId)
  }

  /** The image id can be read back from its gateway link. */
  lemma GatewayRecoversId(publicUrl: string, imageId: nat)
    ensures var tail := Gateway(publicUrl, imageId)[|publicUrl| + |GatewayInfix|..];
      AllDigits(tail) && DigitsValue(tail) == imageId
  {
    DecimalRoundTrip(imageId);
  }

  /** Links to different images differ. */
  lemma GatewayInjective(publicUrl: string, a: nat, b: nat)
    requires Gateway(publicUrl, a) == Gateway(publicUrl, b)
    ensures a == b
  {
    GatewayRecoversId(publicUrl, a);
    GatewayRecoversId(publicUrl, b);
  }

  /** `s.removesuffix("/")`: at most one slash is removed. */
  function RemoveSlash(s: string): (r: string)
    ensures |s| > 0 && s[|s| - 1] == '/' ==> s == r + "/"
    ensures !(|s| > 0 && s[|s| - 1] == '/') ==> r == s
  {
    if |s| > 0 && s[|s| - 1] == '/' then s[..|s| - 1] else s
  }

  const DeclarationPath := "/declaration"

  /** The hub's declaration endpoint. */
  function Endpoint(hubUrl: string): (e: string)
    ensures |e| >= |DeclarationPath| && e[|e| - |DeclarationPath|..] == DeclarationPath
    ensures e[..|e| - |DeclarationPath|] + "/" == hubUrl || e[..|e| - |DeclarationPath|] == hubUrl
  {
    var base := RemoveSlash(hubUrl);
    assert (base + DeclarationPath)[..|base|] == base;
    base + DeclarationPath
  }

  /** A hub URL written with or without its trailing slash names the same
      endpoint. */
  lemma EndpointTrailingSlash(hubUrl: string)
    requires |hubUrl| == 0 || hubUrl[|hubUrl| - 1] != '/'
    ensures Endpoint(hubUrl + "/") == Endpoint(hubUrl)
  {
    assert (hubUrl + "/")[..|hubUrl|] == hubUrl;
  }

  /** Only one slash goes: a URL ending in two keeps one, and the endpoint
      path then starts with an empty segment. */
  lemma EndpointKeepsSecondSlash()
    ensures Endpoint("https://hub//") == "https://hub//declaration"
  {
    var u := "https://hub//";
    assert |u| == 13 && u[12] == '/';
    assert u[..12] == "https://hub/";
    assert RemoveSlash(u) == "https://hub/";
    assert "https://hub/" + DeclarationPath == "https://hub//declaration";
  }

  // ---------------------------------------------------------------------
  // Resolving the hub's answer

  const ExistingKey := "existing_iscc_id"
  const IdPath := ["credentialSubject", "declaration", "iscc_id"]

  /** The id a 409 answer names: `response.json().get("error", {})
      .get("existing_iscc_id")` when that is truthy. Any exception while
      reading it is swallowed. */
  function ExistingId(status: int, body: Option<Json>): (r: Option<Json>)
    ensures r.Some? <==>
      && status == 409 && body.Some? && body.value.JObj?
      && "error" in body.value.fields && body.value.fields["error"].JObj?
      && ExistingKey in body.value.fields["error"].fields
      && Truthy(body.value.fields["error"].fields[ExistingKey])
    ensures r.Some? ==> r.value == body.value.fields["error"].fields[ExistingKey]
  {
    if status != 409 || body.None? then None
    else
      match Get(body.value, "error", JObj(map[]))
      case Failure(_) => None
      case Success(err) =>
        match Get(err, ExistingKey, JNull)
        case Failure(_) => None
        case Success(id) => if Truthy(id) then Some(id) else None
  }

  /** Subscripting along `IdPath` reaches something that is not a dict, so
      Python raises `TypeError`, which `declare` does not catch. */
  predicate PathHitsNonDict(j: Json) {
    || !j.JObj?
    || ("credentialSubject" in j.fields
        && var cs := j.fields["credentialSubject"];
        || !cs.JObj?
        || ("declaration" in cs.fields && !cs.fields["declaration"].JObj?))
  }

  /** Every key of `IdPath` is present, each step a dict. */
  predicate HasIdPath(j: Json) {
    && j.JObj? && "credentialSubject" in j.fields
    && var cs := j.fields["credentialSubject"];
    && cs.JObj? && "declaration" in cs.fields
    && var dc := cs.fields["declaration"];
    && dc.JObj? && "iscc_id" in dc.fields
  }

  function IdAtPath(j: Json): Json
    requires HasIdPath(j)
  {
    j.fields["credentialSubject"].fields["declaration"].fields["iscc_id"]
  }

  /** The 409 branch, then the success-body parse, which a 409 without a
      usable existing id (and every other status) falls through to. A
      missing key or a body that is not JSON gives no id; a non-dict on the
      path escapes as `TypeError`. */
  function Resolve(resp: Response): (r: Result<Option<Json>>)
    ensures resp.TransportError? ==> r == Success(None)
    ensures resp.HttpResponse? && ExistingId(resp.status, resp.body).Some? ==>
      r == Success(ExistingId(resp.status, resp.body))
    ensures r.Failure? <==>
      && resp.HttpResponse? && ExistingId(resp.status, resp.body).None?
      && resp.body.Some? && PathHitsNonDict(resp.body.value)
    ensures r.Failure? ==> r.error == TypeError
    ensures resp.HttpResponse? && ExistingId(resp.status, resp.body).None? ==>
      (r == Success(None) <==> resp.body.None? || (!HasIdPath(resp.body.value) && !PathHitsNonDict(resp.body.value)))
    ensures (resp.HttpResponse? && ExistingId(resp.status, resp.body).None?
             && resp.body.Some? && HasIdPath(resp.body.value)) ==>
      r == Success(Some(IdAtPath(resp.body.value)))
  {
    match resp
    case TransportError => Success(None)
    case HttpResponse(status, body) =>
      match ExistingId(status, body)
      case Some(id) => Success(Some(id))
      case None =>
        if body.None? then Success(None)
        else
          match Path(body.value, IdPath)
          case Success(id) => Success(Some(id))
          case Failure(KeyError) => Success(None)
          case Failure(e) => Failure(e)
  }

  // ---------------------------------------------------------------------
  // declare

  /** What a call to `declare` leaves behind: the caller's note as it stands
      afterwards (the source extends it in place), the request posted, if
      any, and the id returned. */
  datatype Declared = Declared(note: map<string, Json>, posted: Option<Request>, id: Option<Json>)

  /** The note with the three declaration fields added. */
  function Extend(note: map<string, Json>, nonce: string, stamp: string, gateway: string): (r: map<string, Json>)
    ensures r.Keys == note.Keys + {"nonce", "timestamp", "gateway"}
    ensures r["nonce"] == JStr(nonce) && r["timestamp"] == JStr(stamp) && r["gateway"] == JStr(gateway)
    ensures forall k :: k in note && k !in {"nonce", "timestamp", "gateway"} ==> r[k] == note[k]
  {
    note["nonce" := JStr(nonce)]["timestamp" := JStr(stamp)]["gateway" := JStr(gateway)]
  }

  /** The keypair loads, every variable is set and the hub id parses: the
      call goes on to make a nonce. */
  predicate ReadyToPost(env: HubEnv) {
    env.keypair.Success? && Configured(env.vars) && env.parseInt(env.vars[HubIdVar]).Some?
  }

  /** The request a configured `declare` posts with `nonce`: the note
      extended with the nonce, the timestamp and the gateway link, signed,
      sent to the hub's declaration endpoint. */
  function SignedRequest(note: map<string, Json>, imageId: int, env: HubEnv, nonce: string): Request
    requires env.keypair.Success? && Configured(env.vars)
  {
    var extended := Extend(note, nonce, Timestamp(env.now), Gateway(env.vars[PublicUrlVar], imageId));
    Request(Endpoint(env.vars[HubUrlVar]), env.sign(extended, env.keypair.value))
  }

  /** `declare(iscc_note, image_id)`. A keypair that does not load or an
      unset variable ends the call with no id and no request. A hub id that
      `int()` rejects, or a nonce that cannot be made, raises before the note
      is touched. */
  function Declare(note: map<string, Json>, imageId: int, env: HubEnv): (r: Result<Declared>)
    ensures env.keypair.Failure? || !Configured(env.vars) ==>
      r == Success(Declared(note, None, None))
    ensures env.keypair.Success? && Configured(env.vars) && env.parseInt(env.vars[HubIdVar]).None? ==>
      r == Failure(ValueError)
    ensures r.Success? && r.value.posted.Some? ==>
      && env.keypair.Success? && Configured(env.vars)
      && env.parseInt(env.vars[HubIdVar]).Some?
      && var nonce := env.createNonce(env.parseInt(env.vars[HubIdVar]).value);
      && nonce.Success?
      && r.value.note == Extend(note, nonce.value, Timestamp(env.now), Gateway(env.vars[PublicUrlVar], imageId))
      && r.value.posted.value == Request(Endpoint(env.vars[HubUrlVar]), env.sign(r.value.note, env.keypair.value))
      && Resolve(env.post(r.value.posted.value)) == Success(r.value.id)
    ensures r.Success? && r.value.posted.None? ==> r.value == Declared(note, None, None)
    ensures ReadyToPost(env) && env.createNonce(env.parseInt(env.vars[HubIdVar]).value).Failure? ==>
      r == Failure(env.createNonce(env.parseInt(env.vars[HubIdVar]).value).error)
    ensures ReadyToPost(env) && env.createNonce(env.parseInt(env.vars[HubIdVar]).value).Success? ==>
      var req := SignedRequest(note, imageId, env, env.createNonce(env.parseInt(env.vars[HubIdVar]).value).value);
      && (r.Failure? <==> Resolve(env.post(req)).Failure?)
      && (r.Success? ==> r.value.posted == Some(req))
      && (r.Failure? ==> r.error == TypeError)
  {
    if env.keypair.Failure? || !Configured(env.vars) then Success(Declared(note, None, None))
    else
      match env.parseInt(env.vars[HubIdVar])
      case None => Failure(ValueError)
      case Some(hubId) =>
        match env.createNonce(hubId)
        case Failure(e) => Failure(e)
        case Success(nonce) =>
          var extended := Extend(note, nonce, Timestamp(env.now), Gateway(env.vars[PublicUrlVar], imageId));
          var req := Request(Endpoint(env.vars[HubUrlVar]), env.sign(extended, env.keypair.value));
          match Resolve(env.post(req))
          case Failure(e) => Failure(e)
          case Success(id) => Success(Declared(extended, Some(req), id))
  }

  // ---------------------------------------------------------------------
  // A hub that remembers what it has declared

  /** An ISCC-HUB as a registry from ISCC codes to the ids issued for them. */
  datatype Hub = Hub(issued: map<string, string>)

  /** The hub's answer to a declaration: a new code gets `newId` under
      `credentialSubject.declaration.iscc_id`; a known one is refused with
      409 and the existing id. A body without a string `iscc_code` is a bad
      request. */
  function HubAnswer(hub: Hub, newId: string, req: Request): Response {
    if "iscc_code" !in req.body || !req.body["iscc_code"].JStr? then HttpResponse(400, None)
    else
      var code := req.body["iscc_code"].s;
      if code in hub.issued then
        HttpResponse(409, Some(Single("error", Single(ExistingKey, JStr(hub.issued[code])))))
      else
        HttpResponse(200, Some(Single("credentialSubject", Single("declaration", Single("iscc_id", JStr(newId))))))
  }

  /** The hub after answering: a new code is recorded with `newId`. */
  function HubAfter(hub: Hub, newId: string, req: Request): Hub {
    if "iscc_code" !in req.body || !req.body["iscc_code"].JStr? then hub
    else
      var code := req.body["iscc_code"].s;
      if code in hub.issued then hub else Hub(hub.issued[code := newId])
  }

  /** `sign_json` leaves the note's `iscc_code` in the signed body. */
  ghost predicate KeepsCode(sign: (map<string, Json>, Keypair) -> map<string, Json>) {
    forall n: map<string, Json>, k: Keypair ::
      "iscc_code" in n ==> "iscc_code" in sign(n, k) && sign(n, k)["iscc_code"] == n["iscc_code"]
  }

  /** The env of one `declare` call against `hub`. */
  function AgainstHub(env: HubEnv, hub: Hub, newId: string): HubEnv {
    env.(post := (req: Request) => HubAnswer(hub, newId, req))
  }

  /** Declaring the same note twice yields the same id: the first call gets
      a new id with status 200; the second, made later with its own clock
      reading, nonce and signature, is refused with 409 and the id the hub
      already issued. */
  lemma DeclareTwiceSameId(note: map<string, Json>, imageId: int, env: HubEnv, env2: HubEnv, hub: Hub, newId1: string, newId2: string)
    requires "iscc_code" in note && note["iscc_code"].JStr? && note["iscc_code"].s !in hub.issued
    requires |newId1| > 0
    requires KeepsCode(env.sign) && KeepsCode(env2.sign)
    requires ReadyToPost(env) && env.createNonce(env.parseInt(env.vars[HubIdVar]).value).Success?
    requires ReadyToPost(env2) && env2.createNonce(env2.parseInt(env2.vars[HubIdVar]).value).Success?
    ensures var first := Declare(note, imageId, AgainstHub(env, hub, newId1));
      && first.Success? && first.value.posted.Some?
      && first.value.id == Some(JStr(newId1))
      && var hub2 := HubAfter(hub, newId1, first.value.posted.value);
      && Declare(note, imageId, AgainstHub(env2, hub2, newId2)).Success?
      && Declare(note, imageId, AgainstHub(env2, hub2, newId2)).value.id == Some(JStr(newId1))
  {
    var code := note["iscc_code"].s;
    FirstDeclarationIssues(note, imageId, env, hub, newId1, code);
    var first := Declare(note, imageId, AgainstHub(env, hub, newId1)).value;
    var hub2 := HubAfter(hub, newId1, first.posted.value);
    KnownDeclarationAnswered(note, imageId, env2, hub2, newId2, code);
  }

  /** The first declaration of a code the hub does not know, made by a
      fully configured env whose nonce succeeds, posts, is issued the new
      id, and the hub records it. */
  lemma FirstDeclarationIssues(note: map<string, Json>, imageId: int, env: HubEnv, hub: Hub, newId: string, code: string)
    requires "iscc_code" in note && note["iscc_code"] == JStr(code) && code !in hub.issued
    requires |newId| > 0
    requires KeepsCode(env.sign)
    requires ReadyToPost(env)
    requires env.createNonce(env.parseInt(env.vars[HubIdVar]).value).Success?
    ensures var first := Declare(note, imageId, AgainstHub(env, hub, newId));
      && first.Success? && first.value.posted.Some?
      && first.value.id == Some(JStr(newId))
      && HubAfter(hub, newId, first.value.posted.value).issued == hub.issued[code := newId]
  {
    var e := AgainstHub(env, hub, newId);
    var nonce := env.createNonce(env.parseInt(env.vars[HubIdVar]).value).value;
    var extended := Extend(note, nonce, Timestamp(env.now), Gateway(env.vars[PublicUrlVar], imageId));
    assert extended["iscc_code"] == note["iscc_code"];
    var req := Request(Endpoint(env.vars[HubUrlVar]), env.sign(extended, env.keypair.value));
    assert req.body["iscc_code"] == JStr(code);
    SignedCodeAnswered(hub, newId, req, code);
    assert Declare(note, imageId, e) == Success(Declared(extended, Some(req), Some(JStr(newId))));
  }

  /** A declaration of a code the hub already issued an id for, made by a
      fully configured env whose nonce succeeds, resolves to that id. */
  lemma KnownDeclarationAnswered(note: map<string, Json>, imageId: int, env: HubEnv, hub: Hub, newId: string, code: string)
    requires "iscc_code" in note && note["iscc_code"] == JStr(code)
    requires code in hub.issued && |hub.issued[code]| > 0
    requires KeepsCode(env.sign)
    requires ReadyToPost(env)
    requires env.createNonce(env.parseInt(env.vars[HubIdVar]).value).Success?
    ensures Declare(note, imageId, AgainstHub(env, hub, newId)).Success?
    ensures Declare(note, imageId, AgainstHub(env, hub, newId)).value.id == Some(JStr(hub.issued[code]))
  {
    var e := AgainstHub(env, hub, newId);
    var nonce := env.createNonce(env.parseInt(env.vars[HubIdVar]).value).value;
    var extended := Extend(note, nonce, Timestamp(env.now), Gateway(env.vars[PublicUrlVar], imageId));
    assert extended["iscc_code"] == note["iscc_code"];
    var req := Request(Endpoint(env.vars[HubUrlVar]), env.sign(extended, env.keypair.value));
    assert req.body["iscc_code"] == JStr(code);
    KnownCodeAnswered(hub, newId, req, code);
    assert Declare(note, imageId, e) == Success(Declared(extended, Some(req), Some(JStr(hub.issued[code]))));
  }

  lemma SignedCodeAnswered(hub: Hub, newId: string, req: Request, code: string)
    requires "iscc_code" in req.body && req.body["iscc_code"] == JStr(code) && code !in hub.issued
    requires |newId| > 0
    ensures Resolve(HubAnswer(hub, newId, req)) == Success(Some(JStr(newId)))
    ensures HubAfter(hub, newId, req).issued == hub.issued[code := newId]
  {
    var body := Single("credentialSubject", Single("declaration", Single("iscc_id", JStr(newId))));
    assert HasIdPath(body);
  }

  lemma KnownCodeAnswered(hub: Hub, newId: string, req: Request, code: string)
    requires "iscc_code" in req.body && req.body["iscc_code"] == JStr(code) && code in hub.issued
    requires |hub.issued[code]| > 0
    ensures Resolve(HubAnswer(hub, newId, req)) == Success(Some(JStr(hub.issued[code])))
  {
  }
}

=== FILE: digits.dfy ===
/** Decimal rendering of integers as Python's `str(int)` and `strftime`'s
    zero-padded fields produce it, with the parser that reads it back. */
module Digits {

  function Pow10(k: nat): (r: nat)
    ensures r >= 1
  {
    if k == 0 then 1 else 10 * Pow10(k - 1)
  }

  function DigitChar(d: nat): (c: char)
    requires d < 10
    ensures '0' <= c <= '9'
  {
    ['0', '1', '2', '3', '4', '5', '6', '7', '8', '9'][d]
  }

  predicate IsDigit(c: char) {
    '0' <= c <= '9'
  }

  predicate AllDigits(s: string) {
    forall i :: 0 <= i < |s| ==> IsDigit(s[i])
  }

  function DigitValue(c: char): (d: nat)
    requires IsDigit(c)
    ensures d < 10
  {
    (c as int) - ('0' as int)
  }

  /** The low `w` decimal digits of `n`, most significant first, padded with
      zeros (`%02d`, `%06d`, ...). */
  function Pad(n: nat, w: nat): (s: string)
    ensures |s| == w
    ensures AllDigits(s)
  {
    if w == 0 then "" else Pad(n / 10, w - 1) + [DigitChar(n % 10)]
  }

  /** `str(n)` for a natural number: no leading zeros, "0" for zero. */
  function Decimal(n: nat): (s: string)
    ensures 1 <= |s|
    ensures AllDigits(s)
    ensures s[0] == '0' ==> n == 0
  {
    if n < 10 then [DigitChar(n)] else Decimal(n / 10) + [DigitChar(n % 10)]
  }

  /** `str(i)` for any integer. */
  function IntToString(i: int): (s: string)
    ensures 1 <= |s|
    ensures i >= 0 <==> AllDigits(s)
  {
    if i < 0 then
      var s := "-" + Decimal(-i);
      assert !IsDigit(s[0]);
      s
    else Decimal(i)
  }

  /** The value of a string of decimal digits, read most significant first. */
  function DigitsValue(s: string): nat
    requires AllDigits(s)
  {
    if |s| == 0 then 0 else 10 * DigitsValue(s[..|s| - 1]) + DigitValue(s[|s| - 1])
  }

  lemma DigitRoundTrip(d: nat)
    requires d < 10
    ensures DigitValue(DigitChar(d)) == d
  {
  }

  /** Reading a padded field back yields the number, when it fits. */
  lemma {:induction false} PadRoundTrip(n: nat, w: nat)
    requires n < Pow10(w)
    ensures DigitsValue(Pad(n, w)) == n
  {
    if w > 0 {
      var s := Pad(n, w);
      assert s[..|s| - 1] == Pad(n / 10, w - 1);
      PadRoundTrip(n / 10, w - 1);
      DigitRoundTrip(n % 10);
    }
  }

  /** `int(str(n)) == n`. */
  lemma {:induction false} DecimalRoundTrip(n: nat)
    ensures DigitsValue(Decimal(n)) == n
  {
    if n >= 10 {
      var s := Decimal(n);
      assert s[..|s| - 1] == Decimal(n / 10);
      DecimalRoundTrip(n / 10);
    }
    DigitRoundTrip(n % 10);
  }

  /** Euclidean division is determined by its quotient-remainder bounds. */
  lemma DivModUnique(n: int, d: int, q: int, r: int)
    requires d > 0 && 0 <= r < d && n == q * d + r
    ensures n / d == q && n % d == r
  {
    var q0, r0 := n / d, n % d;
    assert n == q0 * d + r0;
    assert (q0 - q) * d == r - r0;
    if q0 > q {
      MulAtLeast(q0 - q, d);
      assert false;
    } else if q0 < q {
      MulAtLeast(q - q0, d);
      assert false;
    }
  }

  lemma MulAtLeast(a: int, d: int)
    requires a >= 1 && d > 0
    ensures a * d >= d
  {
  }

  lemma DivDiv(n: nat, a: nat, b: nat)
    requires a > 0 && b > 0
    ensures n / a / b == n / (a * b)
  {
    var q, r := n / a, n % a;
    var q2, r2 := q / b, q % b;
    assert n == q * a + r;
    assert q == q2 * b + r2;
    assert q * a == q2 * (a * b) + r2 * a by {
      assert (q2 * b + r2) * a == q2 * b * a + r2 * a;
      assert q2 * b * a == q2 * (a * b);
    }
    assert r2 * a + r < a * b by {
      assert r2 * a <= (b - 1) * a by { MulLeNat(r2, b - 1, a); }
      assert (b - 1) * a == a * b - a;
    }
    DivModUnique(n, a * b, q2, r2 * a + r);
  }

  lemma MulLeNat(x: nat, y: nat, a: nat)
    requires x <= y
    ensures x * a <= y * a
  {
  }

  lemma PadStep(n: nat, w: nat)
    ensures Pad(n, w + 1) == Pad(n / 10, w) + [DigitChar(n % 10)]
  {
  }

  /** `n` with its `k` lowest decimal digits discarded. */
  function DropDigits(n: nat, k: nat): nat {
    if k == 0 then n else DropDigits(n / 10, k - 1)
  }

  lemma DropThreeDigits(n: nat)
    ensures DropDigits(n, 3) == n / 1000
  {
    calc {
      DropDigits(n, 3);
      DropDigits(n / 10, 2);
      DropDigits(n / 10 / 10, 1);
      DropDigits(n / 10 / 10 / 10, 0);
    }
    DivDiv(n, 10, 10);
    DivDiv(n, 100, 10);
  }

  /** Dropping the last `k` characters of a padded field leaves the padded
      field of `n` with its `k` lowest digits discarded. */
  lemma {:induction false} PadDropLow(n: nat, w: nat, k: nat)
    requires k <= w
    ensures Pad(n, w)[..w - k] == Pad(DropDigits(n, k), w - k)
  {
    if k > 0 {
      PadStep(n, w - 1);
      PadDropLow(n / 10, w - 1, k - 1);
    }
  }

  lemma ModSplit(n: nat, p: nat)
    requires p > 0
    ensures n % (10 * p) / 10 == (n / 10) % p
    ensures n % (10 * p) % 10 == n % 10
  {
    var q := n / 10;
    var d := n % 10;
    var hi := q / p;
    var lo := q % p;
    assert n == hi * (10 * p) + (lo * 10 + d);
    assert lo * 10 + d < 10 * p;
    DivModUnique(n, 10 * p, hi, lo * 10 + d);
    DivModUnique(lo * 10 + d, 10, lo, d);
  }
}

=== FILE: imagewalk.dfy ===
/** Deterministic plane traversal of OMERO images and filesets: every plane of
    a scene, Z outermost, then C, then T innermost, scene after scene. */
module ImageWalk {
  import opened Wrappers
  import opened ByteSeqs
  import opened Arrays
  import Digits

  /** A two-dimensional pixel plane with its position. */
  datatype Plane = Plane(xy: NdArray, scene: nat, z: nat, c: nat, t: nat)

  /** What the walk reads of one OMERO image: its dimensions, the name of its
      pixel type, and `RawPixelsStore.getPlane(z, c, t)`, which may raise. */
  datatype PixelsImage = PixelsImage(
    sizeZ: nat, sizeC: nat, sizeT: nat, sizeY: nat, sizeX: nat,
    pixelsType: string,
    getPlane: (nat, nat, nat) -> Result<Bytes>)

  // ---------------------------------------------------------------------
  // Pixel type names

  /** The OMERO name under which each element type is known. */
  function PixelTypeName(k: ElemKind): string {
    match k
    case U8 => "uint8"
    case U16 => "uint16"
    case U32 => "uint32"
    case I8 => "int8"
    case I16 => "int16"
    case I32 => "int32"
    case F32 => "float"
    case F64 => "double"
  }

  const KnownPixelTypes: seq<string> :=
    ["uint8", "uint16", "uint32", "int8", "int16", "int32", "float", "double"]

  /** The element type a pixel type name selects; an unknown name falls back
      to unsigned bytes. */
  function PixelKind(name: string): (k: ElemKind)
    ensures forall kind: ElemKind :: name == PixelTypeName(kind) ==> k == kind
    ensures name !in KnownPixelTypes ==> k == U8
    ensures name in KnownPixelTypes ==> PixelTypeName(k) == name
  {
    if name == "uint8" then U8
    else if name == "uint16" then U16
    else if name == "uint32" then U32
    else if name == "int8" then I8
    else if name == "int16" then I16
    else if name == "int32" then I32
    else if name == "float" then F32
    else if name == "double" then F64
    else U8
  }

  // ---------------------------------------------------------------------
  // Traversal order

  datatype Coord = Coord(z: nat, c: nat, t: nat)

  predicate InRange(co: Coord, sz: nat, sc: nat, st: nat) {
    co.z < sz && co.c < sc && co.t < st
  }

  /** Lexicographic order on (z, c, t). */
  predicate LexLess(a: Coord, b: Coord) {
    a.z < b.z || (a.z == b.z && (a.c < b.c || (a.c == b.c && a.t < b.t)))
  }

  /** Position of a coordinate in the nested Z, C, T loops. */
  function Index(co: Coord, sc: nat, st: nat): nat {
    (co.z * sc + co.c) * st + co.t
  }

  /** The coordinate visited at step `i` of the nested loops. */
  function Decode(i: nat, sc: nat, st: nat): Coord
    requires sc > 0 && st > 0
  {
    Coord(i / st / sc, (i / st) % sc, i % st)
  }

  /** Every coordinate the nested loops `for z, for c, for t` visit, in the
      order they visit them. */
  function Coords(sz: nat, sc: nat, st: nat): (r: seq<Coord>)
    ensures |r| == sz * sc * st
    ensures forall i :: 0 <= i < |r| ==> InRange(r[i], sz, sc, st) && Index(r[i], sc, st) == i
  {
    if sc == 0 || st == 0 then []
    else
      var r := seq(sz * sc * st, i requires 0 <= i < sz * sc * st => Decode(i, sc, st));
      forall i | 0 <= i < |r|
        ensures InRange(r[i], sz, sc, st) && Index(r[i], sc, st) == i
      {
        DecodeIndex(i, sz, sc, st);
      }
      r
  }

  lemma DecodeIndex(i: nat, sz: nat, sc: nat, st: nat)
    requires sc > 0 && st > 0 && i < sz * sc * st
    ensures InRange(Decode(i, sc, st), sz, sc, st)
    ensures Index(Decode(i, sc, st), sc, st) == i
  {
    var q := i / st;
    var co := Decode(i, sc, st);
    assert q == co.z * sc + co.c;
    assert i == q * st + co.t;
    assert q < sz * sc by {
      if q >= sz * sc {
        MulLe(sz * sc, q, st);
        assert false;
      }
    }
    assert co.z < sz by {
      if co.z >= sz {
        MulLe(sz, co.z, sc);
        assert false;
      }
    }
  }

  lemma IndexBelow(co: Coord, sc: nat, st: nat)
    requires co.c < sc && co.t < st
    ensures Index(co, sc, st) < (co.z * sc + co.c + 1) * st
    ensures (co.z * sc + co.c + 1) * st <= (co.z + 1) * sc * st
  {
    MulLe(co.z * sc + co.c + 1, (co.z + 1) * sc, st);
  }

  /** The loop position respects the lexicographic order of coordinates. */
  lemma IndexMonotone(a: Coord, b: Coord, sz: nat, sc: nat, st: nat)
    requires InRange(a, sz, sc, st) && InRange(b, sz, sc, st)
    requires LexLess(a, b)
    ensures Index(a, sc, st) < Index(b, sc, st)
  {
    if a.z < b.z {
      IndexMonotoneZ(a, b, sc, st);
    } else if a.c < b.c {
      IndexMonotoneC(a, b, sc, st);
    }
  }

  lemma IndexMonotoneZ(a: Coord, b: Coord, sc: nat, st: nat)
    requires a.c < sc && a.t < st && a.z < b.z
    ensures Index(a, sc, st) < Index(b, sc, st)
  {
    IndexBelow(a, sc, st);
    MulLe(a.z + 1, b.z, sc);
    MulLe((a.z + 1) * sc, b.z * sc, st);
    assert (a.z + 1) * sc * st == ((a.z + 1) * sc) * st;
    assert b.z * sc * st <= (b.z * sc + b.c) * st by {
      MulLe(b.z * sc, b.z * sc + b.c, st);
    }
  }

  lemma IndexMonotoneC(a: Coord, b: Coord, sc: nat, st: nat)
    requires a.t < st && a.z == b.z && a.c < b.c
    ensures Index(a, sc, st) < Index(b, sc, st)
  {
    var base := a.z * sc;
    assert Index(a, sc, st) < (base + a.c) * st + st == (base + a.c + 1) * st;
    MulLe(base + a.c + 1, base + b.c, st);
  }

  /** Planes are visited in strictly increasing lexicographic (z, c, t) order;
      in particular no coordinate is visited twice. */
  lemma CoordsSorted(sz: nat, sc: nat, st: nat, i: nat, j: nat)
    requires i < j < sz * sc * st
    ensures LexLess(Coords(sz, sc, st)[i], Coords(sz, sc, st)[j])
  {
    var r := Coords(sz, sc, st);
    var a, b := r[i], r[j];
    if !LexLess(a, b) {
      if a == b {
        assert false;
      } else {
        assert LexLess(b, a);
        IndexMonotone(b, a, sz, sc, st);
        assert false;
      }
    }
  }

  /** Every in-range coordinate is visited, at its loop position. */
  lemma CoordsComplete(sz: nat, sc: nat, st: nat, co: Coord)
    requires InRange(co, sz, sc, st)
    ensures Index(co, sc, st) < sz * sc * st
    ensures Coords(sz, sc, st)[Index(co, sc, st)] == co
  {
    var k := Index(co, sc, st);
    var n := sz * sc * st;
    IndexBelow(co, sc, st);
    MulLe(co.z + 1, sz, sc);
    MulLe((co.z + 1) * sc, sz * sc, st);
    var other := Coords(sz, sc, st)[k];
    if other != co {
      if LexLess(other, co) {
        IndexMonotone(other, co, sz, sc, st);
      } else {
        IndexMonotone(co, other, sz, sc, st);
      }
      assert false;
    }
  }

  // ---------------------------------------------------------------------
  // Reading planes

  /** `np.frombuffer(raw, dtype).reshape(size_y, size_x)`. */
  function ReadPlane(raw: Bytes, dt: DType, sizeY: nat, sizeX: nat): (r: Result<NdArray>)
    ensures r.Success? <==> |raw| == sizeY * sizeX * dt.kind.Width()
    ensures r.Failure? ==> r.error == ValueError
    ensures r.Success? ==> Valid(r.value) && r.value.shape == [sizeY, sizeX]
    ensures r.Success? ==> r.value.dtype == dt && Join(r.value.data) == raw
  {
    var w := dt.kind.Width();
    match FromBuffer(raw, dt)
    case Failure(e) =>
      assert |raw| != sizeY * sizeX * w by {
        if |raw| == sizeY * sizeX * w {
          Digits.DivModUnique(|raw|, w, sizeY * sizeX, 0);
        }
      }
      Failure(e)
    case Success(flat) =>
      JoinFixedWidthLength(flat.data, w);
      assert |raw| == |flat.data| * w;
      assert |flat.data| == sizeY * sizeX <==> |raw| == sizeY * sizeX * w by {
        if |raw| == sizeY * sizeX * w {
          Digits.DivModUnique(|raw|, w, sizeY * sizeX, 0);
          Digits.DivModUnique(|raw|, w, |flat.data|, 0);
        }
      }
      Reshape(flat, sizeY, sizeX)
  }

  /** The planes of `img` at the given coordinates, in order, all tagged with
      `scene`; the first plane that cannot be read ends the walk with its
      error. */
  function PlanesAt(img: PixelsImage, scene: nat, dt: DType, coords: seq<Coord>): (r: Result<seq<Plane>>)
    ensures r.Success? ==> |r.value| == |coords|
    ensures r.Success? ==> forall k :: 0 <= k < |coords| ==>
      && r.value[k].scene == scene
      && r.value[k].z == coords[k].z && r.value[k].c == coords[k].c && r.value[k].t == coords[k].t
      && img.getPlane(coords[k].z, coords[k].c, coords[k].t).Success?
      && ReadPlane(img.getPlane(coords[k].z, coords[k].c, coords[k].t).value, dt, img.sizeY, img.sizeX)
         == Success(r.value[k].xy)
    ensures r.Failure? <==> exists k :: 0 <= k < |coords| && PlaneFails(img, dt, coords[k])
    decreases |coords|
  {
    if |coords| == 0 then Success([])
    else
      var last := coords[|coords| - 1];
      match PlanesAt(img, scene, dt, coords[..|coords| - 1])
      case Failure(e) => Failure(e)
      case Success(prev) =>
        match img.getPlane(last.z, last.c, last.t)
        case Failure(e) => Failure(e)
        case Success(raw) =>
          match ReadPlane(raw, dt, img.sizeY, img.sizeX)
          case Failure(e) => Failure(e)
          case Success(xy) => Success(prev + [Plane(xy, scene, last.z, last.c, last.t)])
  }

  /** Reading the plane at `co` raises: the store fails or the byte count does
      not fit the image's Y x X plane. */
  predicate PlaneFails(img: PixelsImage, dt: DType, co: Coord) {
    match img.getPlane(co.z, co.c, co.t)
    case Failure(_) => true
    case Success(raw) => ReadPlane(raw, dt, img.sizeY, img.sizeX).Failure?
  }

  /** The walk over one image, reading raw planes with element order `order`. */
  function Walk(img: PixelsImage, scene: nat, order: ByteOrder): (r: Result<seq<Plane>>)
    ensures r.Success? ==> |r.value| == img.sizeZ * img.sizeC * img.sizeT
    ensures r.Success? ==> forall k :: 0 <= k < |r.value| ==>
      && r.value[k].scene == scene
      && Coord(r.value[k].z, r.value[k].c, r.value[k].t) == Coords(img.sizeZ, img.sizeC, img.sizeT)[k]
      && Valid(r.value[k].xy) && r.value[k].xy.shape == [img.sizeY, img.sizeX]
      && r.value[k].xy.dtype == DType(PixelKind(img.pixelsType), order)
  {
    PlanesAt(img, scene, DType(PixelKind(img.pixelsType), order),
      Coords(img.sizeZ, img.sizeC, img.sizeT))
  }

  /** `iter_planes_blitz_image` as written: the raw plane bytes are read with
      the host's native element order. */
  function IterPlanesImageAsWritten(img: PixelsImage, scene: nat): (r: Result<seq<Plane>>)
    ensures r.Success? ==> forall k :: 0 <= k < |r.value| ==> r.value[k].xy.dtype.order == Native
  {
    Walk(img, scene, Native)
  }

  /** `iter_planes_blitz_image` with the raw plane bytes read as big-endian,
      the order OMERO's pixel store delivers them in. */
  function IterPlanesImage(img: PixelsImage, scene: nat): (r: Result<seq<Plane>>)
    ensures r.Success? ==> forall k :: 0 <= k < |r.value| ==> r.value[k].xy.dtype.order == Big
    ensures r.Success? ==> |r.value| == img.sizeZ * img.sizeC * img.sizeT
    ensures r.Success? ==> forall k :: 0 <= k < |r.value| ==>
      r.value[k].scene == scene
      && Coord(r.value[k].z, r.value[k].c, r.value[k].t) == Coords(img.sizeZ, img.sizeC, img.sizeT)[k]
  {
    Walk(img, scene, Big)
  }

  /** `p` holds of every element together with its position. */
  predicate EveryIndexed<T>(xs: seq<T>, p: (T, nat) -> bool) {
    forall k :: 0 <= k < |xs| ==> p(xs[k], k)
  }

  lemma EveryIndexedSnoc<T>(xs: seq<T>, p: (T, nat) -> bool)
    requires |xs| > 0
    ensures EveryIndexed(xs, p) <==> EveryIndexed(xs[..|xs| - 1], p) && p(xs[|xs| - 1], |xs| - 1)
  {
    var n := |xs| - 1;
    assert forall k :: 0 <= k < n ==> xs[..n][k] == xs[k];
  }

  /** Only plane sizes and the store can make a read fail, so whether a walk
      fails, and with which error, does not depend on the byte order it reads
      the planes in. */
  lemma WalkFailsAlikeInAnyOrder(img: PixelsImage, scene: nat, o1: ByteOrder, o2: ByteOrder)
    ensures Walk(img, scene, o1).Failure? <==> Walk(img, scene, o2).Failure?
    ensures Walk(img, scene, o1).Failure? ==> Walk(img, scene, o1).error == Walk(img, scene, o2).error
  {
    var kind := PixelKind(img.pixelsType);
    PlanesAtFailAlike(img, scene, kind, o1, o2, Coords(img.sizeZ, img.sizeC, img.sizeT));
  }

  lemma {:induction false} PlanesAtFailAlike(img: PixelsImage, scene: nat, kind: ElemKind, o1: ByteOrder, o2: ByteOrder, coords: seq<Coord>)
    ensures PlanesAt(img, scene, DType(kind, o1), coords).Failure?
        <==> PlanesAt(img, scene, DType(kind, o2), coords).Failure?
    ensures PlanesAt(img, scene, DType(kind, o1), coords).Failure?
        ==> PlanesAt(img, scene, DType(kind, o1), coords).error
            == PlanesAt(img, scene, DType(kind, o2), coords).error
    decreases |coords|
  {
    if |coords| > 0 {
      var last := coords[|coords| - 1];
      PlanesAtFailAlike(img, scene, kind, o1, o2, coords[..|coords| - 1]);
      match img.getPlane(last.z, last.c, last.t)
      case Failure(_) =>
      case Success(raw) =>
        var r1 := ReadPlane(raw, DType(kind, o1), img.sizeY, img.sizeX);
        var r2 := ReadPlane(raw, DType(kind, o2), img.sizeY, img.sizeX);
        assert r1.Failure? <==> r2.Failure?;
    }
  }

  /** The number of planes the walk of one image yields. */
  function PlaneCount(img: PixelsImage): nat {
    img.sizeZ * img.sizeC * img.sizeT
  }

  /** The number of planes the walks of `images` yield together. */
  function PlaneTotal(images: seq<PixelsImage>): nat
    decreases |images|
  {
    if |images| == 0 then 0
    else PlaneTotal(images[..|images| - 1]) + PlaneCount(images[|images| - 1])
  }

  /** A way of walking one image as a given scene. */
  type Walker = (PixelsImage, nat) -> Result<seq<Plane>>

  /** Walking with planes read in `order`. */
  function WalkIn(order: ByteOrder): Walker {
    (img: PixelsImage, scene: nat) => Walk(img, scene, order)
  }

  /** The image can be walked as scene `scene` reading planes in `order`. */
  function WalksIn(order: ByteOrder): (PixelsImage, nat) -> bool {
    (img: PixelsImage, scene: nat) => Walk(img, scene, order).Success?
  }

  /** From position `start` on, `planes` holds the successful walk `w`. */
  predicate SliceIs(planes: seq<Plane>, start: nat, w: Result<seq<Plane>>) {
    && w.Success?
    && start + |w.value| <= |planes|
    && planes[start .. start + |w.value|] == w.value
  }

  /** `planes` is the walks of the images one after another, in fileset
      order, image `k` as scene `k`, each taking its own plane count. */
  predicate SceneSlices(images: seq<PixelsImage>, walk: Walker, planes: seq<Plane>) {
    && |planes| == PlaneTotal(images)
    && forall k :: 0 <= k < |images| ==> SliceIs(planes, PlaneTotal(images[..k]), walk(images[k], k))
  }

  lemma SliceExtends(planes: seq<Plane>, extra: seq<Plane>, start: nat, w: Result<seq<Plane>>)
    requires SliceIs(planes, start, w)
    ensures SliceIs(planes + extra, start, w)
  {
    var end := start + |w.value|;
    assert (planes + extra)[start .. end] == planes[start .. end];
  }

  lemma SceneSlicesSnoc(images: seq<PixelsImage>, walk: Walker, prev: seq<Plane>, planes: seq<Plane>)
    requires |images| > 0
    requires SceneSlices(images[..|images| - 1], walk, prev)
    requires walk(images[|images| - 1], |images| - 1) == Success(planes)
    requires |planes| == PlaneCount(images[|images| - 1])
    ensures SceneSlices(images, walk, prev + planes)
  {
    var n := |images| - 1;
    forall k | 0 <= k < |images|
      ensures SliceIs(prev + planes, PlaneTotal(images[..k]), walk(images[k], k))
    {
      if k < n {
        assert images[..n][..k] == images[..k] && images[..n][k] == images[k];
        SliceExtends(prev, planes, PlaneTotal(images[..k]), walk(images[k], k));
      } else {
        assert images[..k] == images[..n];
        assert (prev + planes)[|prev| .. |prev| + |planes|] == planes;
      }
    }
  }

  /** Each image of the fileset can be walked as the scene numbered by its
      position. */
  predicate AllWalkable(images: seq<PixelsImage>, order: ByteOrder) {
    EveryIndexed(images, WalksIn(order))
  }

  /** `iter_planes_blitz_fileset`: the images of a fileset walked one after
      another, each as the scene numbered by its position, reading planes in
      `order` (`Native` as written, `Big` corrected). The first image that
      cannot be walked ends the walk with its error. */
  function WalkFileset(images: seq<PixelsImage>, order: ByteOrder): (r: Result<seq<Plane>>)
    ensures r.Success? <==> AllWalkable(images, order)
    ensures r.Success? ==> SceneSlices(images, WalkIn(order), r.value)
    ensures r.Success? ==> ScenesBelow(r.value, |images|) && ScenesOrdered(r.value)
    decreases |images|
  {
    if |images| == 0 then Success([])
    else
      var n := |images| - 1;
      EveryIndexedSnoc(images, WalksIn(order));
      match WalkFileset(images[..n], order)
      case Failure(e) => Failure(e)
      case Success(prev) =>
        match Walk(images[n], n, order)
        case Failure(e) => Failure(e)
        case Success(planes) =>
          SceneSlicesSnoc(images, WalkIn(order), prev, planes);
          AppendScene(prev, planes, n);
          Success(prev + planes)
  }

  /** A fileset of one image yields exactly that image's walk as scene 0. */
  lemma SingleImageFileset(img: PixelsImage, order: ByteOrder)
    ensures WalkFileset([img], order) == Walk(img, 0, order)
  {
    var r := WalkFileset([img], order);
    assert [img][..0] == [];
    assert AllWalkable([img], order) <==> WalksIn(order)([img][0], 0);
    if r.Success? {
      assert PlaneTotal([img]) == PlaneCount(img);
      assert SliceIs(r.value, PlaneTotal([img][..0]), WalkIn(order)([img][0], 0));
      assert r.value[0 .. PlaneCount(img)] == r.value;
    }
  }

  predicate ScenesBelow(planes: seq<Plane>, n: nat) {
    forall i :: 0 <= i < |planes| ==> planes[i].scene < n
  }

  /** Every plane of a scene precedes every plane of a later scene. */
  predicate ScenesOrdered(planes: seq<Plane>) {
    forall i, j :: 0 <= i <= j < |planes| ==> planes[i].scene <= planes[j].scene
  }

  lemma AppendScene(prev: seq<Plane>, planes: seq<Plane>, n: nat)
    requires ScenesBelow(prev, n) && ScenesOrdered(prev)
    requires forall k :: 0 <= k < |planes| ==> planes[k].scene == n
    ensures ScenesBelow(prev + planes, n + 1) && ScenesOrdered(prev + planes)
  {
    var all := prev + planes;
    forall i, j | 0 <= i <= j < |all|
      ensures all[i].scene <= all[j].scene
    {
      if j < |prev| {
        assert all[i] == prev[i] && all[j] == prev[j];
      } else if i >= |prev| {
        assert all[i] == planes[i - |prev|] && all[j] == planes[j - |prev|];
      } else {
        assert all[i] == prev[i] && all[j] == planes[j - |prev|];
      }
    }
  }
}

=== FILE: iscc_sum.dfy ===
/** The ISCC-SUM hashing library, seen from outside: a streaming processor
    fed ordered byte chunks, whose result is some function of those chunks. */
module IsccSum {
  import opened ByteSeqs

  /** What `IsccSumProcessor.result(wide=True, add_units=...)` reports. */
  datatype SumResult = SumResult(iscc: string, datahash: string, units: seq<string>)

  /** The library's result as a function of the chunks fed, in order, and of
      the `add_units` flag. Nothing else about it is modelled. */
  type Digest = (seq<Bytes>, bool) -> SumResult

  /** A processor in the middle of a stream: the chunks it has been fed. */
  datatype Processor = Processor(fed: seq<Bytes>)

  const Fresh := Processor([])

  function Update(p: Processor, chunk: Bytes): (r: Processor)
    ensures r.fed == p.fed + [chunk]
  {
    Processor(p.fed + [chunk])
  }

  function Finish(p: Processor, digest: Digest, addUnits: bool): SumResult {
    digest(p.fed, addUnits)
  }

  /** A fresh processor updated with each chunk in turn. */
  function FeedAll(chunks: seq<Bytes>): Processor
    decreases |chunks|
  {
    if |chunks| == 0 then Fresh else Update(FeedAll(chunks[..|chunks| - 1]), chunks[|chunks| - 1])
  }

  /** Feeding chunk by chunk hands the library exactly the chunk sequence, in
      order: the result depends on nothing else. */
  lemma {:induction false} FeedAllKeepsOrder(chunks: seq<Bytes>)
    ensures FeedAll(chunks).fed == chunks
  {
    if |chunks| > 0 {
      FeedAllKeepsOrder(chunks[..|chunks| - 1]);
    }
  }

  /** `units[:-1]`: every unit except the last, nothing for an empty list. */
  function DropLast(units: seq<string>): (r: seq<string>)
    ensures |units| == 0 ==> r == []
    ensures |units| > 0 ==> |r| == |units| - 1 && units == r + [units[|units| - 1]]
  {
    if |units| == 0 then [] else units[..|units| - 1]
  }
}

=== FILE: json.dfy ===
/** JSON values as Python's `json` module produces them, with the two ways of
    reading a dict that the source uses: `d.get(k, default)` and `d[k]`. */
module Json {
  import opened Wrappers

  datatype Json =
    | JNull
    | JBool(b: bool)
    | JInt(i: int)
    | JStr(s: string)
    | JList(items: seq<Json>)
    | JObj(fields: map<string, Json>)

  /** Python truthiness of the decoded value. */
  predicate Truthy(j: Json) {
    match j
    case JNull => false
    case JBool(b) => b
    case JInt(i) => i != 0
    case JStr(s) => |s| > 0
    case JList(items) => |items| > 0
    case JObj(fields) => |fields| > 0
  }

  /** `j.get(key, default)`: only dicts have `get`. */
  function Get(j: Json, key: string, default: Json): (r: Result<Json>)
    ensures r.Failure? <==> !j.JObj?
    ensures r.Failure? ==> r.error == AttributeError
    ensures j.JObj? && key in j.fields ==> r == Success(j.fields[key])
    ensures j.JObj? && key !in j.fields ==> r == Success(default)
  {
    match j
    case JObj(fields) => Success(if key in fields then fields[key] else default)
    case _ => Failure(AttributeError)
  }

  /** `j[key]` with a string key: a dict without the key raises `KeyError`,
      anything that is not a dict raises `TypeError`. */
  function Index(j: Json, key: string): (r: Result<Json>)
    ensures r.Success? <==> j.JObj? && key in j.fields
    ensures r.Success? ==> r.value == j.fields[key]
    ensures r.Failure? ==> (r.error == KeyError <==> j.JObj?)
    ensures r.Failure? ==> r.error == KeyError || r.error == TypeError
  {
    match j
    case JObj(fields) => if key in fields then Success(fields[key]) else Failure(KeyError)
    case _ => Failure(TypeError)
  }

  /** `j[k1][k2]...[kn]`, failing at the first step that fails. */
  function Path(j: Json, keys: seq<string>): (r: Result<Json>)
    decreases |keys|
  {
    if |keys| == 0 then Success(j)
    else
      match Index(j, keys[0])
      case Failure(e) => Failure(e)
      case Success(child) => Path(child, keys[1..])
  }

  /** A dict literal with one entry, `{key: value}`. */
  function Single(key: string, value: Json): (r: Json)
    ensures r.JObj? && r.fields.Keys == {key} && r.fields[key] == value
  {
    JObj(map[key := value])
  }
}

=== FILE: manager.dfy ===
/** `IsccServiceManager`: connecting with retries, wiring the processor
    and the monitor together, the per-image callback, stopping, and the
    status report. */
module Manager {
  import opened Wrappers
  import opened Json
  import opened Omero
  import opened IsccSum
  import Clock
  import Config
  import Processor
  import Monitor
  import Retry

  /** A `BlitzGateway` and whether its `connect()` succeeded. */
  datatype Conn = Conn(connected: bool)

  datatype Manager = Manager(
    config: Config.ServiceConfig,
    conn: Option<Conn>,
    monitor: Option<Monitor.Monitor>,
    processor: Option<Processor.ImageProcessor>,
    running: bool)

  /** `IsccServiceManager(config)`: nothing connected or created yet. */
  function NewManager(config: Config.ServiceConfig): (m: Manager)
    ensures m.config == config && !m.running
    ensures m.conn.None? && m.monitor.None? && m.processor.None?
  {
    Manager(config, None, None, None, false)
  }

  /** `disconnect()`: the gateway is dropped even when closing it raises. */
  function Disconnect(m: Manager): (r: Manager)
    ensures r.conn == None
    ensures r.(conn := m.conn) == m
  {
    m.(conn := None)
  }

  /** `initialize_components()`: `RuntimeError` without a gateway;
      otherwise a processor and a monitor built from the config. */
  function InitializeComponents(m: Manager): (r: Result<Manager>)
    ensures r.Failure? <==> m.conn.None?
    ensures r.Failure? ==> r.error == RuntimeError
    ensures r.Success? ==>
      && r.value.processor == Some(Processor.ImageProcessor(m.config.namespace, m.config.chunkSize))
      && r.value.monitor == Some(Monitor.NewMonitor(m.config.pollInterval, m.config.batchSize, m.config.namespace))
      && r.value.(processor := m.processor, monitor := m.monitor) == m
  {
    if m.conn.None? then Failure(RuntimeError)
    else
      Success(m.(
        processor := Some(Processor.ImageProcessor(m.config.namespace, m.config.chunkSize)),
        monitor := Some(Monitor.NewMonitor(m.config.pollInterval, m.config.batchSize, m.config.namespace))))
  }

  /** The processor and the monitor look in the same namespace, so an image
      the processor annotated is one the monitor skips from then on. */
  lemma ComponentsShareNamespace(m: Manager, image: Image)
    requires InitializeComponents(m).Success?
    ensures var r := InitializeComponents(m).value;
      && r.processor.value.namespace == r.monitor.value.namespace == m.config.namespace
      && (Monitor.HasIsccAnnotation(r.monitor.value.namespace, image)
          <==> Processor.GetIsccForImage(r.processor.value, image).Some?)
  {
    Monitor.HasIsccAgreesWithStoredCode(InitializeComponents(m).value.processor.value, image);
  }

  // ---------------------------------------------------------------------
  // process_image_callback

  /** The webhook request: `webhook_url` and the payload's identifying
      fields. */
  datatype Webhook = Webhook(url: string, imageId: int, imageName: string, code: string)

  datatype CallbackOutcome =
    | NoProcessor
    | AlreadyHasIscc
    | NoCode
    | Hangs
    | Coded(code: string, stored: Annotation, webhook: Option<Webhook>)

  /** `if self.config.webhook_url:` */
  predicate WebhookConfigured(c: Config.ServiceConfig) {
    c.webhookUrl.Some? && |c.webhookUrl.value| > 0
  }

  /** `process_image_callback(image)` with the clock reading the annotation
      is stamped with. */
  function Callback(m: Manager, image: Image, digest: Digest, now: Clock.DateTime): (r: CallbackOutcome)
    ensures r == NoProcessor <==> m.processor.None?
    ensures r == AlreadyHasIscc <==>
      m.processor.Some? && Monitor.HasIsccAnnotation(m.processor.value.namespace, image)
    ensures r.Coded? ==>
      && m.processor.Some?
      && Processor.ProcessImage(m.processor.value, image, digest, now)
         == Processor.Ends.Returns(Processor.Processed(Some(r.code), Some(r.stored)))
    ensures r == NoCode <==>
      && m.processor.Some? && !Monitor.HasIsccAnnotation(m.processor.value.namespace, image)
      && Processor.ProcessImage(m.processor.value, image, digest, now).Returns?
      && Processor.ProcessImage(m.processor.value, image, digest, now).value.code.None?
    ensures r == Hangs <==>
      && m.processor.Some? && !Monitor.HasIsccAnnotation(m.processor.value.namespace, image)
      && Processor.ProcessImage(m.processor.value, image, digest, now).Diverges?
    ensures r.Coded? ==> |r.code| > 0
    ensures r.Coded? ==> (r.webhook.Some? <==> WebhookConfigured(m.config))
    ensures r.Coded? && r.webhook.Some? ==>
      r.webhook.value == Webhook(m.config.webhookUrl.value, image.id, image.name, r.code)
  {
    match m.processor
    case None => NoProcessor
    case Some(p) =>
      Monitor.HasIsccAgreesWithStoredCode(p, image);
      if Processor.GetIsccForImage(p, image).Some? then AlreadyHasIscc
      else
        match Processor.ProcessImage(p, image, digest, now)
        case Diverges => Hangs
        case Returns(done) =>
          if done.code.None? then NoCode
          else
            var hook := if WebhookConfigured(m.config)
              then Some(Webhook(m.config.webhookUrl.value, image.id, image.name, done.code.value))
              else None;
            Coded(done.code.value, done.stored.value, hook)
  }

  /** No webhook goes out for an image that was not freshly coded. */
  lemma WebhookOnlyForNewCodes(m: Manager, image: Image, digest: Digest, now: Clock.DateTime)
    requires m.processor.Some? && Monitor.HasIsccAnnotation(m.processor.value.namespace, image)
    ensures Callback(m, image, digest, now) == AlreadyHasIscc
  {
  }

  // ---------------------------------------------------------------------
  // run / stop / status

  /** `stop()`: clears the flag, stops the monitor if there is one, and
      disconnects. */
  function Stop(m: Manager): (r: Manager)
    ensures !r.running && r.conn.None?
    ensures r.monitor.Some? <==> m.monitor.Some?
    ensures r.monitor.Some? ==> r.monitor.value == Monitor.Stop(m.monitor.value)
    ensures r.config == m.config && r.processor == m.processor
  {
    var stopped := if m.monitor.Some? then Some(Monitor.Stop(m.monitor.value)) else None;
    Disconnect(m.(running := false, monitor := stopped))
  }

  /** The manager once `connect()` has succeeded and the components exist. */
  function Ready(m: Manager): (r: Manager)
    ensures InitializeComponents(m.(running := true, conn := Some(Conn(true)))) == Success(r)
    ensures r.running && r.conn == Some(Conn(true)) && r.monitor.Some? && r.processor.Some?
  {
    InitializeComponents(m.(running := true, conn := Some(Conn(true)))).value
  }

  /** The last callback of a poll never returned. */
  predicate Blocks(cbs: seq<CallbackOutcome>) {
    |cbs| > 0 && cbs[|cbs| - 1] == Hangs
  }

  /** The outcomes up to and including the first `Hangs`: a callback that
      never returns blocks the poll, so no later image is handed on. */
  function UpToHang(outs: seq<CallbackOutcome>): (r: seq<CallbackOutcome>)
    ensures |r| <= |outs| && r == outs[..|r|]
    ensures forall j :: 0 <= j < |r| - 1 ==> r[j] != Hangs
    ensures |r| < |outs| ==> Blocks(r)
    decreases |outs|
  {
    if |outs| == 0 then []
    else if outs[0] == Hangs then [outs[0]]
    else
      var rest := UpToHang(outs[1..]);
      assert forall j :: 0 < j < |rest| + 1 ==> ([outs[0]] + rest)[j] == rest[j - 1];
      [outs[0]] + rest
  }

  /** The callbacks `poll_once` makes for the images it hands on, the
      `j`-th stamped `stamp(j)`, in order; the poll stops at the first one
      that never returns. */
  function Callbacks(m: Manager, images: seq<Image>, digest: Digest, stamp: nat -> Clock.DateTime): (r: seq<CallbackOutcome>)
    ensures |r| <= |images|
    ensures forall j :: 0 <= j < |r| ==> r[j] == Callback(m, images[j], digest, stamp(j))
    ensures forall j :: 0 <= j < |r| - 1 ==> r[j] != Hangs
    ensures |r| < |images| ==> Blocks(r)
  {
    UpToHang(AllCallbacks(m, images, digest, stamp))
  }

  /** What the callback would answer for every image handed on, were none
      of them to block. */
  function AllCallbacks(m: Manager, images: seq<Image>, digest: Digest, stamp: nat -> Clock.DateTime): (r: seq<CallbackOutcome>)
    ensures |r| == |images|
    ensures forall j :: 0 <= j < |r| ==> r[j] == Callback(m, images[j], digest, stamp(j))
  {
    seq(|images|, j requires 0 <= j < |images| => Callback(m, images[j], digest, stamp(j)))
  }

  /** The first poll from `i` on whose callbacks block, or `|cbs|` when
      none does. */
  function FirstBlocking(cbs: seq<seq<CallbackOutcome>>, i: nat): (k: nat)
    requires i <= |cbs|
    ensures i <= k <= |cbs|
    ensures forall j :: i <= j < k ==> !Blocks(cbs[j])
    ensures k < |cbs| ==> Blocks(cbs[k])
    decreases |cbs| - i
  {
    if i == |cbs| || Blocks(cbs[i]) then i
    else FirstBlocking(cbs, i + 1)
  }

  /** What handles the images of poll `i`: the callbacks made on them. */
  type Handler = (nat, seq<Image>) -> seq<CallbackOutcome>

  /** `process_image_callback` as the monitor's handler, the `j`-th
      callback of poll `i` stamped `clock(i)(j)`. */
  function HandlerOf(m: Manager, digest: Digest, clock: nat -> nat -> Clock.DateTime): Handler {
    (i: nat, images: seq<Image>) => Callbacks(m, images, digest, clock(i))
  }

  /** `cbs` holds, for each poll it reaches, what `handle` makes of that
      poll's images. */
  predicate CallbacksOfPolls(handle: Handler, polls: seq<Monitor.PollResult>, cbs: seq<seq<CallbackOutcome>>) {
    && |cbs| <= |polls|
    && forall i :: 0 <= i < |cbs| ==> cbs[i] == handle(i, polls[i].dispatched)
  }

  /** The callbacks of the first `n` polls. */
  function PollCallbacks(handle: Handler, polls: seq<Monitor.PollResult>, n: nat): (cbs: seq<seq<CallbackOutcome>>)
    requires n <= |polls|
    ensures |cbs| == n && CallbacksOfPolls(handle, polls, cbs)
  {
    seq(n, i requires 0 <= i < n => handle(i, polls[i].dispatched))
  }

  /** The callbacks of the polls up to any point are a prefix of the
      callbacks of all of them. */
  lemma PrefixOfPolls(handle: Handler, polls: seq<Monitor.PollResult>, cbs: seq<seq<CallbackOutcome>>, n: nat)
    requires CallbacksOfPolls(handle, polls, cbs) && n <= |cbs|
    ensures CallbacksOfPolls(handle, polls, cbs[..n])
    ensures forall i :: 0 <= i < n ==> cbs[..n][i] == cbs[i]
  {
  }

  /** None of the first `n` polls' callbacks blocks. */
  predicate NoneBlocks(cbs: seq<seq<CallbackOutcome>>, n: nat) {
    forall i :: 0 <= i < n && i < |cbs| ==> !Blocks(cbs[i])
  }

  /** How the monitor's run inside `run()` ended, as far as the events
      reach. */
  datatype RunEnd =
    | Stopped        // a stop request ended the loop, then `stop()` ran
    | StillRunning   // the events ran out with the loop still polling
    | Blocked        // a callback never returned, so `stop()` is never reached

  /** The monitor's run: the polls that completed, the callbacks of every
      poll reached, and how the run ended. */
  datatype Session = Session(polls: seq<Monitor.PollResult>, callbacks: seq<seq<CallbackOutcome>>, end: RunEnd)

  /** The polls the monitor loop makes once `run()` has connected. */
  function SessionPolls(m: Manager, events: seq<Monitor.Event>, rec: Monitor.Recording): seq<Monitor.PollResult> {
    Monitor.Run(Ready(m).monitor.value, events, rec).polls
  }

  /** The monitor's run once `run()` has connected: the polls up to the
      first one whose callbacks block, with their callbacks. Only a stop
      request the loop reaches ends it. */
  function SessionOf(m: Manager, events: seq<Monitor.Event>, digest: Digest, clock: nat -> nat -> Clock.DateTime, rec: Monitor.Recording): (s: Session)
    ensures var all := SessionPolls(m, events, rec);
      && |s.polls| <= |all| && s.polls == all[..|s.polls|]
      && |s.callbacks| == (if s.end == Blocked then |s.polls| + 1 else |s.polls|)
      && CallbacksOfPolls(HandlerOf(Ready(m), digest, clock), all, s.callbacks)
      && NoneBlocks(s.callbacks, |s.polls|)
      && (s.end == Blocked ==> Blocks(s.callbacks[|s.polls|]))
      && (s.end == Blocked ==> |s.polls| < |all| && |s.callbacks[|s.polls|]| <= |all[|s.polls|].dispatched|)
      && (s.end != Blocked ==> s.polls == all)
    ensures s.end == Stopped <==> s.end != Blocked && Monitor.TicksBeforeStop(events) < |events|
  {
    var all := SessionPolls(m, events, rec);
    var cbs := PollCallbacks(HandlerOf(Ready(m), digest, clock), all, |all|);
    var k := FirstBlocking(cbs, 0);
    if k < |all| then
      assert all[..k] == all[..|all[..k]|];
      var reached := cbs[..k + 1];
      PrefixOfPolls(HandlerOf(Ready(m), digest, clock), all, cbs, k + 1);
      assert reached[k] == Callbacks(Ready(m), all[k].dispatched, digest, clock(k));
      Session(all[..k], reached, Blocked)
    else
      assert all == all[..|all|];
      if Monitor.TicksBeforeStop(events) < |events| then Session(all, cbs, Stopped)
      else Session(all, cbs, StillRunning)
  }

  /** The monitor of a blocked run `s`: the check time and processed ids
      of the last poll that completed, plus the ids of the images the
      blocked poll handed on before its blocking callback, and nothing of
      the rest of that poll. */
  function BlockedMonitor(m: Manager, events: seq<Monitor.Event>, rec: Monitor.Recording, s: Session): (mon: Monitor.Monitor)
    requires s.end == Blocked && |s.polls| < |SessionPolls(m, events, rec)| && |s.polls| < |s.callbacks|
    requires |s.callbacks[|s.polls|]| <= |SessionPolls(m, events, rec)[|s.polls|].dispatched|
    ensures var all := SessionPolls(m, events, rec);
      var k := |s.polls|;
      var handed := all[k].dispatched[..|s.callbacks[k]|];
      forall x :: x in mon.processed <==>
            (x in (if k == 0 then Ready(m).monitor.value.processed else all[k - 1].monitor.processed)
             || exists j :: 0 <= j < |handed| && handed[j].id == x)
  {
    var all := SessionPolls(m, events, rec);
    var k := |s.polls|;
    var before := if k == 0 then Ready(m).monitor.value.(running := true) else all[k - 1].monitor;
    before.(processed := before.processed + Monitor.IdsOf(all[k].dispatched[..|s.callbacks[k]|]))
  }

  /** The part of `run()` after a successful connect: the components are
      created and the monitor runs with `process_image_callback`. The loop
      returns only at a stop request, and only then does `finally: stop()`
      run; a callback that never returns blocks the loop for good, with the
      ids of the images handed on so far recorded. `rec` says when the
      monitor records its check time. */
  function RunConnected(m: Manager, events: seq<Monitor.Event>, digest: Digest, clock: nat -> nat -> Clock.DateTime, rec: Monitor.Recording): (r: (Manager, Session))
    ensures r.1 == SessionOf(m, events, digest, clock, rec)
    ensures r.1.end == Stopped ==>
      && !r.0.running && r.0.conn.None?
      && r.0.monitor.Some? && !r.0.monitor.value.running
    ensures r.1.end != Stopped ==> r.0.running && r.0.conn == Some(Conn(true)) && r.0.monitor.Some?
    ensures r.1.end == StillRunning ==> r.0.monitor.value.running
    ensures r.1.end == Blocked ==> r.0.monitor == Some(BlockedMonitor(m, events, rec, r.1))
  {
    var ready := Ready(m);
    var run := Monitor.Run(ready.monitor.value, events, rec);
    var s := SessionOf(m, events, digest, clock, rec);
    match s.end
    case Blocked =>
      (ready.(monitor := Some(BlockedMonitor(m, events, rec, s))), s)
    case Stopped =>
      (Stop(ready.(monitor := Some(run.monitor))), s)
    case StillRunning =>
      assert run.monitor.running;
      (ready.(monitor := Some(run.monitor)), s)
  }

  /** What `run()` did: the connection attempts, whether each one ran with
      its error output suppressed, and the monitor's run if it started. */
  datatype RunOutcome = RunOutcome(
    manager: Manager,
    attempts: seq<Retry.Attempt>,
    suppressed: seq<bool>,
    session: Option<Session>)

  /** Which attempts run with their error output suppressed: all but the
      first and the last of the 30. */
  function SuppressFlags(n: nat): (r: seq<bool>)
    ensures |r| == n
    ensures forall i :: 0 <= i < n ==> (r[i] <==> 0 < i < Retry.MaxAttempts - 1)
  {
    seq(n, i requires 0 <= i < n => Retry.Suppressed(i))
  }

  /** `run()`, where `connects(i)` is the result of the `i`-th `connect()`,
      `events` is what the monitor loop meets once it runs, and
      `clock(i)(j)` stamps the `j`-th callback of poll `i`. The monitor
      records its check time after each batch, as `poll_once` does. */
  function Run(m: Manager, connects: nat -> bool, events: seq<Monitor.Event>, digest: Digest, clock: nat -> nat -> Clock.DateTime): (r: RunOutcome)
    ensures 1 <= |r.attempts| <= Retry.MaxAttempts
    ensures |r.suppressed| == |r.attempts|
    ensures forall i :: 0 <= i < |r.suppressed| ==> (r.suppressed[i] <==> 0 < i < Retry.MaxAttempts - 1)
    ensures r.session.Some? <==> Retry.Connected(r.attempts)
    ensures !Retry.Connected(r.attempts) ==>
      && |r.attempts| == Retry.MaxAttempts
      && r.manager == m.(running := true, conn := Some(Conn(false)))
    ensures Retry.Connected(r.attempts) ==>
      var s := r.session.value;
      && (s.end != Blocked ==> |s.polls| == Monitor.TicksBeforeStop(events))
      && (s.end == Stopped <==> s.end != Blocked && Monitor.TicksBeforeStop(events) < |events|)
      && (s.end == Stopped ==> !r.manager.running && r.manager.conn.None?
                               && r.manager.monitor.Some? && !r.manager.monitor.value.running)
      && (s.end != Stopped ==> r.manager.running && r.manager.conn == Some(Conn(true)))
  {
    var trace := Retry.Connect(connects);
    var flags := SuppressFlags(|trace|);
    if !Retry.Connected(trace) then
      RunOutcome(m.(running := true, conn := Some(Conn(false))), trace, flags, None)
    else
      var done := RunConnected(m, events, digest, clock, Monitor.AtDone);
      RunOutcome(done.0, trace, flags, Some(done.1))
  }

  /** When every attempt fails, `run` returns without creating the
      components or starting the monitor, and the service still reports
      itself as running. */
  lemma GivingUpLeavesNoMonitor(m: Manager, connects: nat -> bool, events: seq<Monitor.Event>, digest: Digest, clock: nat -> nat -> Clock.DateTime)
    requires m == NewManager(m.config)
    requires forall i :: 0 <= i < Retry.MaxAttempts ==> !connects(i)
    ensures var r := Run(m, connects, events, digest, clock);
      && r.session.None?
      && r.manager.monitor.None? && r.manager.processor.None?
      && r.manager.running
  {
    Retry.ConnectStopsAtFirstSuccess(connects);
  }

  /** The attempt that connects starts the monitor; unless a callback
      blocks, it polls until the first stop request. */
  lemma ConnectedRunPolls(m: Manager, connects: nat -> bool, events: seq<Monitor.Event>, digest: Digest, clock: nat -> nat -> Clock.DateTime, k: nat)
    requires k < Retry.MaxAttempts && connects(k)
    ensures var r := Run(m, connects, events, digest, clock);
      && |r.attempts| <= k + 1
      && r.session.Some?
      && (r.session.value.end != Blocked ==> |r.session.value.polls| == Monitor.TicksBeforeStop(events))
  {
    Retry.ConnectStopsAtFirstSuccess(connects);
  }

  /** Without a stop request the service never stops itself: after a
      connect it is still running and connected, whether the loop is still
      polling or blocked in a callback. */
  lemma RunStopsOnlyOnRequest(m: Manager, connects: nat -> bool, events: seq<Monitor.Event>, digest: Digest, clock: nat -> nat -> Clock.DateTime)
    requires forall i :: 0 <= i < |events| ==> events[i].Tick?
    ensures var r := Run(m, connects, events, digest, clock);
      r.manager.running && r.manager.conn.Some?
  {
    NoStopAllTicks(events);
  }

  lemma {:induction false} NoStopAllTicks(events: seq<Monitor.Event>)
    requires forall i :: 0 <= i < |events| ==> events[i].Tick?
    ensures Monitor.TicksBeforeStop(events) == |events|
  {
    if |events| > 0 {
      NoStopAllTicks(events[1..]);
    }
  }

  /** A callback that never returns in the first poll blocks the run: the
      service stays running and connected and `stop()` is never reached. */
  lemma HangingCallbackBlocks(m: Manager, events: seq<Monitor.Event>, digest: Digest, clock: nat -> nat -> Clock.DateTime, rec: Monitor.Recording)
    requires |SessionPolls(m, events, rec)| > 0
    requires var first := SessionPolls(m, events, rec)[0];
      |first.dispatched| > 0 && Callback(Ready(m), first.dispatched[0], digest, clock(0)(0)) == Hangs
    ensures var r := RunConnected(m, events, digest, clock, rec);
      && r.1.end == Blocked && r.1.polls == []
      && r.0.running && r.0.conn == Some(Conn(true))
  {
    var all := SessionPolls(m, events, rec);
    var cbs := Callbacks(Ready(m), all[0].dispatched, digest, clock(0));
    assert |cbs| > 0 ==> cbs[0] == Hangs;
    assert Blocks(cbs);
  }

  /** The `monitor` entry of the status report. */
  function MonitorStatus(mon: Option<Monitor.Monitor>): (r: Json)
    ensures r.JObj? && r.fields.Keys == {"active", "last_check", "processed_count"}
    ensures r.fields["active"] == JBool(mon.Some?)
    ensures r.fields["last_check"].JStr? <==> mon.Some? && mon.value.lastCheck.Some?
    ensures r.fields["processed_count"] == JInt(if mon.Some? then |mon.value.processed| else 0)
  {
    var lastCheck :=
      if mon.Some? && mon.value.lastCheck.Some?
      then JStr(Clock.IsoFormat(mon.value.lastCheck.value.local))
      else JNull;
    JObj(map[
      "active" := JBool(mon.Some?),
      "last_check" := lastCheck,
      "processed_count" := JInt(if mon.Some? then |mon.value.processed| else 0)])
  }

  /** The `config` entry of the status report: where the service connects,
      how often it polls and its namespace, and never the credentials. */
  function ConfigStatus(c: Config.ServiceConfig): (r: Json)
    ensures r.JObj? && r.fields.Keys == {"host", "port", "poll_interval", "namespace"}
    ensures r.fields["host"] == JStr(c.host) && r.fields["port"] == JInt(c.port)
    ensures r.fields["poll_interval"] == JInt(c.pollInterval) && r.fields["namespace"] == JStr(c.namespace)
    ensures "username" !in r.fields && "password" !in r.fields
  {
    JObj(map[
      "host" := JStr(c.host),
      "port" := JInt(c.port),
      "poll_interval" := JInt(c.pollInterval),
      "namespace" := JStr(c.namespace)])
  }

  /** `status()` */
  function Status(m: Manager): (r: Json)
    ensures r.JObj? && r.fields.Keys == {"running", "connected", "config", "monitor"}
    ensures r.fields["running"] == JBool(m.running)
    ensures r.fields["connected"] == JBool(m.conn.Some? && m.conn.value.connected)
    ensures r.fields["config"] == ConfigStatus(m.config)
    ensures r.fields["monitor"] == MonitorStatus(m.monitor)
  {
    JObj(map[
      "running" := JBool(m.running),
      "connected" := JBool(m.conn.Some? && m.conn.value.connected),
      "config" := ConfigStatus(m.config),
      "monitor" := MonitorStatus(m.monitor)])
  }

  /** After a run that gave up, the status says running but not connected,
      with no monitor. */
  lemma StatusAfterGivingUp(m: Manager, connects: nat -> bool, events: seq<Monitor.Event>, digest: Digest, clock: nat -> nat -> Clock.DateTime)
    requires m == NewManager(m.config)
    requires forall i :: 0 <= i < Retry.MaxAttempts ==> !connects(i)
    ensures var s := Status(Run(m, connects, events, digest, clock).manager);
      && s.fields["running"] == JBool(true)
      && s.fields["connected"] == JBool(false)
      && s.fields["monitor"].fields["active"] == JBool(false)
  {
    GivingUpLeavesNoMonitor(m, connects, events, digest, clock);
  }

  /** After `stop()` the status says neither running nor connected. */
  lemma StatusAfterStop(m: Manager)
    ensures var s := Status(Stop(m));
      s.fields["running"] == JBool(false) && s.fields["connected"] == JBool(false)
  {
  }
}

=== FILE: monitor.dfy ===
/** `OmeroImageMonitor`: polling the server's timeline for images without a
    code, handing each new one to the processing callback once per
    session, and the run loop with its stop flag. */
module Monitor {
  import opened Wrappers
  import opened Omero
  import Clock
  import Processor

  datatype Monitor = Monitor(
    pollInterval: int,
    batchSize: int,
    namespace: string,
    lastCheck: Option<Clock.Reading>,
    processed: set<int>,
    running: bool)

  /** `OmeroImageMonitor(conn, poll_interval, batch_size, namespace)`:
      never polled, nothing processed, not running. */
  function NewMonitor(pollInterval: int, batchSize: int, namespace: string): (m: Monitor)
    ensures m.lastCheck.None? && m.processed == {} && !m.running
    ensures m.pollInterval == pollInterval && m.batchSize == batchSize && m.namespace == namespace
  {
    Monitor(pollInterval, batchSize, namespace, None, {}, false)
  }

  // ---------------------------------------------------------------------
  // _has_iscc_annotation

  /** Some key of the list starts with `iscc:`. */
  function AnyIsccKey(pairs: seq<Pair>): (r: bool)
    ensures r <==> exists i :: 0 <= i < |pairs| && IsccKey(pairs[i].key)
    decreases |pairs|
  {
    if |pairs| == 0 then false
    else
      var rest := AnyIsccKey(pairs[1..]);
      assert forall i :: 0 < i < |pairs| ==> pairs[i] == pairs[1..][i - 1];
      IsccKey(pairs[0].key) || rest
  }

  /** A map annotation in the namespace with an `iscc:` key. */
  predicate Marked(ns: string, a: Annotation) {
    a.ns == ns && a.pairs.Some? && exists i :: 0 <= i < |a.pairs.value| && IsccKey(a.pairs.value[i].key)
  }

  /** The loop over `listAnnotations()`, returning at the first marked one;
      an unreadable annotation in the namespace raises, and the handler
      answers false. */
  function AnyMarked(ns: string, anns: seq<Annotation>): (r: bool)
    ensures r <==> exists i :: 0 <= i < |ReadablePrefix(ns, anns)| && Marked(ns, anns[i])
    decreases |anns|
  {
    if |anns| == 0 || Unreadable(ns, anns[0]) then false
    else
      var rest := AnyMarked(ns, anns[1..]);
      var pre := ReadablePrefix(ns, anns);
      assert pre == [anns[0]] + ReadablePrefix(ns, anns[1..]);
      assert forall i :: 0 < i < |pre| ==> anns[i] == anns[1..][i - 1];
      (anns[0].ns == ns && anns[0].pairs.Some? && AnyIsccKey(anns[0].pairs.value)) || rest
  }

  /** `_has_iscc_annotation`: an image whose annotations cannot be listed,
      or whose first namespaced non-map annotation comes before any marked
      one, counts as having none. */
  function HasIsccAnnotation(ns: string, image: Image): (r: bool)
    ensures image.annotations.Failure? ==> !r
    ensures r <==>
      (image.annotations.Success?
       && exists i :: 0 <= i < |ReadablePrefix(ns, image.annotations.value)|
                      && Marked(ns, image.annotations.value[i]))
  {
    match image.annotations
    case Failure(_) => false
    case Success(anns) => AnyMarked(ns, anns)
  }

  /** The monitor skips exactly the images for which the processor finds a
      stored code. */
  lemma HasIsccAgreesWithStoredCode(p: Processor.ImageProcessor, image: Image)
    ensures HasIsccAnnotation(p.namespace, image) <==> Processor.GetIsccForImage(p, image).Some?
  {
    if image.annotations.Success? {
      var anns := image.annotations.value;
      forall i | 0 <= i < |anns|
        ensures Marked(p.namespace, anns[i]) <==> Processor.CarriesIscc(p.namespace, anns[i])
      {
        Processor.CarriesIsccWhenKeyed(p.namespace, anns[i]);
      }
    }
  }

  // ---------------------------------------------------------------------
  // get_new_images

  /** A closed range of import times in milliseconds since the epoch. */
  datatype Span = Span(from: int, to: int)

  predicate InWindow(t: int, w: Option<Span>) {
    w.Some? && w.value.from <= t <= w.value.to
  }

  /** The range asked for: from the last check to now, or none (the most
      recent images) on the first poll. */
  function Window(since: Option<Clock.Reading>, now: Clock.Reading): (w: Option<Span>)
    ensures w.Some? <==> since.Some?
    ensures w.Some? ==>
      && w.value.from * 1000 <= since.value.epochMicros < w.value.from * 1000 + 1000
      && w.value.to * 1000 <= now.epochMicros < w.value.to * 1000 + 1000
    ensures w.Some? && since.value.epochMicros <= now.epochMicros ==> w.value.from <= w.value.to
  {
    match since
    case None => None
    case Some(s) => Some(Span(Clock.EpochMillis(s), Clock.EpochMillis(now)))
  }

  /** `conn.timelineListImages(...)` for a range, or for the most recent
      images; a failure is whatever it raises. */
  type Timeline = Option<Span> -> Result<seq<Image>>

  /** The images without a code, in timeline order. */
  function Unannotated(ns: string, images: seq<Image>): (r: seq<Image>)
    ensures |r| <= |images|
    ensures forall x :: x in r <==> x in images && !HasIsccAnnotation(ns, x)
    decreases |images|
  {
    if |images| == 0 then []
    else
      var rest := Unannotated(ns, images[1..]);
      assert forall x :: x in images <==> x == images[0] || x in images[1..];
      if HasIsccAnnotation(ns, images[0]) then rest else [images[0]] + rest
  }

  function Max0(n: int): nat {
    if n < 0 then 0 else n
  }

  /** The generator's loop: stop once `count` reaches the batch size, yield
      each image without a code and count it. */
  function Scan(ns: string, images: seq<Image>, batchSize: int, count: int): (r: seq<Image>)
    ensures |r| <= Max0(batchSize - count)
    decreases |images|
  {
    if |images| == 0 || count >= batchSize then []
    else if HasIsccAnnotation(ns, images[0]) then Scan(ns, images[1..], batchSize, count)
    else [images[0]] + Scan(ns, images[1..], batchSize, count + 1)
  }

  /** The loop yields the first `batchSize - count` images without a code. */
  lemma {:induction false} ScanTakesUnannotated(ns: string, images: seq<Image>, batchSize: int, count: int)
    ensures var u := Unannotated(ns, images);
      Scan(ns, images, batchSize, count) == u[..Min(Max0(batchSize - count), |u|)]
    decreases |images|
  {
    if |images| > 0 && count < batchSize {
      if HasIsccAnnotation(ns, images[0]) {
        ScanTakesUnannotated(ns, images[1..], batchSize, count);
      } else {
        ScanTakesUnannotated(ns, images[1..], batchSize, count + 1);
      }
    }
  }

  /** `get_new_images(since)` with `now` the clock reading taken for the
      upper end of the range: at most `batchSize` images without a code,
      the first ones of the timeline; nothing when the timeline raises. */
  function GetNewImages(m: Monitor, timeline: Timeline, since: Option<Clock.Reading>, now: Clock.Reading): (r: seq<Image>)
    ensures timeline(Window(since, now)).Failure? ==> r == []
    ensures timeline(Window(since, now)).Success? ==>
      var u := Unannotated(m.namespace, timeline(Window(since, now)).value);
      r == u[..Min(Max0(m.batchSize), |u|)]
    ensures |r| <= Max0(m.batchSize)
    ensures forall i :: 0 <= i < |r| ==> !HasIsccAnnotation(m.namespace, r[i])
  {
    match timeline(Window(since, now))
    case Failure(_) => []
    case Success(images) =>
      ScanTakesUnannotated(m.namespace, images, m.batchSize, 0);
      var u := Unannotated(m.namespace, images);
      assert forall i :: 0 <= i < Min(Max0(m.batchSize), |u|) ==> u[..Min(Max0(m.batchSize), |u|)][i] in u;
      Scan(m.namespace, images, m.batchSize, 0)
  }

  // ---------------------------------------------------------------------
  // poll_once

  function IdsOf(images: seq<Image>): set<int> {
    set i | 0 <= i < |images| :: images[i].id
  }

  lemma IdsOfCons(x: Image, rest: seq<Image>)
    ensures IdsOf([x] + rest) == {x.id} + IdsOf(rest)
  {
    var s := [x] + rest;
    assert s[0].id == x.id;
    assert forall i :: 0 < i < |s| ==> s[i] == rest[i - 1];
    assert forall y :: y in IdsOf(rest) ==> y in IdsOf(s) by {
      forall y | y in IdsOf(rest)
        ensures y in IdsOf(s)
      {
        var i :| 0 <= i < |rest| && rest[i].id == y;
        assert s[i + 1].id == y;
      }
    }
    assert forall y :: y in IdsOf(s) ==> y == x.id || y in IdsOf(rest) by {
      forall y | y in IdsOf(s)
        ensures y == x.id || y in IdsOf(rest)
      {
        var i :| 0 <= i < |s| && s[i].id == y;
        if i > 0 {
          assert rest[i - 1].id == y;
        }
      }
    }
  }

  /** No id occurs twice in the list. */
  predicate DistinctIds(images: seq<Image>) {
    forall i, j :: 0 <= i < j < |images| ==> images[i].id != images[j].id
  }

  /** The ids of a list without repeated ids are as many as its entries. */
  lemma {:induction false} DistinctIdsCount(images: seq<Image>)
    requires DistinctIds(images)
    ensures |IdsOf(images)| == |images|
  {
    if |images| > 0 {
      var rest := images[1..];
      assert images == [images[0]] + rest;
      IdsOfCons(images[0], rest);
      DistinctIdsCount(rest);
    }
  }

  /** Every entry of `out` comes from `pool` and has an id outside `seen`. */
  ghost predicate FreshFrom(out: seq<Image>, pool: seq<Image>, seen: set<int>) {
    forall i :: 0 <= i < |out| ==> out[i] in pool && out[i].id !in seen
  }

  /** Putting a not-yet-seen image in front of what the rest of the loop
      handed on keeps the dispatch invariants. */
  lemma DispatchKeeps(processed: set<int>, x: Image, tail: seq<Image>, kept: seq<Image>, seen: set<int>)
    requires x.id !in processed
    requires seen == processed + {x.id} + IdsOf(tail)
    requires FreshFrom(kept, tail, processed + {x.id}) && DistinctIds(kept)
    requires IdsOf(kept) == seen - (processed + {x.id})
    ensures FreshFrom([x] + kept, [x] + tail, processed) && DistinctIds([x] + kept)
    ensures IdsOf([x] + kept) == seen - processed
  {
    var out := [x] + kept;
    IdsOfCons(x, kept);
    forall i | 0 <= i < |out| ensures out[i] in [x] + tail && out[i].id !in processed {
      if i > 0 {
        assert out[i] == kept[i - 1];
      }
    }
    forall i, j | 0 <= i < j < |out| ensures out[i].id != out[j].id {
      assert out[j] == kept[j - 1];
      if i > 0 {
        assert out[i] == kept[i - 1];
      }
    }
  }

  /** The body of the `for image in ...` loop: an image whose id was seen
      in this session is skipped, any other is recorded and handed on. */
  function Dispatch(processed: set<int>, images: seq<Image>): (r: (seq<Image>, set<int>))
    ensures r.1 == processed + IdsOf(images)
    ensures FreshFrom(r.0, images, processed) && DistinctIds(r.0)
    ensures IdsOf(r.0) == r.1 - processed
    ensures |r.0| <= |images|
    decreases |images|
  {
    if |images| == 0 then ([], processed)
    else
      var x := images[0];
      var tail := images[1..];
      assert images == [x] + tail;
      IdsOfCons(x, tail);
      if x.id in processed then
        var r := Dispatch(processed, tail);
        assert FreshFrom(r.0, images, processed) by {
          forall i | 0 <= i < |r.0| ensures r.0[i] in images {
            assert r.0[i] in tail;
          }
        }
        r
      else
        var rest := Dispatch(processed + {x.id}, tail);
        DispatchKeeps(processed, x, tail, rest.0, rest.1);
        ([x] + rest.0, rest.1)
  }

  /** Position `k` holds the first image with its id, and that id was not
      processed before the poll. */
  predicate FirstFresh(processed: set<int>, images: seq<Image>, k: nat)
    requires k < |images|
  {
    images[k].id !in processed && forall j :: 0 <= j < k ==> images[j].id != images[k].id
  }

  /** The images from position `k` on that sit at first-fresh positions,
      in list order. */
  function FreshSelection(processed: set<int>, images: seq<Image>, k: nat): seq<Image>
    requires k <= |images|
    decreases |images| - k
  {
    if k == |images| then []
    else (if FirstFresh(processed, images, k) then [images[k]] else []) + FreshSelection(processed, images, k + 1)
  }

  lemma IdsOfSnoc(s: seq<Image>, x: Image)
    ensures IdsOf(s + [x]) == IdsOf(s) + {x.id}
  {
    var t := s + [x];
    assert t[|s|] == x;
    assert forall i :: 0 <= i < |s| ==> t[i] == s[i];
  }

  /** One step of the loop: a seen id is skipped, any other handed on. */
  lemma DispatchCons(processed: set<int>, x: Image, tail: seq<Image>)
    ensures x.id in processed ==> Dispatch(processed, [x] + tail).0 == Dispatch(processed, tail).0
    ensures x.id !in processed ==> Dispatch(processed, [x] + tail).0 == [x] + Dispatch(processed + {x.id}, tail).0
  {
    assert ([x] + tail)[0] == x && ([x] + tail)[1..] == tail;
  }

  /** Continued from position `k`, with the ids before `k` already seen,
      the loop hands on exactly the first-fresh images from `k` on. */
  lemma {:induction false} DispatchFrom(processed: set<int>, images: seq<Image>, k: nat)
    requires k <= |images|
    ensures Dispatch(processed + IdsOf(images[..k]), images[k..]).0 == FreshSelection(processed, images, k)
    decreases |images| - k
  {
    if k < |images| {
      var seen := processed + IdsOf(images[..k]);
      var x := images[k];
      var tail := images[k + 1..];
      assert images[k..] == [x] + tail;
      assert images[..k + 1] == images[..k] + [x];
      IdsOfSnoc(images[..k], x);
      assert seen + {x.id} == processed + IdsOf(images[..k + 1]);
      assert x.id in seen <==> !FirstFresh(processed, images, k) by {
        if x.id in IdsOf(images[..k]) {
          var j :| 0 <= j < k && images[..k][j].id == x.id;
          assert images[j].id == x.id;
        }
        if j :| 0 <= j < k && images[j].id == x.id {
          assert images[..k][j] == images[j];
        }
      }
      DispatchCons(seen, x, tail);
      DispatchFrom(processed, images, k + 1);
      var next := FreshSelection(processed, images, k + 1);
      if x.id in seen {
        assert seen == processed + IdsOf(images[..k + 1]);
        assert FreshSelection(processed, images, k) == [] + next;
        assert [] + next == next;
      } else {
        assert FreshSelection(processed, images, k) == [x] + next;
      }
    }
  }

  /** The images the poll hands on are, in list order, those holding the
      first occurrence of an id not processed before: each once, and in
      the order `get_new_images` yielded them. */
  lemma DispatchInOrder(processed: set<int>, images: seq<Image>)
    ensures Dispatch(processed, images).0 == FreshSelection(processed, images, 0)
  {
    assert images[..0] == [] && images[0..] == images;
    assert IdsOf(images[..0]) == {};
    assert processed + IdsOf(images[..0]) == processed;
    DispatchFrom(processed, images, 0);
  }

  /** `new_count` equals the number of ids the poll added to the session's
      set. */
  lemma DispatchCounts(processed: set<int>, images: seq<Image>)
    ensures var r := Dispatch(processed, images);
      |r.0| == |r.1 - processed|
  {
    DistinctIdsCount(Dispatch(processed, images).0);
  }

  /** When `last_check_time` is set: after the poll (`AtDone`, as the
      service does) or at the moment the range was queried (`AtQuery`). */
  datatype Recording = AtDone | AtQuery

  /** The clock readings one poll takes: `query` for the range's upper end,
      `done` after the callbacks have run. */
  datatype PollInput = PollInput(timeline: Timeline, query: Clock.Reading, done: Clock.Reading)

  /** One poll: the range it asked for, and the images handed to the
      callback; `poll_once` returns their number. */
  datatype PollResult = PollResult(monitor: Monitor, window: Option<Span>, dispatched: seq<Image>)

  function Poll(m: Monitor, input: PollInput, rec: Recording): (r: PollResult)
    ensures r.window == Window(m.lastCheck, input.query)
    ensures r.monitor.lastCheck == Some(if rec == AtDone then input.done else input.query)
    ensures r.monitor.processed == m.processed + IdsOf(r.dispatched)
    ensures |r.dispatched| == |r.monitor.processed - m.processed|
    ensures |r.dispatched| <= Max0(m.batchSize)
    ensures forall i :: 0 <= i < |r.dispatched| ==>
      r.dispatched[i].id !in m.processed && !HasIsccAnnotation(m.namespace, r.dispatched[i])
    ensures r.monitor.(lastCheck := m.lastCheck, processed := m.processed) == m
    ensures var found := GetNewImages(m, input.timeline, m.lastCheck, input.query);
      && FreshFrom(r.dispatched, found, m.processed)
      && IdsOf(r.dispatched) == IdsOf(found) - m.processed
  {
    var images := GetNewImages(m, input.timeline, m.lastCheck, input.query);
    var d := Dispatch(m.processed, images);
    DispatchCounts(m.processed, images);
    PollResult(m.(processed := d.1, lastCheck := Some(if rec == AtDone then input.done else input.query)), Window(m.lastCheck, input.query), d.0)
  }

  /** A poll hands on the images of `get_new_images` that hold the first
      occurrence of an id not yet processed, in the order they were
      yielded. */
  lemma PollInOrder(m: Monitor, input: PollInput, rec: Recording)
    ensures Poll(m, input, rec).dispatched
         == FreshSelection(m.processed, GetNewImages(m, input.timeline, m.lastCheck, input.query), 0)
  {
    DispatchInOrder(m.processed, GetNewImages(m, input.timeline, m.lastCheck, input.query));
  }

  /** `poll_once` as written: `last_check_time` is taken after the images
      were handled. */
  function PollOnceAsWritten(m: Monitor, input: PollInput): (r: PollResult)
    ensures r.monitor.lastCheck == Some(input.done)
  {
    Poll(m, input, AtDone)
  }

  /** `poll_once` recording the time the range was queried up to. */
  function PollOnce(m: Monitor, input: PollInput): (r: PollResult)
    ensures r.monitor.lastCheck == Some(input.query)
  {
    Poll(m, input, AtQuery)
  }

  /** As written, an image imported while a poll handles its batch falls in
      neither that poll's range nor the next one's: the next range starts
      at the later reading. */
  lemma AsWrittenPollLeavesGap(m: Monitor, first: PollInput, second: PollInput, t: int)
    requires Clock.EpochMillis(first.query) < t < Clock.EpochMillis(first.done)
    ensures var p1 := PollOnceAsWritten(m, first);
      var p2 := PollOnceAsWritten(p1.monitor, second);
      !InWindow(t, p1.window) && !InWindow(t, p2.window)
  {
  }

  /** The same two polls with the query time recorded: the second range
      starts where the first ended, so together they cover every instant
      from the first range's start to the second's end. */
  lemma PollsTile(m: Monitor, first: PollInput, second: PollInput)
    requires m.lastCheck.Some?
    ensures var p1 := PollOnce(m, first);
      var p2 := PollOnce(p1.monitor, second);
      && p1.window.Some? && p2.window.Some?
      && p2.window.value.from == p1.window.value.to
      && forall t :: p1.window.value.from <= t <= p2.window.value.to ==> InWindow(t, p1.window) || InWindow(t, p2.window)
  {
  }

  // ---------------------------------------------------------------------
  // run / stop

  /** What happens between two checks of the running flag: the loop polls
      (and sleeps), or another thread calls `stop()`. */
  datatype Event = Tick(input: PollInput) | StopRequest

  datatype RunResult = RunResult(monitor: Monitor, polls: seq<PollResult>)

  /** The number of polls before the first stop request. */
  function TicksBeforeStop(events: seq<Event>): (n: nat)
    ensures n <= |events|
    ensures n < |events| ==> events[n].StopRequest?
    ensures forall i :: 0 <= i < n ==> events[i].Tick?
  {
    if |events| == 0 || events[0].StopRequest? then 0 else 1 + TicksBeforeStop(events[1..])
  }

  /** `while self._running: poll_once(); sleep(poll_interval)`. */
  function RunLoop(m: Monitor, events: seq<Event>, rec: Recording): (r: RunResult)
    ensures m.running ==> |r.polls| == TicksBeforeStop(events)
    ensures m.running ==> (r.monitor.running <==> TicksBeforeStop(events) == |events|)
    ensures !m.running ==> r == RunResult(m, [])
    decreases |events|
  {
    if !m.running || |events| == 0 then RunResult(m, [])
    else
      match events[0]
      case StopRequest => RunLoop(m.(running := false), events[1..], rec)
      case Tick(input) =>
        var p := Poll(m, input, rec);
        var rest := RunLoop(p.monitor, events[1..], rec);
        RunResult(rest.monitor, [p] + rest.polls)
  }

  /** `run(process_callback)`: raises the running flag, then loops. */
  function Run(m: Monitor, events: seq<Event>, rec: Recording): (r: RunResult)
    ensures |r.polls| == TicksBeforeStop(events)
    ensures r.monitor.running <==> TicksBeforeStop(events) == |events|
  {
    RunLoop(m.(running := true), events, rec)
  }

  /** `stop()` */
  function Stop(m: Monitor): (r: Monitor)
    ensures !r.running
    ensures r.(running := m.running) == m
  {
    m.(running := false)
  }

  /** A stop that arrives before `run` has raised the flag is lost: the
      monitor then polls exactly as if it had never been stopped. */
  lemma StopBeforeRunIsLost(m: Monitor, events: seq<Event>, rec: Recording)
    requires |events| > 0 && events[0].Tick?
    ensures Run(Stop(m), events, rec) == Run(m, events, rec)
    ensures |Run(Stop(m), events, rec).polls| > 0
  {
    assert Stop(m).(running := true) == m.(running := true);
  }

  /** Every poll asked for a range; the first starts at `start` and each
      later one where the previous one ended. */
  predicate Chained(start: int, polls: seq<PollResult>) {
    && (forall i :: 0 <= i < |polls| ==> polls[i].window.Some?)
    && (|polls| > 0 ==> polls[0].window.value.from == start)
    && forall i :: 0 < i < |polls| ==> polls[i].window.value.from == polls[i - 1].window.value.to
  }

  lemma ChainedCons(start: int, p: PollResult, rest: seq<PollResult>)
    requires p.window.Some? && p.window.value.from == start
    requires Chained(p.window.value.to, rest)
    ensures Chained(start, [p] + rest)
  {
    var polls := [p] + rest;
    assert forall i :: 0 < i < |polls| ==> polls[i] == rest[i - 1];
  }

  /** Over a whole run with the query time recorded, the first range starts
      at the last check before the run and each later range starts where the
      previous one ended. */
  lemma {:induction false} RunTiles(m: Monitor, events: seq<Event>)
    requires m.lastCheck.Some?
    ensures Chained(Clock.EpochMillis(m.lastCheck.value), RunLoop(m, events, AtQuery).polls)
    decreases |events|
  {
    if m.running && |events| > 0 && events[0].Tick? {
      var p := Poll(m, events[0].input, AtQuery);
      RunTiles(p.monitor, events[1..]);
      assert RunLoop(m, events, AtQuery).polls == [p] + RunLoop(p.monitor, events[1..], AtQuery).polls;
      ChainedCons(Clock.EpochMillis(m.lastCheck.value), p, RunLoop(p.monitor, events[1..], AtQuery).polls);
    }
  }
}

=== FILE: omero.dfy ===
/** The OMERO objects the service reads and writes, as plain data: images
    with their annotations and original files, and the raw-file store's
    chunked read loop that both hashing paths share. */
module Omero {
  import opened Wrappers
  import opened ByteSeqs

  /** One key/value entry of a map annotation. */
  datatype Pair = Pair(key: string, value: string)

  /** An annotation linked to an image: its namespace, and its key/value
      pairs when it is a map annotation. `None` is any other kind, whose
      `getValue()` does not yield key/value pairs. */
  datatype Annotation = Annotation(ns: string, pairs: Option<seq<Pair>>)

  /** An annotation in namespace `ns` that is not a map annotation: a loop
      that unpacks `for key, _ in ann.getValue()` raises on it. */
  predicate Unreadable(ns: string, a: Annotation) {
    a.ns == ns && a.pairs.None?
  }

  /** The annotations such a loop gets through: those before the first
      unreadable one. */
  function ReadablePrefix(ns: string, anns: seq<Annotation>): (r: seq<Annotation>)
    ensures |r| <= |anns| && r == anns[..|r|]
    ensures forall j :: 0 <= j < |r| ==> !Unreadable(ns, r[j])
    ensures |r| < |anns| ==> Unreadable(ns, anns[|r|])
    decreases |anns|
  {
    if |anns| == 0 || Unreadable(ns, anns[0]) then []
    else
      var rest := ReadablePrefix(ns, anns[1..]);
      assert forall j :: 0 < j <= |rest| ==> ([anns[0]] + rest)[j] == anns[1..][j - 1];
      [anns[0]] + rest
  }

  const IsccPrefix := "iscc:"

  /** `key.startswith("iscc:")` */
  predicate IsccKey(key: string) {
    |IsccPrefix| <= |key| && key[..|IsccPrefix|] == IsccPrefix
  }

  /** `RawFileStore.read(offset, length)` on one file; a failure is whatever
      the server raises. */
  type Reader = (nat, int) -> Result<Bytes>

  /** An original (imported) file: `store` is the raw-file store opened on
      it, or the error raised while opening it. */
  datatype OriginalFile = OriginalFile(id: int, name: string, hash: string, size: nat, store: Result<Reader>)

  /** An image as the services see it. `annotations` is what
      `listAnnotations()` yields or raises, `files` the same for
      `getImportedImageFiles()`, and `acceptsAnnotation` whether saving and
      linking a new map annotation succeeds. */
  datatype Image = Image(
    id: int,
    name: string,
    annotations: Result<seq<Annotation>>,
    files: Result<seq<OriginalFile>>,
    acceptsAnnotation: bool)

  /** `image` with `ann` linked to it. */
  function Link(image: Image, ann: Annotation): (r: Image)
    requires image.annotations.Success?
    ensures r.annotations == Success(image.annotations.value + [ann])
    ensures r.id == image.id && r.files == image.files
  {
    image.(annotations := Success(image.annotations.value + [ann]))
  }

  function Min(a: int, b: int): int {
    if a <= b then a else b
  }

  // ---------------------------------------------------------------------
  // The chunked read loop

  /** How the read loop ends: every byte was fed, a read raised `error`
      after `chunks` had been fed, or a read returned no bytes before the end
      of the file, after which the loop asks for the same range forever. */
  datatype ReadOutcome =
    | Fed(chunks: seq<Bytes>)
    | ReadRaised(chunks: seq<Bytes>, error: Error)
    | Spins(chunks: seq<Bytes>)

  /** The `k`-th chunk was read at the offset reached by the chunks before
      it, with the loop's request `min(chunk, size - offset)`, and was not
      empty. */
  predicate ReadAt(read: Reader, size: nat, chunk: int, chunks: seq<Bytes>, k: nat)
    requires k < |chunks|
  {
    var pos := TotalLength(chunks[..k]);
    && pos < size
    && |chunks[k]| > 0
    && read(pos, Min(chunk, size - pos)) == Success(chunks[k])
  }

  /** Every chunk so far was read as the loop reads it. */
  predicate ReadsAll(read: Reader, size: nat, chunk: int, chunks: seq<Bytes>) {
    forall k :: 0 <= k < |chunks| ==> ReadAt(read, size, chunk, chunks, k)
  }

  lemma TotalLengthAppend(chunks: seq<Bytes>, c: Bytes)
    ensures TotalLength(chunks + [c]) == TotalLength(chunks) + |c|
  {
    assert (chunks + [c])[..|chunks|] == chunks;
  }

  /** A chunk read at the end of the chunks so far, non-empty and with the
      loop's request, extends them. */
  lemma ReadAtExtend(read: Reader, size: nat, chunk: int, acc: seq<Bytes>, data: Bytes)
    requires ReadsAll(read, size, chunk, acc)
    requires var pos := TotalLength(acc);
      pos < size && |data| > 0 && read(pos, Min(chunk, size - pos)) == Success(data)
    ensures ReadsAll(read, size, chunk, acc + [data])
  {
    var next := acc + [data];
    forall k | 0 <= k < |next|
      ensures ReadAt(read, size, chunk, next, k)
    {
      if k < |acc| {
        assert next[..k] == acc[..k] && next[k] == acc[k];
        assert ReadAt(read, size, chunk, acc, k);
      } else {
        assert next[..k] == acc;
      }
    }
  }

  /** A sequence that starts with `acc + [data]` starts with `acc`. */
  lemma PrefixOfExtension(acc: seq<Bytes>, data: Bytes, chunks: seq<Bytes>)
    requires |acc| + 1 <= |chunks| && chunks[..|acc| + 1] == acc + [data]
    ensures |acc| <= |chunks| && chunks[..|acc|] == acc
  {
    assert chunks[..|acc|] == chunks[..|acc| + 1][..|acc|];
  }

  /** `while offset < size: data = store.read(offset, min(chunk, size -
      offset)); hasher.update(data); offset += len(data)`, continued from
      the chunks in `acc`. */
  function ReadLoop(read: Reader, size: nat, chunk: int, acc: seq<Bytes>): (r: ReadOutcome)
    ensures TotalLength(acc) >= size ==> r == Fed(acc)
    ensures |acc| <= |r.chunks|
    ensures r.Fed? && |r.chunks| > |acc| ==> TotalLength(acc) < size
    decreases size - TotalLength(acc)
  {
    var pos := TotalLength(acc);
    if pos >= size then Fed(acc)
    else
      match read(pos, Min(chunk, size - pos))
      case Failure(e) => ReadRaised(acc, e)
      case Success(data) =>
        if |data| == 0 then Spins(acc)
        else
          TotalLengthAppend(acc, data);
          ReadLoop(read, size, chunk, acc + [data])
  }

  /** A non-empty read inside the file continues the loop from the chunks
      read so far plus the new one. */
  lemma ReadLoopStep(read: Reader, size: nat, chunk: int, acc: seq<Bytes>, data: Bytes)
    requires TotalLength(acc) < size
    requires read(TotalLength(acc), Min(chunk, size - TotalLength(acc))) == Success(data) && |data| > 0
    ensures ReadLoop(read, size, chunk, acc) == ReadLoop(read, size, chunk, acc + [data])
  {
  }

  /** The loop only extends the chunks it started from, every chunk it adds
      was read as the loop reads, it ends fed only once `size` bytes are
      reached, it raises only with the error of the read at the offset
      reached, and it spins only on an empty read inside the file. */
  lemma {:induction false} ReadLoopKeeps(read: Reader, size: nat, chunk: int, acc: seq<Bytes>)
    requires ReadsAll(read, size, chunk, acc)
    ensures var r := ReadLoop(read, size, chunk, acc);
      && |acc| <= |r.chunks| && r.chunks[..|acc|] == acc
      && ReadsAll(read, size, chunk, r.chunks)
      && (r.Fed? ==> TotalLength(r.chunks) >= size)
      && (r.ReadRaised? ==>
            var pos := TotalLength(r.chunks);
            pos < size && read(pos, Min(chunk, size - pos)) == Failure(r.error))
      && (r.Spins? ==>
            var pos := TotalLength(r.chunks);
            pos < size && read(pos, Min(chunk, size - pos)) == Success([]))
    decreases size - TotalLength(acc)
  {
    var pos := TotalLength(acc);
    if pos < size {
      match read(pos, Min(chunk, size - pos))
      case Failure(_) =>
      case Success(data) =>
        if |data| > 0 {
          var next := acc + [data];
          TotalLengthAppend(acc, data);
          ReadAtExtend(read, size, chunk, acc, data);
          ReadLoopKeeps(read, size, chunk, next);
          ReadLoopStep(read, size, chunk, acc, data);
          PrefixOfExtension(acc, data, ReadLoop(read, size, chunk, next).chunks);
        }
    }
  }

  /** The read loop from offset 0. */
  function ReadChunks(read: Reader, size: nat, chunk: int): (r: ReadOutcome)
    ensures ReadsAll(read, size, chunk, r.chunks)
    ensures r.Fed? ==> TotalLength(r.chunks) >= size
    ensures r.Fed? && size == 0 ==> r.chunks == []
    ensures r.ReadRaised? ==>
      var pos := TotalLength(r.chunks);
      pos < size && read(pos, Min(chunk, size - pos)) == Failure(r.error)
    ensures r.Spins? ==>
      var pos := TotalLength(r.chunks);
      pos < size && read(pos, Min(chunk, size - pos)) == Success([])
  {
    ReadLoopKeeps(read, size, chunk, []);
    ReadLoop(read, size, chunk, [])
  }

  /** A store that never returns more than it was asked for. */
  ghost predicate HonoursLength(read: Reader) {
    forall pos: nat, n: int :: read(pos, n).Success? ==> |read(pos, n).value| <= n
  }

  /** With a store that honours the requested length, the chunks never run
      past the end of the file: they cover `[0, size)` exactly. */
  lemma {:induction false} ReadCoversFile(read: Reader, size: nat, chunk: int)
    requires HonoursLength(read)
    requires ReadChunks(read, size, chunk).Fed?
    ensures TotalLength(ReadChunks(read, size, chunk).chunks) == size
  {
    var chunks := ReadChunks(read, size, chunk).chunks;
    if |chunks| > 0 {
      var n := |chunks| - 1;
      assert ReadAt(read, size, chunk, chunks, n);
      var pos := TotalLength(chunks[..n]);
      assert |chunks[n]| <= Min(chunk, size - pos) <= size - pos;
    }
  }

  /** Chunks the loop would read from offset 0 are chunks it does read: from
      any prefix of them it runs on exactly as from all of them. */
  lemma {:induction false} ReadLoopThrough(read: Reader, size: nat, chunk: int, acc: seq<Bytes>, reached: seq<Bytes>)
    requires ReadsAll(read, size, chunk, reached)
    requires |acc| <= |reached| && reached[..|acc|] == acc
    ensures ReadLoop(read, size, chunk, acc) == ReadLoop(read, size, chunk, reached)
    decreases |reached| - |acc|
  {
    if |acc| < |reached| {
      var data := reached[|acc|];
      assert ReadAt(read, size, chunk, reached, |acc|);
      assert reached[..|acc|] == acc;
      ReadLoopStep(read, size, chunk, acc, data);
      assert reached[..|acc| + 1] == acc + [data];
      ReadLoopThrough(read, size, chunk, acc + [data], reached);
    } else {
      assert acc == reached;
    }
  }

  /** Inside the file, a read that raises or returns nothing ends the loop
      at once, with the chunks it has. */
  lemma ReadLoopStops(read: Reader, size: nat, chunk: int, acc: seq<Bytes>)
    requires TotalLength(acc) < size
    ensures var pos := TotalLength(acc);
      && (read(pos, Min(chunk, size - pos)).Failure? ==>
            ReadLoop(read, size, chunk, acc) == ReadRaised(acc, read(pos, Min(chunk, size - pos)).error))
      && (read(pos, Min(chunk, size - pos)) == Success([]) ==> ReadLoop(read, size, chunk, acc) == Spins(acc))
  {
  }

  /** An empty read at ANY offset the loop reaches inside the file, first or
      later, makes it spin there, with exactly the chunks before it fed. */
  lemma EmptyReadSpins(read: Reader, size: nat, chunk: int, reached: seq<Bytes>)
    requires ReadsAll(read, size, chunk, reached)
    requires var pos := TotalLength(reached);
      pos < size && read(pos, Min(chunk, size - pos)) == Success([])
    ensures ReadChunks(read, size, chunk) == Spins(reached)
  {
    ReadLoopThrough(read, size, chunk, [], reached);
    ReadLoopStops(read, size, chunk, reached);
  }

  /** A read that raises at any offset the loop reaches inside the file ends
      the loop with that error, after exactly the chunks before it. */
  lemma FailingReadRaises(read: Reader, size: nat, chunk: int, reached: seq<Bytes>, e: Error)
    requires ReadsAll(read, size, chunk, reached)
    requires var pos := TotalLength(reached);
      pos < size && read(pos, Min(chunk, size - pos)) == Failure(e)
    ensures ReadChunks(read, size, chunk) == ReadRaised(reached, e)
  {
    ReadLoopThrough(read, size, chunk, [], reached);
    ReadLoopStops(read, size, chunk, reached);
  }

  /** A store that answers every in-file request with at least one byte. */
  ghost predicate AlwaysProgresses(read: Reader, size: nat) {
    forall pos: nat, n: int :: pos < size && n > 0 ==> read(pos, n).Success? && |read(pos, n).value| > 0
  }

  /** With a positive chunk size and a store that always makes progress, the
      loop never spins and never raises: it feeds the whole file. */
  lemma {:induction false} ReadLoopFeeds(read: Reader, size: nat, chunk: int, acc: seq<Bytes>)
    requires chunk > 0 && AlwaysProgresses(read, size)
    requires ReadsAll(read, size, chunk, acc)
    ensures ReadLoop(read, size, chunk, acc).Fed?
    decreases size - TotalLength(acc)
  {
    var pos := TotalLength(acc);
    if pos < size {
      var data := read(pos, Min(chunk, size - pos)).value;
      var next := acc + [data];
      TotalLengthAppend(acc, data);
      ReadAtExtend(read, size, chunk, acc, data);
      ReadLoopFeeds(read, size, chunk, next);
    }
  }
}

=== FILE: processor.dfy ===
/** `IsccImageProcessor`: hashing an image's first original file, storing
    the code as a map annotation, and reading an existing code back. */
module Processor {
  import opened Wrappers
  import opened ByteSeqs
  import opened IsccSum
  import opened Omero
  import Clock

  datatype ImageProcessor = ImageProcessor(namespace: string, chunkSize: int)

  const DefaultNamespace := "org.iscc.omero.sum"
  const DefaultChunkSize: int := 1024 * 1024

  /** `IsccImageProcessor(conn)` with its defaults. */
  const Default := ImageProcessor(DefaultNamespace, DefaultChunkSize)

  const Version := "1.0"
  const ProcessorName := "omero-iscc-service"

  /** A call that returns `value`, or one that never returns (the read loop
      spinning on an empty read). */
  datatype Ends<T> = Returns(value: T) | Diverges

  // ---------------------------------------------------------------------
  // Generating and storing

  /** `_generate_iscc_for_file`: the code of the file's bytes, read in
      chunks of `chunkSize`, without units; any exception gives none. */
  function GenerateIscc(p: ImageProcessor, f: OriginalFile, digest: Digest): (r: Ends<Option<string>>)
    ensures r.Diverges? <==> f.store.Success? && ReadChunks(f.store.value, f.size, p.chunkSize).Spins?
    ensures r.Returns? && r.value.Some? <==> f.store.Success? && ReadChunks(f.store.value, f.size, p.chunkSize).Fed?
    ensures r.Returns? && r.value.Some? ==>
      r.value.value == digest(ReadChunks(f.store.value, f.size, p.chunkSize).chunks, false).iscc
    ensures r == Returns(None) <==> f.store.Failure? || ReadChunks(f.store.value, f.size, p.chunkSize).ReadRaised?
  {
    match f.store
    case Failure(_) => Returns(None)
    case Success(read) =>
      match ReadChunks(read, f.size, p.chunkSize)
      case ReadRaised(_, _) => Returns(None)
      case Spins(_) => Diverges
      case Fed(chunks) => Returns(Some(digest(chunks, false).iscc))
  }

  /** The five pairs `_store_iscc_annotation` writes, in order. */
  function StoredPairs(code: string, fileName: string, now: Clock.DateTime): (pairs: seq<Pair>)
    ensures |pairs| == 5
    ensures forall i :: 0 <= i < 5 ==> IsccKey(pairs[i].key)
    ensures pairs[0] == Pair("iscc:sum", code)
    ensures pairs[1] == Pair("iscc:version", Version)
    ensures pairs[2] == Pair("iscc:source_file", fileName)
    ensures pairs[3] == Pair("iscc:timestamp", Clock.IsoFormat(now))
    ensures pairs[4] == Pair("iscc:processor", ProcessorName)
  {
    [Pair("iscc:sum", code),
     Pair("iscc:version", Version),
     Pair("iscc:source_file", fileName),
     Pair("iscc:timestamp", Clock.IsoFormat(now)),
     Pair("iscc:processor", ProcessorName)]
  }

  /** `_store_iscc_annotation`: the annotation linked to the image; a save
      or link that fails is re-raised. */
  function StoreAnnotation(p: ImageProcessor, image: Image, code: string, fileName: string, now: Clock.DateTime): (r: Result<Annotation>)
    ensures r.Success? <==> image.acceptsAnnotation
    ensures r.Failure? ==> r.error == StoreError
    ensures r.Success? ==> r.value.ns == p.namespace && r.value.pairs == Some(StoredPairs(code, fileName, now))
  {
    if image.acceptsAnnotation then Success(Annotation(p.namespace, Some(StoredPairs(code, fileName, now))))
    else Failure(StoreError)
  }

  /** What `process_image` returns and the annotation it stored, if any. */
  datatype Processed = Processed(code: Option<string>, stored: Option<Annotation>)

  const Nothing := Processed(None, None)

  /** `process_image`: only the first original file is hashed; the code is
      returned only when it is non-empty and its annotation was stored.
      Nothing escapes: every failure gives none. */
  function ProcessImage(p: ImageProcessor, image: Image, digest: Digest, now: Clock.DateTime): (r: Ends<Processed>)
    ensures !(image.files.Success? && |image.files.value| > 0) ==> r == Returns(Nothing)
    ensures r.Returns? ==> (r.value.code.Some? <==> r.value.stored.Some?)
    ensures r.Returns? && r.value.code.Some? ==>
      && image.files.Success? && |image.files.value| > 0 && image.acceptsAnnotation
      && var f := image.files.value[0];
      && GenerateIscc(p, f, digest) == Returns(r.value.code)
      && |r.value.code.value| > 0
      && r.value.stored == Some(Annotation(p.namespace, Some(StoredPairs(r.value.code.value, f.name, now))))
    ensures r.Diverges? <==>
      image.files.Success? && |image.files.value| > 0 && GenerateIscc(p, image.files.value[0], digest).Diverges?
  {
    match image.files
    case Failure(_) => Returns(Nothing)
    case Success(files) =>
      if |files| == 0 then Returns(Nothing)
      else
        var f := files[0];
        match GenerateIscc(p, f, digest)
        case Diverges => Diverges
        case Returns(None) => Returns(Nothing)
        case Returns(Some(code)) =>
          if |code| == 0 then Returns(Nothing)
          else
            match StoreAnnotation(p, image, code, f.name, now)
            case Failure(_) => Returns(Nothing)
            case Success(ann) => Returns(Processed(Some(code), Some(ann)))
  }

  /** The outcome depends on the first original file only. */
  lemma OnlyFirstFileCounts(p: ImageProcessor, a: Image, b: Image, digest: Digest, now: Clock.DateTime)
    requires a.files.Success? && b.files.Success? && |a.files.value| > 0 && |b.files.value| > 0
    requires a.files.value[0] == b.files.value[0] && a.acceptsAnnotation == b.acceptsAnnotation
    ensures ProcessImage(p, a, digest, now) == ProcessImage(p, b, digest, now)
  {
  }

  /** An image whose first file can be read to its end, with a store that
      accepts the annotation, gets the code of that file's bytes whenever
      that code is non-empty. */
  lemma ReadableImageGetsCode(p: ImageProcessor, image: Image, digest: Digest, now: Clock.DateTime)
    requires image.files.Success? && |image.files.value| > 0 && image.acceptsAnnotation
    requires var f := image.files.value[0];
      p.chunkSize > 0 && f.store.Success? && AlwaysProgresses(f.store.value, f.size)
    ensures var f := image.files.value[0];
      var r := ReadChunks(f.store.value, f.size, p.chunkSize);
      && r.Fed?
      && var code := digest(r.chunks, false).iscc;
      && ProcessImage(p, image, digest, now) ==
        if |code| == 0 then Returns(Nothing)
        else Returns(Processed(Some(code), Some(Annotation(p.namespace, Some(StoredPairs(code, f.name, now))))))
  {
    var f := image.files.value[0];
    ReadLoopFeeds(f.store.value, f.size, p.chunkSize, []);
  }

  // ---------------------------------------------------------------------
  // Reading a stored code back

  /** The `iscc:` entries of a key/value list as a dict; a later entry with
      the same key overwrites an earlier one. */
  function IsccEntries(pairs: seq<Pair>): (m: map<string, string>)
    ensures forall k :: k in m ==> IsccKey(k)
    decreases |pairs|
  {
    if |pairs| == 0 then map[]
    else
      var n := |pairs| - 1;
      var prev := IsccEntries(pairs[..n]);
      if IsccKey(pairs[n].key) then prev[pairs[n].key := pairs[n].value] else prev
  }

  /** A key is in the dict exactly when it starts with `iscc:` and some
      entry has it. */
  lemma {:induction false} IsccEntriesKeys(pairs: seq<Pair>, k: string)
    ensures k in IsccEntries(pairs) <==> IsccKey(k) && exists i :: 0 <= i < |pairs| && pairs[i].key == k
    decreases |pairs|
  {
    if |pairs| > 0 {
      var n := |pairs| - 1;
      IsccEntriesKeys(pairs[..n], k);
      assert forall i :: 0 <= i < n ==> pairs[..n][i] == pairs[i];
      if k != pairs[n].key && (exists i :: 0 <= i < |pairs| && pairs[i].key == k) {
        var i :| 0 <= i < |pairs| && pairs[i].key == k;
        assert pairs[..n][i].key == k;
      }
    }
  }

  /** The value kept for a key is the one of its last entry. */
  lemma {:induction false} IsccEntriesLastWins(pairs: seq<Pair>, k: string)
    requires k in IsccEntries(pairs)
    ensures exists i :: (0 <= i < |pairs| && pairs[i] == Pair(k, IsccEntries(pairs)[k])
                         && forall j :: i < j < |pairs| ==> pairs[j].key != k)
    decreases |pairs|
  {
    var n := |pairs| - 1;
    var m := IsccEntries(pairs);
    if pairs[n].key == k {
      assert pairs[n] == Pair(k, m[k]);
    } else {
      var prefix := pairs[..n];
      IsccEntriesLastWins(prefix, k);
      var i :| 0 <= i < n && prefix[i] == Pair(k, IsccEntries(prefix)[k])
        && forall j :: i < j < n ==> prefix[j].key != k;
      assert pairs[i] == Pair(k, m[k]);
      forall j | i < j < |pairs|
        ensures pairs[j].key != k
      {
        if j < n {
          assert prefix[j] == pairs[j];
        }
      }
    }
  }

  /** A map annotation in namespace `ns` whose `iscc:` entries are not
      empty. */
  predicate CarriesIscc(ns: string, a: Annotation) {
    a.ns == ns && a.pairs.Some? && |IsccEntries(a.pairs.value)| > 0
  }

  /** An annotation carries a code exactly when it is a map annotation in
      the namespace with at least one `iscc:` key. */
  lemma CarriesIsccWhenKeyed(ns: string, a: Annotation)
    ensures CarriesIscc(ns, a) <==>
      a.ns == ns && a.pairs.Some? && exists i :: 0 <= i < |a.pairs.value| && IsccKey(a.pairs.value[i].key)
  {
    if a.ns == ns && a.pairs.Some? {
      var pairs := a.pairs.value;
      var m := IsccEntries(pairs);
      if |m| > 0 {
        var k :| k in m;
        IsccEntriesKeys(pairs, k);
      }
      if exists i :: 0 <= i < |pairs| && IsccKey(pairs[i].key) {
        var i :| 0 <= i < |pairs| && IsccKey(pairs[i].key);
        IsccEntriesKeys(pairs, pairs[i].key);
        assert pairs[i].key in m;
      }
    }
  }

  /** The entries of the first annotation that carries a code; an
      unreadable annotation in the namespace before it raises, and the
      handler answers none. */
  function FirstIsccEntries(ns: string, anns: seq<Annotation>): (r: Option<map<string, string>>)
    ensures r.Some? <==> exists i :: 0 <= i < |ReadablePrefix(ns, anns)| && CarriesIscc(ns, anns[i])
    ensures r.Some? ==> |r.value| > 0 && forall k :: k in r.value ==> IsccKey(k)
    decreases |anns|
  {
    if |anns| == 0 then None
    else if CarriesIscc(ns, anns[0]) then Some(IsccEntries(anns[0].pairs.value))
    else if Unreadable(ns, anns[0]) then None
    else
      var r := FirstIsccEntries(ns, anns[1..]);
      var pre := ReadablePrefix(ns, anns);
      assert pre == [anns[0]] + ReadablePrefix(ns, anns[1..]);
      assert forall i :: 0 < i < |pre| ==> anns[i] == anns[1..][i - 1];
      r
  }

  /** The dict found is the one of the first carrying annotation, when no
      unreadable annotation in the namespace comes before it. */
  lemma {:induction false} FirstIsccEntriesIsFirst(ns: string, anns: seq<Annotation>, i: nat)
    requires i < |anns| && CarriesIscc(ns, anns[i])
    requires forall j :: 0 <= j < i ==> !CarriesIscc(ns, anns[j]) && !Unreadable(ns, anns[j])
    ensures FirstIsccEntries(ns, anns) == Some(IsccEntries(anns[i].pairs.value))
    decreases i
  {
    if i > 0 {
      assert forall j :: 0 <= j < i - 1 ==> anns[1..][j] == anns[j + 1];
      FirstIsccEntriesIsFirst(ns, anns[1..], i - 1);
    }
  }

  /** An unreadable annotation in the namespace hides every code after it:
      `get_iscc_for_image` raises on it and answers none. */
  lemma {:induction false} UnreadableHidesLaterCodes(ns: string, anns: seq<Annotation>, i: nat)
    requires i < |anns| && Unreadable(ns, anns[i])
    requires forall j :: 0 <= j < i ==> !CarriesIscc(ns, anns[j])
    ensures FirstIsccEntries(ns, anns) == None
    decreases i
  {
    if i > 0 {
      assert forall j :: 0 <= j < i - 1 ==> anns[1..][j] == anns[j + 1];
      UnreadableHidesLaterCodes(ns, anns[1..], i - 1);
    }
  }

  /** `get_iscc_for_image`: the `iscc:` entries of the first annotation in
      the processor's namespace that has any; none if there is no such
      annotation, if listing the annotations raises, or if an annotation in
      the namespace that is not a map annotation comes first. */
  function GetIsccForImage(p: ImageProcessor, image: Image): (r: Option<map<string, string>>)
    ensures image.annotations.Failure? ==> r == None
    ensures r.Some? <==>
      (image.annotations.Success?
       && exists i :: 0 <= i < |ReadablePrefix(p.namespace, image.annotations.value)|
                      && CarriesIscc(p.namespace, image.annotations.value[i]))
    ensures r.Some? ==> |r.value| > 0 && forall k :: k in r.value ==> IsccKey(k)
  {
    match image.annotations
    case Failure(_) => None
    case Success(anns) => FirstIsccEntries(p.namespace, anns)
  }

  /** The stored pairs carry a code, and their `iscc:sum` entry is it. */
  lemma StoredPairsSum(ns: string, code: string, fileName: string, now: Clock.DateTime)
    ensures var pairs := StoredPairs(code, fileName, now);
      && CarriesIscc(ns, Annotation(ns, Some(pairs)))
      && "iscc:sum" in IsccEntries(pairs) && IsccEntries(pairs)["iscc:sum"] == code
  {
    var pairs := StoredPairs(code, fileName, now);
    CarriesIsccWhenKeyed(ns, Annotation(ns, Some(pairs)));
    assert IsccKey(pairs[0].key);
    IsccEntriesKeys(pairs, "iscc:sum");
    assert pairs[0].key == "iscc:sum";
    var m := IsccEntries(pairs);
    IsccEntriesLastWins(pairs, "iscc:sum");
    var i :| 0 <= i < |pairs| && pairs[i] == Pair("iscc:sum", m["iscc:sum"])
      && forall j :: i < j < |pairs| ==> pairs[j].key != "iscc:sum";
    assert i == 0;
  }

  /** The annotation `process_image` stores is found again by
      `get_iscc_for_image` with its code under `iscc:sum`, when no earlier
      annotation in the namespace carries one or is unreadable. */
  lemma StoredCodeIsFound(p: ImageProcessor, image: Image, digest: Digest, now: Clock.DateTime)
    requires image.annotations.Success?
    requires forall j :: 0 <= j < |image.annotations.value| ==>
      !CarriesIscc(p.namespace, image.annotations.value[j]) && !Unreadable(p.namespace, image.annotations.value[j])
    requires var r := ProcessImage(p, image, digest, now); r.Returns? && r.value.code.Some?
    ensures var r := ProcessImage(p, image, digest, now).value;
      var found := GetIsccForImage(p, Link(image, r.stored.value));
      found.Some? && "iscc:sum" in found.value && found.value["iscc:sum"] == r.code.value
  {
    var r := ProcessImage(p, image, digest, now).value;
    var f := image.files.value[0];
    var pairs := StoredPairs(r.code.value, f.name, now);
    var ann := Annotation(p.namespace, Some(pairs));
    assert r.stored == Some(ann);
    StoredPairsSum(p.namespace, r.code.value, f.name, now);
    var before := image.annotations.value;
    var anns := before + [ann];
    assert Link(image, ann).annotations == Success(anns);
    var n := |before|;
    assert forall j :: 0 <= j < n ==> anns[j] == before[j];
    assert anns[n] == ann;
    FirstIsccEntriesIsFirst(p.namespace, anns, n);
  }
}

=== FILE: retry.dfy ===
/** The connection retry schedule both service entry points use: at most
    30 attempts, sleeping 2 s after the first failure and half as long again
    after each later one, capped at 30 s. */
module Retry {

  const MaxAttempts: nat := 30
  const FirstDelay: real := 2.0
  const DelayCap: real := 30.0

  /** `min(retry_delay * 1.5, 30)` */
  function NextDelay(d: real): (r: real)
    ensures r <= DelayCap
    ensures r == d * 1.5 || r == DelayCap
    ensures d * 1.5 <= DelayCap ==> r == d * 1.5
  {
    if d * 1.5 <= DelayCap then d * 1.5 else DelayCap
  }

  /** The sleep after the failed attempt `k` (counting from 0): 2 s, then
      half as long again as the one before, but never more than 30 s. */
  function Delay(k: nat): (d: real)
    ensures k == 0 ==> d == FirstDelay
    ensures d <= DelayCap
  {
    if k == 0 then FirstDelay else NextDelay(Delay(k - 1))
  }

  /** Every delay lies in [2, 30]. */
  lemma {:induction false} DelayBounds(k: nat)
    ensures FirstDelay <= Delay(k) <= DelayCap
  {
    if k > 0 {
      DelayBounds(k - 1);
    }
  }

  /** The delays never shrink. */
  lemma DelayGrows(k: nat)
    ensures Delay(k) <= Delay(k + 1)
  {
    DelayBounds(k);
  }

  lemma {:induction false} DelayMonotone(i: nat, j: nat)
    requires i <= j
    ensures Delay(i) <= Delay(j)
    decreases j - i
  {
    if i < j {
      DelayGrows(i);
      DelayMonotone(i + 1, j);
    }
  }

  /** The schedule: 2, 3, 4.5, 6.75, 10.125, 15.1875, 22.78125, then 30
      from the eighth sleep on. Every value is exact in binary floating
      point, so Python's floats compute the same numbers. */
  lemma DelayValues()
    ensures Delay(0) == 2.0 && Delay(1) == 3.0 && Delay(2) == 4.5 && Delay(3) == 6.75
    ensures Delay(4) == 10.125 && Delay(5) == 15.1875 && Delay(6) == 22.78125
    ensures Delay(7) == 30.0
  {
  }

  /** Once the cap is reached it stays. */
  lemma {:induction false} DelayCapped(k: nat)
    requires k >= 7
    ensures Delay(k) == DelayCap
  {
    if k > 7 {
      DelayCapped(k - 1);
    } else {
      DelayValues();
    }
  }

  /** One pass through the retry loop: whether `connect()` succeeded, and the
      sleep that followed, if any. */
  datatype Attempt = Attempt(index: nat, connected: bool, sleep: Sleep)

  datatype Sleep = NoSleep | SleepFor(seconds: real)

  /** The loop from attempt `k` on, where `connects(i)` says whether attempt
      `i` succeeds. A failed attempt before the last sleeps; the last failed
      attempt ends the loop without sleeping. */
  function ConnectFrom(k: nat, connects: nat -> bool): (trace: seq<Attempt>)
    requires k < MaxAttempts
    ensures 1 <= |trace| <= MaxAttempts - k
    ensures forall i :: 0 <= i < |trace| ==> trace[i].index == k + i
    ensures forall i :: 0 <= i < |trace| - 1 ==>
      !trace[i].connected && trace[i].sleep == SleepFor(Delay(k + i))
    ensures trace[|trace| - 1].sleep == NoSleep
    ensures trace[|trace| - 1].connected <==> connects(k + |trace| - 1)
    ensures !trace[|trace| - 1].connected ==> k + |trace| == MaxAttempts
    ensures forall i :: 0 <= i < |trace| ==> trace[i].connected == connects(k + i)
    decreases MaxAttempts - k
  {
    if connects(k) then [Attempt(k, true, NoSleep)]
    else if k == MaxAttempts - 1 then [Attempt(k, false, NoSleep)]
    else
      var rest := ConnectFrom(k + 1, connects);
      var trace := [Attempt(k, false, SleepFor(Delay(k)))] + rest;
      assert forall i :: 1 <= i < |trace| ==> trace[i] == rest[i - 1];
      trace
  }

  /** `for attempt in range(30)` with the sleeps in between. */
  function Connect(connects: nat -> bool): (trace: seq<Attempt>)
    ensures 1 <= |trace| <= MaxAttempts
    ensures forall i :: 0 <= i < |trace| ==> trace[i].index == i && trace[i].connected == connects(i)
    ensures forall i :: 0 <= i < |trace| - 1 ==> trace[i].sleep == SleepFor(Delay(i))
    ensures trace[|trace| - 1].sleep == NoSleep
    ensures !trace[|trace| - 1].connected ==> |trace| == MaxAttempts
  {
    ConnectFrom(0, connects)
  }

  /** The loop ends connected. */
  predicate Connected(trace: seq<Attempt>) {
    |trace| > 0 && trace[|trace| - 1].connected
  }

  /** The loop connects exactly when one of the 30 attempts succeeds, and it
      stops at the first that does. */
  lemma ConnectStopsAtFirstSuccess(connects: nat -> bool)
    ensures Connected(Connect(connects)) <==> exists i :: 0 <= i < MaxAttempts && connects(i)
    ensures forall i :: 0 <= i < |Connect(connects)| - 1 ==> !connects(i)
    ensures !Connected(Connect(connects)) ==> |Connect(connects)| == MaxAttempts
  {
    var trace := Connect(connects);
    var n := |trace|;
    if Connected(trace) {
      assert connects(n - 1);
    } else {
      assert n == MaxAttempts;
      forall i | 0 <= i < MaxAttempts
        ensures !connects(i)
      {
        assert trace[i].connected == connects(i);
      }
    }
  }

  /** Total time slept by a trace. */
  function Slept(trace: seq<Attempt>): real {
    if |trace| == 0 then 0.0
    else
      Slept(trace[..|trace| - 1])
      + (match trace[|trace| - 1].sleep case NoSleep => 0.0 case SleepFor(s) => s)
  }

  /** The sleeps are non-decreasing, at most 30 s each. */
  lemma SleepsBounded(connects: nat -> bool, i: nat, j: nat)
    requires i <= j < |Connect(connects)| - 1
    ensures Connect(connects)[i].sleep.seconds <= Connect(connects)[j].sleep.seconds <= DelayCap
  {
    DelayMonotone(i, j);
    DelayBounds(j);
  }

  /** Sum of the first `n` delays. */
  function DelaySum(n: nat): real {
    if n == 0 then 0.0 else DelaySum(n - 1) + Delay(n - 1)
  }

  lemma {:induction false} SleptIsDelaySum(trace: seq<Attempt>, n: nat)
    requires n <= |trace|
    requires forall i :: 0 <= i < n ==> trace[i].sleep == SleepFor(Delay(i))
    ensures Slept(trace[..n]) == DelaySum(n)
  {
    if n > 0 {
      var prefix := trace[..n];
      assert prefix[..n - 1] == trace[..n - 1];
      SleptIsDelaySum(trace, n - 1);
    }
  }

  lemma {:induction false} DelaySumCapped(n: nat)
    requires n >= 7
    ensures DelaySum(n) == 64.34375 + 30.0 * ((n - 7) as real)
  {
    if n > 7 {
      DelaySumCapped(n - 1);
      DelayCapped(n - 1);
    } else {
      DelayValues();
    }
  }

  /** When the server never answers, the loop gives up after 30 attempts and
      about 12 minutes of sleep: 724.34375 s. */
  lemma GivingUpTakes(connects: nat -> bool)
    requires forall i :: 0 <= i < MaxAttempts ==> !connects(i)
    ensures |Connect(connects)| == MaxAttempts
    ensures Slept(Connect(connects)) == 724.34375
  {
    var trace := Connect(connects);
    var n := |trace|;
    assert !connects(n - 1);
    assert n == MaxAttempts;
    assert trace[n - 1].sleep == NoSleep;
    assert Slept(trace) == Slept(trace[..29]) by {
      assert trace[..n - 1] == trace[..29];
    }
    SleptIsDelaySum(trace, 29);
    DelaySumCapped(29);
  }

  /** `suppress = attempt > 0 and attempt < max_retries - 1`: only the first
      and the last attempt report connection errors. */
  predicate Suppressed(attempt: nat) {
    attempt > 0 && attempt < MaxAttempts - 1
  }
}

=== FILE: service.dfy ===
/** The single-module ingestion service: a watermark `offset` persisted to a
    state file, a cache `seen` from file hash to hashing result, and the
    per-image step that skips, reuses the cache, or hashes and annotates. */
module Service {
  import opened Wrappers
  import opened Json
  import opened ByteSeqs
  import opened IsccSum
  import opened Omero
  import Retry

  const Namespace := "org.iscc.omero.sum"
  const ChunkSize: int := 1024 * 1024
  const BatchLimit: nat := 100

  // ---------------------------------------------------------------------
  // State and its file

  /** The module's globals: `offset` is whatever the state file or the last
      processed image put there, so it is kept as a JSON value. */
  datatype State = State(offset: Json, seen: map<string, SumResult>)

  const Initial := State(JInt(0), map[])

  /** The state file as `load_state` finds it: missing, not readable as
      JSON, or holding a JSON value. */
  datatype StateFile = Absent | Unreadable | Stored(content: Json)

  /** How one `save_state` went: the file was written, nothing was written
      (the directory or the file could not be opened), or writing stopped
      part-way and left a truncated file behind. */
  datatype WriteResult = Written | NotOpened | BrokenOff

  /** Values `len()` accepts; `len` of anything else raises `TypeError`. */
  predicate HasLen(j: Json) {
    j.JStr? || j.JList? || j.JObj?
  }

  /** A stored state `load_state` reads without raising: a dict whose
      `seen` entry, if any, has a length. */
  predicate Loadable(j: Json) {
    j.JObj? && ("seen" in j.fields ==> HasLen(j.fields["seen"]))
  }

  /** `load_state`: the offset comes back from the file and `seen` keeps
      its in-memory contents; a missing or unreadable file, or any error
      while reading it, resets both. */
  function LoadState(file: StateFile, s: State): (r: State)
    ensures !(file.Stored? && Loadable(file.content)) ==> r == Initial
    ensures file.Stored? && Loadable(file.content) ==>
      && r.seen == s.seen
      && r.offset == (if "offset" in file.content.fields then file.content.fields["offset"] else JInt(0))
  {
    if !file.Stored? then Initial
    else
      match Get(file.content, "offset", JInt(0))
      case Failure(_) => Initial
      case Success(off) =>
        var seenData := Get(file.content, "seen", JObj(map[])).value;
        if HasLen(seenData) then State(off, s.seen) else Initial
  }

  /** The JSON form of one cached result: the code and the units, in
      order; the data hash is not saved. */
  function ResultJson(res: SumResult): (j: Json)
    ensures j.JObj? && j.fields.Keys == {"iscc", "units"}
    ensures j.fields["iscc"] == JStr(res.iscc)
    ensures j.fields["units"].JList? && |j.fields["units"].items| == |res.units|
    ensures forall i :: 0 <= i < |res.units| ==> j.fields["units"].items[i] == JStr(res.units[i])
  {
    JObj(map["iscc" := JStr(res.iscc),
             "units" := JList(seq(|res.units|, i requires 0 <= i < |res.units| => JStr(res.units[i])))])
  }

  /** The JSON document `save_state` writes. */
  function StateJson(s: State): (j: Json)
    ensures j.JObj? && j.fields.Keys == {"offset", "seen"}
    ensures j.fields["offset"] == s.offset
    ensures j.fields["seen"].JObj? && j.fields["seen"].fields.Keys == s.seen.Keys
  {
    JObj(map["offset" := s.offset,
             "seen" := JObj(map h | h in s.seen :: ResultJson(s.seen[h]))])
  }

  /** `save_state`: the file after the attempt. A write error is logged and
      swallowed. */
  function SaveState(s: State, write: WriteResult, file: StateFile): (r: StateFile)
    ensures write == Written ==> r == Stored(StateJson(s))
    ensures write == NotOpened ==> r == file
    ensures write == BrokenOff ==> r == Unreadable
  {
    match write
    case Written => Stored(StateJson(s))
    case NotOpened => file
    case BrokenOff => Unreadable
  }

  /** Saving and loading again restores the offset; the cache is never read
      back from the file, so a restarted service (whose `seen` starts empty)
      begins with an empty cache. */
  lemma SaveLoadRoundTrip(s: State, file: StateFile, current: State)
    ensures LoadState(SaveState(s, Written, file), current) == State(s.offset, current.seen)
    ensures LoadState(SaveState(s, Written, file), Initial).seen == map[]
  {
  }

  /** A save that breaks off part-way loses the watermark: the next load
      starts from offset 0. */
  lemma BrokenSaveResetsOffset(s: State, file: StateFile, current: State)
    ensures LoadState(SaveState(s, BrokenOff, file), current) == Initial
  {
  }

  // ---------------------------------------------------------------------
  // process_image

  /** How `process_image` ended for one image. */
  datatype Outcome =
    | AlreadyAnnotated          // an annotation in the namespace exists
    | NoFiles                   // the image has no original files
    | Annotated(ann: Annotation, cached: bool)
    | Failed(error: Error)      // an exception, logged and swallowed
    | Hangs                     // the read loop spins forever

  /** The cache after the step and how the step ended. */
  datatype Processed = Processed(seen: map<string, SumResult>, outcome: Outcome)

  /** The key/value list stored for a result: `iscc:sum`, then `iscc:data`
      when there is a first unit, then `iscc:inst` when there is a second. */
  function AnnotationPairs(res: SumResult): (pairs: seq<Pair>)
    ensures 1 <= |pairs| <= 3
    ensures |pairs| == 1 + (if |res.units| >= 2 then 2 else |res.units|)
    ensures pairs[0] == Pair("iscc:sum", res.iscc)
    ensures |pairs| > 1 ==> pairs[1] == Pair("iscc:data", res.units[0])
    ensures |pairs| > 2 ==> pairs[2] == Pair("iscc:inst", res.units[1])
  {
    [Pair("iscc:sum", res.iscc)]
    + (if |res.units| > 0 then [Pair("iscc:data", res.units[0])] else [])
    + (if |res.units| > 1 then [Pair("iscc:inst", res.units[1])] else [])
  }

  predicate InNamespace(a: Annotation) {
    a.ns == Namespace
  }

  /** The result for the first original file: the cached one when its hash
      is known, otherwise the digest of the chunks the read loop feeds. */
  function HashFile(seen: map<string, SumResult>, f: OriginalFile, digest: Digest): (r: Result<Option<SumResult>>)
    ensures f.hash in seen ==> r == Success(Some(seen[f.hash]))
    ensures f.hash !in seen && r.Success? && r.value.Some? ==>
      && f.store.Success?
      && ReadChunks(f.store.value, f.size, ChunkSize).Fed?
      && r.value.value == digest(ReadChunks(f.store.value, f.size, ChunkSize).chunks, true)
    ensures r.Success? && r.value.None? <==>
      f.hash !in seen && f.store.Success? && ReadChunks(f.store.value, f.size, ChunkSize).Spins?
    ensures r.Failure? && f.store.Failure? ==> r.error == f.store.error
    ensures r.Failure? && f.store.Success? ==>
      && f.hash !in seen
      && ReadChunks(f.store.value, f.size, ChunkSize).ReadRaised?
      && r.error == ReadChunks(f.store.value, f.size, ChunkSize).error
  {
    if f.hash in seen then Success(Some(seen[f.hash]))
    else
      match f.store
      case Failure(e) => Failure(e)
      case Success(read) =>
        match ReadChunks(read, f.size, ChunkSize)
        case ReadRaised(_, e) => Failure(e)
        case Spins(_) => Success(None)
        case Fed(chunks) => Success(Some(digest(chunks, true)))
  }

  /** Every hash cached in `before` is still cached in `after`, with the
      same result. */
  predicate Keeps(before: map<string, SumResult>, after: map<string, SumResult>) {
    forall h :: h in before ==> h in after && after[h] == before[h]
  }

  lemma KeepsTrans(a: map<string, SumResult>, b: map<string, SumResult>, c: map<string, SumResult>)
    requires Keeps(a, b) && Keeps(b, c)
    ensures Keeps(a, c)
  {
  }

  /** The image reaches the hashing step: its annotations can be listed and
      none is in the namespace, and it has at least one original file. */
  predicate ReachesHashing(image: Image) {
    && image.annotations.Success?
    && (forall a :: a in image.annotations.value ==> !InNamespace(a))
    && image.files.Success? && |image.files.value| > 0
  }

  /** `process_image`, apart from the offset update that follows it. */
  function ProcessImage(seen: map<string, SumResult>, image: Image, digest: Digest): (r: Processed)
    ensures Keeps(seen, r.seen)
    ensures r.outcome == AlreadyAnnotated <==>
      image.annotations.Success? && exists a :: a in image.annotations.value && InNamespace(a)
    ensures r.outcome.Annotated? ==>
      && image.annotations.Success? && image.files.Success? && |image.files.value| > 0
      && image.acceptsAnnotation
      && var f := image.files.value[0];
      && f.hash in r.seen
      && r.outcome.ann == Annotation(Namespace, Some(AnnotationPairs(r.seen[f.hash])))
      && r.outcome.cached == (f.hash in seen)
    ensures r.outcome == NoFiles <==>
      && image.annotations.Success? && (forall a :: a in image.annotations.value ==> !InNamespace(a))
      && image.files == Success([])
    ensures r.seen != seen ==>
      image.files.Success? && |image.files.value| > 0 && image.files.value[0].hash !in seen
      && image.files.value[0].hash in r.seen
      && r.seen == seen[image.files.value[0].hash := r.seen[image.files.value[0].hash]]
      && HashFile(seen, image.files.value[0], digest) == Success(Some(r.seen[image.files.value[0].hash]))
    ensures r.outcome == Hangs <==>
      ReachesHashing(image) && HashFile(seen, image.files.value[0], digest) == Success(None)
    ensures ReachesHashing(image) && HashFile(seen, image.files.value[0], digest).Success?
            && HashFile(seen, image.files.value[0], digest).value.Some? ==>
      var f := image.files.value[0];
      var res := HashFile(seen, f, digest).value.value;
      && r.seen == seen[f.hash := res]
      && r.outcome == (if image.acceptsAnnotation
                       then Annotated(Annotation(Namespace, Some(AnnotationPairs(res))), f.hash in seen)
                       else Failed(StoreError))
  {
    match image.annotations
    case Failure(e) => Processed(seen, Failed(e))
    case Success(anns) =>
      if exists a :: a in anns && InNamespace(a) then Processed(seen, AlreadyAnnotated)
      else
        match image.files
        case Failure(e) => Processed(seen, Failed(e))
        case Success(files) =>
          if |files| == 0 then Processed(seen, NoFiles)
          else
            var f := files[0];
            match HashFile(seen, f, digest)
            case Failure(e) => Processed(seen, Failed(e))
            case Success(None) => Processed(seen, Hangs)
            case Success(Some(res)) =>
              var seen' := seen[f.hash := res];
              assert f.hash in seen ==> seen' == seen;
              var ann := Annotation(Namespace, Some(AnnotationPairs(res)));
              if image.acceptsAnnotation then Processed(seen', Annotated(ann, f.hash in seen))
              else Processed(seen', Failed(StoreError))
  }

  /** The service between images: its globals and its state file. */
  datatype Service = Service(state: State, file: StateFile)

  /** `process_image` with the offset update: unless the read loop hangs,
      the offset becomes the image's id and is saved, whatever happened. */
  function Step(svc: Service, image: Image, digest: Digest, write: WriteResult): (r: (Service, Outcome))
    ensures r.1 == ProcessImage(svc.state.seen, image, digest).outcome
    ensures r.1 != Hangs ==>
      && r.0.state == State(JInt(image.id), ProcessImage(svc.state.seen, image, digest).seen)
      && r.0.file == SaveState(r.0.state, write, svc.file)
    ensures r.1 == Hangs ==> r.0 == svc
  {
    var p := ProcessImage(svc.state.seen, image, digest);
    if p.outcome == Hangs then (svc, Hangs)
    else
      var st := State(JInt(image.id), p.seen);
      (Service(st, SaveState(st, write, svc.file)), p.outcome)
  }

  /** Hashing an image whose first file is already cached reads nothing and
      stores the cached result. */
  lemma CachedImageReusesResult(seen: map<string, SumResult>, image: Image, digest: Digest)
    requires image.annotations.Success? && forall a :: a in image.annotations.value ==> !InNamespace(a)
    requires image.files.Success? && |image.files.value| > 0 && image.files.value[0].hash in seen
    requires image.acceptsAnnotation
    ensures ProcessImage(seen, image, digest)
         == Processed(seen, Annotated(Annotation(Namespace, Some(AnnotationPairs(seen[image.files.value[0].hash]))), true))
  {
  }

  /** An image whose first file is not cached and reads to its end is
      annotated with the digest of the chunks read, which is cached under
      the file's hash. */
  lemma FreshImageHashesFile(seen: map<string, SumResult>, image: Image, digest: Digest)
    requires ReachesHashing(image) && image.acceptsAnnotation
    requires var f := image.files.value[0];
      f.hash !in seen && f.store.Success? && ReadChunks(f.store.value, f.size, ChunkSize).Fed?
    ensures var f := image.files.value[0];
      var res := digest(ReadChunks(f.store.value, f.size, ChunkSize).chunks, true);
      ProcessImage(seen, image, digest)
        == Processed(seen[f.hash := res], Annotated(Annotation(Namespace, Some(AnnotationPairs(res))), false))
  {
    var f := image.files.value[0];
    assert HashFile(seen, f, digest)
        == Success(Some(digest(ReadChunks(f.store.value, f.size, ChunkSize).chunks, true)));
  }

  // ---------------------------------------------------------------------
  // run

  /** One pass of the main loop: the images the server returns for the
      current offset, processed in order, stopping after 100 or when a read
      loop hangs. `writes(k)` is how the k-th save goes. */
  datatype Cycle = Cycle(svc: Service, outcomes: seq<Outcome>)

  function ProcessBatch(svc: Service, images: seq<Image>, digest: Digest, writes: nat -> WriteResult, k: nat): (r: Cycle)
    requires k <= |images|
    ensures |r.outcomes| <= |images| - k
    ensures r.outcomes == [] <==> k == |images|
    decreases |images| - k
  {
    if k == |images| then Cycle(svc, [])
    else
      var st := Step(svc, images[k], digest, writes(k));
      if st.1 == Hangs then Cycle(svc, [Hangs])
      else
        var rest := ProcessBatch(st.0, images, digest, writes, k + 1);
        Cycle(rest.svc, [st.1] + rest.outcomes)
  }

  /** No outcome but the last is a hang. */
  predicate HangsOnlyLast(outs: seq<Outcome>) {
    forall i :: 0 <= i < |outs| - 1 ==> outs[i] != Hangs
  }

  lemma HangsOnlyLastCons(o: Outcome, rest: seq<Outcome>)
    requires o != Hangs && HangsOnlyLast(rest)
    ensures HangsOnlyLast([o] + rest)
  {
    var outs := [o] + rest;
    forall i | 0 <= i < |outs| - 1 ensures outs[i] != Hangs {
      if i > 0 {
        assert outs[i] == rest[i - 1];
      }
    }
  }

  /** The batch handles the images from `k` on, one outcome each, and stops
      early only right after a hang; handling none changes nothing. */
  lemma {:induction false} BatchStopsOnlyAtHang(svc: Service, images: seq<Image>, digest: Digest, writes: nat -> WriteResult, k: nat)
    requires k <= |images|
    ensures var r := ProcessBatch(svc, images, digest, writes, k);
      && |r.outcomes| <= |images| - k
      && HangsOnlyLast(r.outcomes)
      && ((|r.outcomes| == 0 || r.outcomes[|r.outcomes| - 1] != Hangs) ==> |r.outcomes| == |images| - k)
      && (|r.outcomes| == 0 ==> r.svc == svc)
    decreases |images| - k
  {
    var r := ProcessBatch(svc, images, digest, writes, k);
    if k == |images| {
      assert r == Cycle(svc, []);
    } else {
      var st := Step(svc, images[k], digest, writes(k));
      if st.1 == Hangs {
        assert r == Cycle(svc, [Hangs]);
      } else {
        BatchStopsOnlyAtHang(st.0, images, digest, writes, k + 1);
        var rest := ProcessBatch(st.0, images, digest, writes, k + 1);
        var outs := [st.1] + rest.outcomes;
        assert r == Cycle(rest.svc, outs);
        HangsOnlyLastCons(st.1, rest.outcomes);
        assert |rest.outcomes| > 0 ==> outs[|outs| - 1] == rest.outcomes[|rest.outcomes| - 1];
      }
    }
  }

  /** A batch of steps from position `k` to `end`, each step given as a
      function of the service before it and its position. */
  function Steps(step: (Service, nat) -> (Service, Outcome), svc: Service, k: nat, end: nat): (r: Cycle)
    ensures k + |r.outcomes| <= end || r.outcomes == []
    decreases end - k
  {
    if end <= k then Cycle(svc, [])
    else
      var st := step(svc, k);
      if st.1 == Hangs then Cycle(svc, [Hangs])
      else
        var rest := Steps(step, st.0, k + 1, end);
        Cycle(rest.svc, [st.1] + rest.outcomes)
  }

  /** The service after `n` steps from position `k` on, whatever their
      outcomes: the state threaded through the batch. */
  function Through(step: (Service, nat) -> (Service, Outcome), svc: Service, k: nat, n: nat): Service
    decreases n
  {
    if n == 0 then svc else Through(step, step(svc, k).0, k + 1, n - 1)
  }

  /** `Step` on the `j`-th image, saved with the `j`-th write; past the
      last image there is nothing to step. */
  function StepOf(images: seq<Image>, digest: Digest, writes: nat -> WriteResult): (Service, nat) -> (Service, Outcome) {
    (s: Service, j: nat) => if j < |images| then Step(s, images[j], digest, writes(j)) else (s, Hangs)
  }

  lemma {:induction false} BatchIsSteps(svc: Service, images: seq<Image>, digest: Digest, writes: nat -> WriteResult, k: nat)
    requires k <= |images|
    ensures ProcessBatch(svc, images, digest, writes, k) == Steps(StepOf(images, digest, writes), svc, k, |images|)
    decreases |images| - k
  {
    if k < |images| {
      var st := Step(svc, images[k], digest, writes(k));
      assert StepOf(images, digest, writes)(svc, k) == st;
      if st.1 != Hangs {
        BatchIsSteps(st.0, images, digest, writes, k + 1);
      }
    }
  }

  /** The `i`-th outcome of a batch is the step at `k + i` on the service
      the earlier steps left. */
  lemma {:induction false} StepsOutcomeAt(step: (Service, nat) -> (Service, Outcome), svc: Service, k: nat, end: nat, i: nat)
    requires i < |Steps(step, svc, k, end).outcomes|
    ensures Steps(step, svc, k, end).outcomes[i] == step(Through(step, svc, k, i), k + i).1
    decreases i
  {
    var st := step(svc, k);
    if i > 0 {
      var rest := Steps(step, st.0, k + 1, end);
      assert Steps(step, svc, k, end).outcomes == [st.1] + rest.outcomes;
      StepsOutcomeAt(step, st.0, k + 1, end, i - 1);
      assert k + 1 + (i - 1) == k + i;
    }
  }

  /** A batch ends with the service of its last step, or of the step
      before a hang. */
  lemma {:induction false} StepsEndThrough(step: (Service, nat) -> (Service, Outcome), svc: Service, k: nat, end: nat)
    ensures var r := Steps(step, svc, k, end);
      var done := if |r.outcomes| > 0 && r.outcomes[|r.outcomes| - 1] == Hangs then |r.outcomes| - 1 else |r.outcomes|;
      r.svc == Through(step, svc, k, done)
    decreases end - k
  {
    var r := Steps(step, svc, k, end);
    if k < end {
      var st := step(svc, k);
      if st.1 != Hangs {
        StepsEndThrough(step, st.0, k + 1, end);
        var rest := Steps(step, st.0, k + 1, end);
        var outs := [st.1] + rest.outcomes;
        assert r == Cycle(rest.svc, outs);
        assert |rest.outcomes| > 0 ==> outs[|outs| - 1] == rest.outcomes[|rest.outcomes| - 1];
      }
    }
  }

  /** The `i`-th outcome of `ProcessBatch` is `Step` of image `k + i` with
      save `k + i` (`StepOf`), on the service the earlier images left. */
  lemma BatchOutcomeAt(svc: Service, images: seq<Image>, digest: Digest, writes: nat -> WriteResult, k: nat, i: nat)
    requires k <= |images| && i < |ProcessBatch(svc, images, digest, writes, k).outcomes|
    ensures var step := StepOf(images, digest, writes);
      && k + i < |images|
      && ProcessBatch(svc, images, digest, writes, k).outcomes[i] == step(Through(step, svc, k, i), k + i).1
  {
    BatchIsSteps(svc, images, digest, writes, k);
    StepsOutcomeAt(StepOf(images, digest, writes), svc, k, |images|, i);
  }

  /** `ProcessBatch` leaves the service of its last step, or of the step
      before a hang. */
  lemma BatchEndsThrough(svc: Service, images: seq<Image>, digest: Digest, writes: nat -> WriteResult, k: nat)
    requires k <= |images|
    ensures var r := ProcessBatch(svc, images, digest, writes, k);
      r.svc == Through(StepOf(images, digest, writes), svc, k,
                       if |r.outcomes| > 0 && r.outcomes[|r.outcomes| - 1] == Hangs then |r.outcomes| - 1 else |r.outcomes|)
  {
    BatchIsSteps(svc, images, digest, writes, k);
    StepsEndThrough(StepOf(images, digest, writes), svc, k, |images|);
  }

  /** Every hash cached before the batch keeps its result. */
  lemma {:induction false} BatchKeepsCache(svc: Service, images: seq<Image>, digest: Digest, writes: nat -> WriteResult, k: nat)
    requires k <= |images|
    ensures Keeps(svc.state.seen, ProcessBatch(svc, images, digest, writes, k).svc.state.seen)
    decreases |images| - k
  {
    var r := ProcessBatch(svc, images, digest, writes, k);
    if k == |images| {
      assert r.svc == svc;
    } else {
      var st := Step(svc, images[k], digest, writes(k));
      if st.1 == Hangs {
        assert r.svc == svc;
      } else {
        BatchKeepsCache(st.0, images, digest, writes, k + 1);
        var rest := ProcessBatch(st.0, images, digest, writes, k + 1);
        assert r.svc == rest.svc;
        assert Keeps(svc.state.seen, st.0.state.seen);
        KeepsTrans(svc.state.seen, st.0.state.seen, rest.svc.state.seen);
      }
    }
  }

  /** A batch that handles images and does not end in a hang leaves the
      offset at the id of the last image. */
  lemma {:induction false} BatchWatermark(svc: Service, images: seq<Image>, digest: Digest, writes: nat -> WriteResult, k: nat)
    requires k <= |images|
    ensures var r := ProcessBatch(svc, images, digest, writes, k);
      |r.outcomes| > 0 && r.outcomes[|r.outcomes| - 1] != Hangs ==>
        r.svc.state.offset == JInt(images[|images| - 1].id)
    decreases |images| - k
  {
    var r := ProcessBatch(svc, images, digest, writes, k);
    if k == |images| {
      assert r.outcomes == [];
    } else {
      var st := Step(svc, images[k], digest, writes(k));
      if st.1 == Hangs {
        assert r.outcomes == [Hangs];
      } else {
        var rest := ProcessBatch(st.0, images, digest, writes, k + 1);
        BatchStopsOnlyAtHang(st.0, images, digest, writes, k + 1);
        BatchWatermark(st.0, images, digest, writes, k + 1);
        var outs := [st.1] + rest.outcomes;
        assert r == Cycle(rest.svc, outs);
        if |rest.outcomes| == 0 {
          assert k + 1 == |images| && rest.svc == st.0;
          assert st.0.state.offset == JInt(images[k].id);
        } else {
          assert outs[|outs| - 1] == rest.outcomes[|rest.outcomes| - 1];
        }
      }
    }
  }

  /** The body of `run`'s main loop. The server's answer to the query for
      the current offset is an input: its ordering and filtering are the
      server's business. A query that raises processes nothing. */
  function PollCycle(svc: Service, query: Json -> Result<seq<Image>>, digest: Digest, writes: nat -> WriteResult): (r: Cycle)
    ensures |r.outcomes| <= BatchLimit
    ensures query(svc.state.offset).Failure? ==> r == Cycle(svc, [])
    ensures Keeps(svc.state.seen, r.svc.state.seen)
    ensures query(svc.state.offset).Success? && (|r.outcomes| == 0 || r.outcomes[|r.outcomes| - 1] != Hangs) ==>
      |r.outcomes| == Omero.Min(|query(svc.state.offset).value|, BatchLimit)
  {
    match query(svc.state.offset)
    case Failure(_) => Cycle(svc, [])
    case Success(images) =>
      var batch := if |images| <= BatchLimit then images else images[..BatchLimit];
      BatchStopsOnlyAtHang(svc, batch, digest, writes, 0);
      BatchKeepsCache(svc, batch, digest, writes, 0);
      ProcessBatch(svc, batch, digest, writes, 0)
  }

  /** After a cycle that does not hang, the watermark is the id of the last
      image processed. */
  lemma CycleAdvancesWatermark(svc: Service, query: Json -> Result<seq<Image>>, digest: Digest, writes: nat -> WriteResult)
    requires query(svc.state.offset).Success? && |query(svc.state.offset).value| > 0
    requires var r := PollCycle(svc, query, digest, writes);
      |r.outcomes| > 0 && r.outcomes[|r.outcomes| - 1] != Hangs
    ensures var images := query(svc.state.offset).value;
      var n := Omero.Min(|images|, BatchLimit);
      PollCycle(svc, query, digest, writes).svc.state.offset == JInt(images[n - 1].id)
  {
    var images := query(svc.state.offset).value;
    var batch := if |images| <= BatchLimit then images else images[..BatchLimit];
    var n := Omero.Min(|images|, BatchLimit);
    assert |batch| == n && batch[n - 1] == images[n - 1];
    assert PollCycle(svc, query, digest, writes) == ProcessBatch(svc, batch, digest, writes, 0);
    BatchWatermark(svc, batch, digest, writes, 0);
  }

  /** The `i`-th outcome of a cycle is `Step` of the `i`-th image of the
      server's answer, with the `i`-th save, on the service the earlier
      images of the cycle left. */
  lemma CycleOutcomeAt(svc: Service, query: Json -> Result<seq<Image>>, digest: Digest, writes: nat -> WriteResult, i: nat)
    requires query(svc.state.offset).Success? && i < |PollCycle(svc, query, digest, writes).outcomes|
    ensures var images := query(svc.state.offset).value;
      var step := StepOf(images[..Omero.Min(|images|, BatchLimit)], digest, writes);
      && i < Omero.Min(|images|, BatchLimit)
      && PollCycle(svc, query, digest, writes).outcomes[i] == step(Through(step, svc, 0, i), i).1
  {
    var images := query(svc.state.offset).value;
    var batch := images[..Omero.Min(|images|, BatchLimit)];
    CycleIsBatch(svc, query, digest, writes);
    BatchOutcomeAt(svc, batch, digest, writes, 0, i);
  }

  lemma CycleIsBatch(svc: Service, query: Json -> Result<seq<Image>>, digest: Digest, writes: nat -> WriteResult)
    requires query(svc.state.offset).Success?
    ensures var images := query(svc.state.offset).value;
      PollCycle(svc, query, digest, writes) == ProcessBatch(svc, images[..Omero.Min(|images|, BatchLimit)], digest, writes, 0)
  {
    var images := query(svc.state.offset).value;
    assert images[..Omero.Min(|images|, BatchLimit)] == if |images| <= BatchLimit then images else images[..BatchLimit];
  }

  /** `run` up to its main loop: the state is loaded, then the connection is
      tried on the retry schedule; without a connection the service returns
      and never polls. */
  datatype Started = Started(state: State, attempts: seq<Retry.Attempt>, polling: bool)

  function Start(file: StateFile, connects: nat -> bool): (r: Started)
    ensures r.state == LoadState(file, Initial) && r.state.seen == map[]
    ensures r.polling <==> exists i :: 0 <= i < Retry.MaxAttempts && connects(i)
    ensures |r.attempts| <= Retry.MaxAttempts
  {
    var trace := Retry.Connect(connects);
    Retry.ConnectStopsAtFirstSuccess(connects);
    Started(LoadState(file, Initial), trace, Retry.Connected(trace))
  }
}

=== FILE: wrappers.dfy ===
/** Failure-carrying wrappers shared by every module of the model.

    A Python function that raises is modelled as returning `Failure(e)`, where
    `e` names the Python exception class that escapes it. */
module Wrappers {

  datatype Option<+T> = None | Some(value: T) {

    /** The value, or `default` when there is none (Python's `x or default`
        for optional values, `dict.get(k, default)` for lookups). */
    function GetOr(default: T): T {
      match this
      case Some(v) => v
      case None => default
    }
  }

  /** The Python exception classes the model distinguishes. */
  datatype Error =
    | AttributeError  // attribute or method missing on the receiver
    | ValueError      // bad value: failed int() parse, impossible reshape, bad JSON
    | TypeError       // wrong operand type: subscripting a non-dict, unknown keyword
    | KeyError        // missing key in a dict subscript
    | RuntimeError    // explicit `raise RuntimeError(...)`
    | StoreError      // any failure raised by the OMERO server or its stores

  datatype Result<+T> = Success(value: T) | Failure(error: Error) {

    function ToOption(): Option<T> {
      match this
      case Success(v) => Some(v)
      case Failure(_) => None
    }
  }
}
